=== FILE: README.md ===
# IranSeda audiobook pipeline — a Dafny model

This project models the three stages of the IranSeda audiobook scraper in Dafny
and proves properties of them:

1. **Discovery** (`scrape_iranseda_env.py`) walks the tag-list pages in a page
   range. It skips any page whose status is not 200. It collects every book link
   (`?VALID=TRUE&g=` plus a numeric `g=` id), makes each link absolute and keeps
   the first entry for each id. The result is the `AudioBook_ID,URL` table.
2. **Detail merge** (`script_iran_seda_final_STREAM_MERGE_v6_env.py`) fetches
   each discovered detail page. From the page it reads:
   - the title and descriptions;
   - the labelled metadata and item-info fields;
   - the cover image and the `AttID` asset token.

   It builds the player link. When the page gives both an id and a non-zero
   token, it asks the book-details API for the MP3 downloads and picks the
   largest one. Each row ends up either among the merged records or among the
   error rows.
3. **Podcast feed** (`tools/csv_to_podcast.py`) turns the merged rows into an
   RSS 2.0 / iTunes feed. For each row it:
   - builds the item description from the filled columns;
   - checks the audio URL with a HEAD request (`Content-Type` must be
     `audio/mpeg` and `Content-Length` must be present);
   - escapes the text fields and wraps the description in CDATA.

   It then assembles the channel around the items.

Each Python operation the scraper depends on has its own Dafny definition. The
definitions follow Python on the inputs the scripts handle, with the exceptions
listed under "Left out". Among them: no percent-decoding in the query parser,
ASCII-only case folding for `re.I`, ASCII-only digits for `\d` and `int`, and no
`_` digit separators in `int`.

| Python operation | Modelled as |
|---|---|
| `str.strip` | `Text.Strip` |
| `str.replace` | `Text.ReplaceAll` |
| `",".join` and `str.split` | `Text.Join` and `Text.SplitOn` |
| `int(text)` | `Numerals.ParseInt` |
| `str(n)` | `Numerals.NatToString` |
| `re.search(r"[?&]key=(\d+)")` | `Urls.TokenValue` |
| `parse_qs(urlparse(url).query)["g"][0]` | `Urls.FirstQueryValue` |
| `xml.sax.saxutils.escape` | `Xml.Escape` |
| Python dict lookup with a default | `Audio.Get` |

Network access, parsed HTML and the clock enter the model only as parameters:
- a page fetch is a function from URL to outcome;
- a page is the data the helpers read from it;
- the HEAD reply is a status plus the header list.

Modules, in dependency order:
- `Wrappers`: `Option`/`Result`.
- `Seqs`: first match in a sequence.
- `Text`: strip, replace, join, split, lower.
- `Numerals`: digit runs, `str`, `int`.
- `Urls`: `abs_url`, the `[?&]key=(\d+)` search, the query parser.
- `Extract`: `parse_page` and its helpers.
- `Audio`: `get_mp3s_from_api`.
- `Merge`: the merge loop.
- `Xml`: `escape` and `cdata`.
- `Feed`: `safe_get`, `fetch_audio_length`, `build_item` and the channel.
- `Discovery`: the page loop, link extraction and dedup.

Where the tests and the code disagree, the model follows the code:
- `tests/test_parse_page.py:13-23` expects an absolute cover URL.
- `parse_page` (line 128) returns the `og:image` content verbatim. So
  `Extract.CoverImage` keeps `/images/cover.jpg?AttID=1234` relative, as the
  code does.

## Model

| member | source | states |
|---|---|---|
| Text.Strip | script_iran_seda_final_STREAM_MERGE_v6_env.py:168 | The result has no whitespace at either end, is no longer than the text, and equals the text when that is already stripped. Text.StripTrims and Text.TrimUnique pin it down exactly. |
| Text.SplitOn | tools/csv_to_podcast.py:44 | `split` gives at least one piece, no piece holds the separator, and joining the pieces with the separator gives back the text. Text.SplitJoin is the converse. |
| Text.BeforeFirst | tools/csv_to_podcast.py:44 | `split(c)[0]` is a prefix without `c`, followed in the text by `c` or by nothing. |
| Text.Lower | tools/csv_to_podcast.py:44 | `lower` keeps the length and folds each character on its own. |
| Numerals.NatToString | tools/csv_to_podcast.py:101 | `str(n)` is a non-empty run of digits with no leading zero (except `0` itself) whose value is `n`. |
| Text.StripTrims | script_iran_seda_final_STREAM_MERGE_v6_env.py:168 | `strip` cuts whitespace from both ends and nothing else: its result is a stripped infix of the text with only whitespace before and after it. |
| Text.TrimUnique | script_iran_seda_final_STREAM_MERGE_v6_env.py:168 | A text has exactly one such trim, so the property above determines `strip`'s result. |
| Urls.AbsUrl | script_iran_seda_final_STREAM_MERGE_v6_env.py:31-33 | A URL starting with `http` is kept unchanged. A root-relative path is resolved against the site origin. The empty string becomes the site root. |
| Urls.AbsUrlIdempotent | scrape_iranseda_env.py:17-20 | After one application the URL starts with `http`, so a second `abs_url` changes nothing. |
| Urls.TokenValue | script_iran_seda_final_STREAM_MERGE_v6_env.py:72 | The search finds nothing exactly when no `?` or `&` is followed by the key and a digit. |
| Urls.TokenValueFirstMatch | script_iran_seda_final_STREAM_MERGE_v6_env.py:72-73 | When the first match starts at `i`, the search yields the number written by the digit run after the key there, as `int(m.group(1))` reads it. |
| Urls.FieldReadsBack | script_iran_seda_final_STREAM_MERGE_v6_env.py:72-73 | Appending `&key=` and a digit run to a text without a match makes the search return that run's number, whatever follows it. |
| Urls.IdReadsBack | scrape_iranseda_env.py:34-36 | A `&g=` field appended to a page address without a `g=` match reads back as the id's number. |
| Urls.NoTokenInFront | script_iran_seda_final_STREAM_MERGE_v6_env.py:72 | When no `?` or `&` in a prefix is followed by the key's first letter, the search of the whole text equals the search of the rest. |
| Urls.UrlCleaned | script_iran_seda_final_STREAM_MERGE_v6_env.py:130 | After `urlparse`'s cleaning no tab, CR or LF is left in the address. |
| Urls.QueryOf | script_iran_seda_final_STREAM_MERGE_v6_env.py:130 | The query part of an address holds no `#`. |
| Urls.QueryField | script_iran_seda_final_STREAM_MERGE_v6_env.py:130 | A field that `parse_qsl` reads as a pair has a non-empty value. |
| Urls.QueryPairs | script_iran_seda_final_STREAM_MERGE_v6_env.py:130 | Every pair read from the query has a non-empty value, because blank values are dropped. Urls.FirstQueryValue characterises the lookup over these pairs. |
| Urls.FirstQueryValue | script_iran_seda_final_STREAM_MERGE_v6_env.py:130-131 | The lookup is missing exactly when no query pair has the name. Otherwise it is the value of the first pair with that name, and that value is never blank, because `parse_qs` drops blank values. |
| Urls.FirstQueryValueAt | script_iran_seda_final_STREAM_MERGE_v6_env.py:130-131 | When pair `k` is the first pair with the name, the lookup yields its value. |
| Extract.MetadataValue | script_iran_seda_final_STREAM_MERGE_v6_env.py:52-58 | A field is missing when no `dt` contains the label. A value found always comes from an item whose `dt` contains the label. |
| Extract.MetadataFirstMatchWins | script_iran_seda_final_STREAM_MERGE_v6_env.py:53-57 | The first item whose `dt` contains the label decides the value, even when its `dd` is missing. |
| Extract.MetadataIgnoresLater | script_iran_seda_final_STREAM_MERGE_v6_env.py:53-57 | Once a matching item exists, items appended after it do not change the value. |
| Extract.ItemInfoValue | script_iran_seda_final_STREAM_MERGE_v6_env.py:44-50 | The value is missing exactly when no `span` contains the label. A value found is stripped. |
| Extract.ItemInfoFirstMatchWins | script_iran_seda_final_STREAM_MERGE_v6_env.py:45-49 | The first matching item gives its whole text with the label removed, then stripped. |
| Extract.ItemInfoValueWithoutLabel | script_iran_seda_final_STREAM_MERGE_v6_env.py:48-49 | When the label is only in the span's text and not in the item's own text, the value is the stripped item text. |
| Extract.OgImage | script_iran_seda_final_STREAM_MERGE_v6_env.py:60-63 | A non-empty `og:image` content is returned unchanged. The result is missing exactly when there is no `og:image` content or it is empty. |
| Extract.CoverImage | script_iran_seda_final_STREAM_MERGE_v6_env.py:128 | The cover is the `og:image` URL when there is one, else the first image source. It is missing only when there is neither. |
| Extract.ExtractAttId | script_iran_seda_final_STREAM_MERGE_v6_env.py:69-77 | A token in `og:image` wins. The token is missing exactly when neither `og:image` nor any image source carries one. |
| Extract.AttIdFromFirstImage | script_iran_seda_final_STREAM_MERGE_v6_env.py:74-76 | Without a token in `og:image`, the first image source carrying a token decides it. |
| Extract.PlayerLink | script_iran_seda_final_STREAM_MERGE_v6_env.py:153 | A player link exists exactly when the id is non-empty and the token is present and non-zero. These are the truthiness tests `g and attid`. |
| Extract.BuildPlayerLink | script_iran_seda_final_STREAM_MERGE_v6_env.py:84-85 | The player link starts with the details page of book `g` and continues with the token field. Extract.PlayerLinkRoundTrip reads both values back. |
| Extract.PlayerLinkRoundTrip | script_iran_seda_final_STREAM_MERGE_v6_env.py:84-85 | Searching the link `build_player_link` builds for `g=` gives back the book id. Searching it for `AttID=`, ignoring case, gives back the token. |
| Extract.ParsePage | script_iran_seda_final_STREAM_MERGE_v6_env.py:108-155 | The record has these fields: <br>• the id from the page URL's `g` query value; <br>• the heading as the title, and both descriptions defaulting to empty; <br>• each of the twelve metadata fields looked up under its own label; <br>• the duration and episode count looked up in the item info under their labels; <br>• the extracted token and the chosen cover; <br>• a player link exactly when there is an id and a non-zero token, built from both; <br>• no MP3 columns yet. |
| Extract.DetailsUrlId | script_iran_seda_final_STREAM_MERGE_v6_env.py:130-131 | For a details address `…/Details?VALID=TRUE&g=<digits>`, the `g` lookup returns the digits. |
| Extract.ExamplePageParsed | tests/test_parse_page.py:13-23 | The page in tests/test_parse_page.py, at `…&g=5678`, parses to id `5678`, its heading, the author under its label, token 1234, the `og:image` cover, and the player link built from `5678` and 1234. |
| Audio.ApiUrl | script_iran_seda_final_STREAM_MERGE_v6_env.py:89 | The API address starts with the API path and `?VALID=TRUE&g=`. Audio.ApiUrlRoundTrip reads `g` and `attid` back out of it. |
| Audio.ApiUrlRoundTrip | script_iran_seda_final_STREAM_MERGE_v6_env.py:89 | Parsing the API address back gives the book id as its `g` value and the token's decimal text as its `attid` value. |
| Audio.LastMember | script_iran_seda_final_STREAM_MERGE_v6_env.py:95-99 | The index found holds the key and no later member does. Nothing is found exactly when no member has the key. |
| Audio.Get | script_iran_seda_final_STREAM_MERGE_v6_env.py:95-99 | `.get` fails exactly on a value that is not an object. A missing key yields the default. A present key yields the value of its last member, as a decoded JSON object keeps it. |
| Audio.Iterate | script_iran_seda_final_STREAM_MERGE_v6_env.py:95-96 | Iterating fails exactly on null, booleans and numbers. A list iterates its elements. |
| Audio.IntOf | script_iran_seda_final_STREAM_MERGE_v6_env.py:99 | `int` keeps integers. On a string it succeeds exactly when `int(text)` would, with that number. It fails on lists, dicts and null. |
| Audio.IsMp3 | script_iran_seda_final_STREAM_MERGE_v6_env.py:97 | The test fails only when the entry is not an object. Otherwise it holds exactly when the entry's last `extension` member is text that lower-cases to `mp3`. |
| Audio.Member | script_iran_seda_final_STREAM_MERGE_v6_env.py:97-99 | A member is missing exactly when no member of the object has the key. |
| Audio.SizeOf | script_iran_seda_final_STREAM_MERGE_v6_env.py:99 | A falsy size counts as 0. An integer size is itself. A text size is what `int` reads from it, and raises when `int` would. A non-empty list or dict raises. |
| Audio.UrlOf | script_iran_seda_final_STREAM_MERGE_v6_env.py:98 | A missing URL reads as the empty string made absolute. A text URL is made absolute. Any other value raises. |
| Audio.CandidateOf | script_iran_seda_final_STREAM_MERGE_v6_env.py:97-100 | An entry raises exactly when its extension test, or, for an `mp3` entry, its URL or its size, raises. A non-`mp3` entry gives no candidate. An `mp3` entry gives one candidate with its absolute URL and its size. |
| Audio.Mp3Entries | script_iran_seda_final_STREAM_MERGE_v6_env.py:96-97 | The `mp3` entries are never more than the downloads, and each one passes the extension test. Audio.Mp3EntriesExact shows that no passing entry is missed. |
| Audio.Mp3EntriesExact | script_iran_seda_final_STREAM_MERGE_v6_env.py:96-97 | An entry is among the `mp3` entries exactly when it is a download entry whose extension test holds. |
| Audio.Mp3EntriesAppend | script_iran_seda_final_STREAM_MERGE_v6_env.py:96-97 | The `mp3` entries keep the order of the downloads. |
| Audio.CandidatesOf | script_iran_seda_final_STREAM_MERGE_v6_env.py:96-100 | A scan of one download list that raises nothing gives exactly one candidate per `mp3` entry. Audio.CandidatesOfMp3 says which candidate, and Audio.CandidatesOfAppend gives the order. |
| Audio.CandidatesOfMp3 | script_iran_seda_final_STREAM_MERGE_v6_env.py:96-100 | A scan that raises nothing gives one candidate per `mp3` entry, in order, each the one that entry makes. |
| Audio.CandidatesOfAppend | script_iran_seda_final_STREAM_MERGE_v6_env.py:95-100 | Scanning two download lists one after the other is scanning their concatenation: it succeeds exactly when both do, with the candidates of the first followed by those of the second. |
| Audio.ItemCandidatesFlatten | script_iran_seda_final_STREAM_MERGE_v6_env.py:95-100 | Looping over the items and their downloads is the same as scanning all downloads, item after item. |
| Audio.Candidates | script_iran_seda_final_STREAM_MERGE_v6_env.py:95-100 | A reply that is not a JSON object raises, because `data.get` fails. Audio.CandidatesAreMp3Downloads characterises the result on objects. |
| Audio.CandidatesAreMp3Downloads | script_iran_seda_final_STREAM_MERGE_v6_env.py:95-100 | The reply yields candidates exactly when reading every item and download raises nothing. They are then the candidates of the `mp3` entries among all downloads, in the order the two loops visit them. |
| Audio.UrlsOf | script_iran_seda_final_STREAM_MERGE_v6_env.py:100 | The collected URL list has one URL per candidate: the i-th candidate's URL at position i. |
| Audio.CandidateUrlsAreMp3Urls | script_iran_seda_final_STREAM_MERGE_v6_env.py:98-100 | The URLs collected are those of the `mp3` entries, in encounter order, each paired with the size read from the same entry. |
| Audio.BestAfter | script_iran_seda_final_STREAM_MERGE_v6_env.py:94-103 | After `n` candidates the loop has no best URL exactly when every size so far is negative, and then the best size is still -1. Otherwise the best index holds a non-negative size that is the best size, strictly larger than every earlier size, and no size so far exceeds it. |
| Audio.GetMp3s | script_iran_seda_final_STREAM_MERGE_v6_env.py:87-106 | Any failure gives `(None, None)`: the request failing, or any `.get`, iteration or `int` raising. Otherwise, over the candidates: <br>• the URL list is missing exactly when there is no candidate, and is their URLs joined by commas; <br>• the best URL is the URL at the index the selection loop picks, missing only when every size is negative; <br>• a best URL implies a URL list. |
| Audio.BestIsFirstMax | script_iran_seda_final_STREAM_MERGE_v6_env.py:94-103 | The selected index is exactly the first candidate whose size is non-negative, larger than every earlier size and no smaller than any later size. There is none exactly when all sizes are negative. |
| Audio.TieKeepsFirst | script_iran_seda_final_STREAM_MERGE_v6_env.py:101-103 | When two downloads share the largest size, the earlier one is chosen, because only a strictly larger size replaces the best. |
| Audio.AllUrlsSplit | script_iran_seda_final_STREAM_MERGE_v6_env.py:104 | When no URL contains a comma, splitting the joined column recovers the URL list. |
| Audio.CandidatesAllOrNothing | script_iran_seda_final_STREAM_MERGE_v6_env.py:96-103 | The download list yields candidates only when every entry is processed without raising. One bad entry discards the whole reply. |
| Audio.NonNumericSizeRaises | script_iran_seda_final_STREAM_MERGE_v6_env.py:99 | An `mp3` entry whose `fileSize` text contains a character other than a digit, whitespace or a sign makes `int` raise, as `"12 MB"` does. |
| Audio.MissingSizeIsZero | script_iran_seda_final_STREAM_MERGE_v6_env.py:99 | An entry without `fileSize` counts as size 0. |
| Merge.CellText | script_iran_seda_final_STREAM_MERGE_v6_env.py:168 | An empty cell prints as `nan`, as pandas reads it. A filled cell prints as its text. |
| Merge.RowUrl | script_iran_seda_final_STREAM_MERGE_v6_env.py:168 | The detail URL is the `URL` cell's printed text with the whitespace around it cut off. |
| Merge.RowGet | script_iran_seda_final_STREAM_MERGE_v6_env.py:183 | `row.get(key)` yields the cell exactly when the column exists. |
| Merge.ErrorIdAsWritten | script_iran_seda_final_STREAM_MERGE_v6_env.py:183 | The id the error branch records is the row's `AudioBookID` cell, when that column exists. |
| Merge.ErrorId | script_iran_seda_final_STREAM_MERGE_v6_env.py:183 | The intended id is the row's `AudioBook_ID` cell, when that column exists. |
| Merge.ErrorIdLostOnDiscoveredRows | script_iran_seda_final_STREAM_MERGE_v6_env.py:181-183 | On a row with the discovery table's columns, the lookup as written finds no id. The intended lookup finds the row's `AudioBook_ID`. |
| Merge.Mp3Columns | script_iran_seda_final_STREAM_MERGE_v6_env.py:173-175 | Without an id and a non-zero token both MP3 columns stay empty. Otherwise they are what the API selection returns for that id and token. |
| Merge.ProcessRowWith | script_iran_seda_final_STREAM_MERGE_v6_env.py:168-185 | The loop body shared by Merge.ProcessRow and Merge.ProcessRowIntended. A row fails exactly when fetching its URL raises, and the error row then holds the id the given lookup reads and the exception text. |
| Merge.ProcessRow | script_iran_seda_final_STREAM_MERGE_v6_env.py:168-185 | A row fails exactly when fetching its detail page raises. A failed row records `row.get("AudioBookID")` as its id, as written. |
| Merge.ProcessRowIntended | script_iran_seda_final_STREAM_MERGE_v6_env.py:181-185 | The loop body with the id lookup corrected: a failed row records `row.get("AudioBook_ID")`. |
| Merge.ProcessRowIntendedDiffersOnlyInId | script_iran_seda_final_STREAM_MERGE_v6_env.py:168-185 | The body as written and the corrected body agree on every merged row and on every error message. On a discovered row whose fetch raises, only the corrected one records the id. |
| Merge.ProcessRowOutcome | script_iran_seda_final_STREAM_MERGE_v6_env.py:169-185 | A failed row records the id as written and the exception text. A merged row is the parsed page, unchanged except for the two MP3 columns, which come from the API selection. |
| Merge.ApiOnlyWithIdAndToken | script_iran_seda_final_STREAM_MERGE_v6_env.py:173-175 | When the page yields no id or no non-zero token, the API is never consulted and the MP3 columns stay empty. |
| Merge.RowStep | script_iran_seda_final_STREAM_MERGE_v6_env.py:167-170 | A row without a `URL` column stops the run, because that lookup is outside the `try`. Otherwise it fails exactly when the fetch does. |
| Merge.OutcomesSnoc | script_iran_seda_final_STREAM_MERGE_v6_env.py:167 | The rows are processed in input order, one outcome per row. |
| Merge.PartitionCounts | script_iran_seda_final_STREAM_MERGE_v6_env.py:178-184 | Every processed row lands in exactly one of the merged table and the error table. |
| Merge.RecordsAppend | script_iran_seda_final_STREAM_MERGE_v6_env.py:178-184 | Both tables are built by appending, so the outcomes of a longer run extend the tables of a shorter one. |
| Merge.MergeRows | script_iran_seda_final_STREAM_MERGE_v6_env.py:167-186 | The run aborts exactly when some row lacks a `URL` column. Otherwise the merged and error tables are the rows' outcomes in order, and together they account for every row. |
| Xml.Escape | tools/csv_to_podcast.py:4 | Escaping never shortens a text. |
| Xml.EscapeRoundTrip | tools/csv_to_podcast.py:99 | Unescaping an escaped text gives back the original. |
| Xml.EscapeIsReplaceChain | tools/csv_to_podcast.py:4 | Character-wise escaping equals the three `replace` calls of `xml.sax.saxutils.escape` in its order: `&` first, then `>`, then `<`. |
| Xml.AnglePassesCommute | tools/csv_to_podcast.py:4 | Replacing `>` and replacing `<` commute, so the two angle-bracket passes may run in either order. |
| Xml.EscapeNoAngles | tools/csv_to_podcast.py:99-115 | An escaped text contains no `<` or `>`, so it cannot open or close an element. |
| Xml.EscapePlain | tools/csv_to_podcast.py:101 | A text without `&`, `<` or `>` is left unchanged. |
| Xml.CData | tools/csv_to_podcast.py:15-19 | `None` gives an empty section. A text without `]]>` is wrapped unchanged. |
| Xml.CDataRoundTrip | tools/csv_to_podcast.py:15-19 | An XML reader gets back the original text from the section `cdata` writes, even when that text itself contains `]]>`. |
| Feed.SafeGet | tools/csv_to_podcast.py:10-13 | A missing column gives the default stripped, since it goes through `str(v).strip()`. A `None` cell gives the default as it is. Any other cell gives its stripped text. |
| Feed.Field | tools/csv_to_podcast.py:10-13 | A column's text is empty exactly when the column is missing or blank after stripping. |
| Feed.Or | tools/csv_to_podcast.py:55-64 | The Python `a or b` on strings is empty exactly when both are, and prefers a non-empty `a`. |
| Feed.AudioOf | tools/csv_to_podcast.py:56-58 | The audio URL is the MP3 column when filled, else the player link. It is empty, meaning no item, exactly when both are empty. |
| Feed.TextsFallbacks | tools/csv_to_podcast.py:55-65 | The item's texts follow these rules: <br>• the title falls back to the untitled text; <br>• the author is the producer, else the author; <br>• the category is the category, else the genre; <br>• the language defaults to `fa`; <br>• duration, image and keywords are the columns as they are. |
| Feed.FilledIndices | tools/csv_to_podcast.py:89-91 | The description uses exactly the filled columns of the field map, in the map's order. |
| Feed.DescEntries | tools/csv_to_podcast.py:88-92 | There are never more description parts than field-map entries. Feed.DescEntriesExact says which parts appear, and in what order. |
| Feed.DescEntriesExact | tools/csv_to_podcast.py:88-93 | The description parts are, one for each filled column in order, `label: value`. |
| Feed.LastHeader | tools/csv_to_podcast.py:43 | A header is absent exactly when no name matches case-insensitively. |
| Feed.LastHeaderAt | tools/csv_to_podcast.py:43 | When header `i` matches and no later one does, its value is the one found: the last matching header wins. |
| Feed.LowerHeaders | tools/csv_to_podcast.py:43 | The lower-cased header dict holds a name exactly when some header matches it, and keeps the last value sent. |
| Feed.LookupLower | tools/csv_to_podcast.py:43-50 | A lookup in the lower-cased dict equals the last case-insensitive match in the header list. |
| Feed.MediaType | tools/csv_to_podcast.py:44 | The media type is never longer than the header value. Feed.MediaTypeNormal, Feed.MediaTypeIdempotent and Feed.MediaTypePlain characterise it. |
| Feed.MediaTypeNormal | tools/csv_to_podcast.py:44 | A media type has no `;`, no surrounding whitespace and no capital letters. |
| Feed.MediaTypeIdempotent | tools/csv_to_podcast.py:44 | Taking the media type of a media type changes nothing. |
| Feed.MediaTypePlain | tools/csv_to_podcast.py:44 | A stripped, lower-case value without parameters is its own media type. |
| Feed.AudioLength | tools/csv_to_podcast.py:32-52 | The probe checks in order: <br>• a transport error or a 4xx/5xx status raises; <br>• then a media type other than `audio/mpeg` raises `Invalid Content-Type`; <br>• then a missing length raises `Missing Content-Length`; <br>• otherwise the result is `int` of the length, which raises on a non-numeric one. |
| Feed.OtherHeaderIgnored | tools/csv_to_podcast.py:43-52 | A header with any other name does not affect the two lookups. |
| Feed.AcceptRangesIgnored | tools/csv_to_podcast.py:47-49 | Adding an `Accept-Ranges` header with any value leaves the probe's result unchanged. |
| Feed.SameLookupsSameLength | tools/csv_to_podcast.py:43-52 | The probe depends only on the status and the last `Content-Type` and `Content-Length` values. |
| Feed.LengthReported | tools/csv_to_podcast.py:50-52 | A successful `audio/mpeg` reply reports the number its `Content-Length` states. |
| Feed.LengthOf321 | tests/test_csv_to_podcast.py:17-26 | `audio/mpeg` with length `321`, under any capitalisation of the names, yields 321. |
| Feed.NoLengthRaises | tests/test_csv_to_podcast.py:42-48 | `audio/mpeg` without `Content-Length` raises the missing-length error. |
| Feed.LengthMissing | tools/csv_to_podcast.py:50-51 | For any successful `audio/mpeg` reply, no `Content-Length` header means the missing-length error. |
| Feed.ContentTypeCheckedFirst | tools/csv_to_podcast.py:44-46 | A wrong media type is reported whatever the length header says. |
| Feed.Extras | tools/csv_to_podcast.py:104-115 | There are never more optional elements than listed kinds. Feed.ExtrasExact says exactly which elements appear, and Feed.ExtrasAppend gives their order. |
| Feed.ExtrasExact | tools/csv_to_podcast.py:104-115 | An optional element appears exactly when its field is listed and its text is non-empty, and it carries that text. |
| Feed.ExtrasAreExtra | tools/csv_to_podcast.py:104-115 | The optional part holds nothing but optional elements of the listed kinds, each non-empty and carrying its field's text. |
| Feed.ExtrasOnePerKind | tools/csv_to_podcast.py:104-115 | When every kind is listed once, each kind gives at most one element. |
| Feed.ItemExtrasOnePerKind | tools/csv_to_podcast.py:104-115 | An item carries at most one optional element per optional field. |
| Feed.ExtrasAppend | tools/csv_to_podcast.py:104-115 | The optional elements follow the order of the `if` tests. |
| Feed.ItemElements | tools/csv_to_podcast.py:98-115 | An item's elements are the title, the description, the enclosure, the guid and the pubDate, in that order, followed by exactly the optional elements. |
| Feed.ItemOptionalElements | tools/csv_to_podcast.py:104-115 | Author, duration, image, category, language and keywords elements appear exactly for the non-empty texts. |
| Feed.ItemLines | tools/csv_to_podcast.py:97-117 | An item is the `<item>` line, one line per element, then the closing line. |
| Feed.BuildItem | tools/csv_to_podcast.py:54-117 | No item exactly when the row has no audio URL. Otherwise it raises exactly when the probe raises, with the probe's error. |
| Feed.ItemShowsProbe | tools/csv_to_podcast.py:95-102 | When the probe succeeds, the item's text contains the enclosure with the audio URL and the probed length, and the guid line with the SHA-1 of the audio URL. |
| Feed.ItemTextShows | tools/csv_to_podcast.py:97-117 | The item text is non-empty and holds the title, description, enclosure, guid and pubDate lines. |
| Feed.ItemShowsTitle | tools/csv_to_podcast.py:55-103 | When the probe succeeds, the item shows the row's title, or the "untitled" text when the row has none, and also the row's description in CDATA and the pubDate line. |
| Feed.EnclosureText | tools/csv_to_podcast.py:101 | For a URL without markup characters, the enclosure reads `enclosure url="…" length="n" type="audio/mpeg"`. |
| Feed.ExampleItemEnclosure | tests/test_csv_to_podcast.py:17-26 | The row in tests/test_csv_to_podcast.py, with a 321-byte `audio/mpeg` reply yields an item containing `enclosure url="http://example.com/a.mp3" length="321" type="audio/mpeg"`. |
| Feed.ItemNonEmpty | tools/csv_to_podcast.py:139 | A built item is never the empty string, so the `if it` filter keeps every built item. |
| Feed.CoverOf | tools/csv_to_podcast.py:134 | The channel cover is empty for no rows, else the first row's cover column. |
| Feed.SelfLinkIsFeedPath | tools/csv_to_podcast.py:153 | The `atom:link` is the escaped URL made of the site without trailing slashes, `/feeds/`, the run name and `/podcast.xml`. |
| Feed.Kept | tools/csv_to_podcast.py:137-139 | Only items that were built and are non-empty are kept, and never more items than rows. Feed.KeptExact is the exact characterisation, and Feed.KeptAppend gives the order. |
| Feed.KeptExact | tools/csv_to_podcast.py:137-139 | An item is kept exactly when it was built and is non-empty. |
| Feed.KeptAppend | tools/csv_to_podcast.py:137-139 | The items kept from two runs of rows are those of the first run followed by those of the second, so row order is kept. |
| Feed.CollectItems | tools/csv_to_podcast.py:136-139 | Building the items fails exactly when some row's build raises. The error is that of the first such row. |
| Feed.CollectItemsKept | tools/csv_to_podcast.py:136-139 | When no build raises, the items are the built ones with the skipped rows dropped, in row order. |
| Feed.FeedXml | tools/csv_to_podcast.py:132-161 | The feed fails exactly when probing some row's audio fails. |
| Feed.FeedLayout | tools/csv_to_podcast.py:141-156 | The feed has 15 lines with a cover and 14 without. The channel image line carries the escaped cover. The atom:link line points to the escaped `site/feeds/run/podcast.xml`. The joined items follow it, just before the closing channel and rss lines. |
| Discovery.Pages | scrape_iranseda_env.py:23 | The pages visited are start through end in order, and none when end is before start. |
| Discovery.PagesVisited | scrape_iranseda_env.py:23 | A page is visited exactly when it lies in the inclusive range. |
| Discovery.BookId | scrape_iranseda_env.py:34-36 | A link has no id exactly when no `?` or `&` in it is followed by `g=` and a digit. |
| Discovery.LinkEntry | scrape_iranseda_env.py:32-37 | A link yields an entry exactly when it contains the book-link marker and a `[?&]g=` digit run. The entry holds that number and the link's absolute URL. |
| Discovery.PageEntries | scrape_iranseda_env.py:32-37 | A page gives at most one entry per link. Discovery.PageEntriesMembers says which entries, and Discovery.PageEntriesAppend gives the order. |
| Discovery.PageEntriesMembers | scrape_iranseda_env.py:32-37 | A page's entries are exactly the entries of its links. |
| Discovery.PageEntriesAppend | scrape_iranseda_env.py:32-37 | Links are processed in document order, so entries of a longer link list extend those of a shorter one. |
| Discovery.LinkWithoutIdIgnored | scrape_iranseda_env.py:35-37 | A link without an id contributes nothing, wherever it sits. |
| Discovery.UnmatchedLinkGivesNothing | scrape_iranseda_env.py:32-35 | A link lacking the marker or the id yields no entry. |
| Discovery.IdLeadingZero | scrape_iranseda_env.py:34-36 | `int` of the digit run ignores leading zeros, so `g=07` and `g=7` give the same id. |
| Discovery.Collect | scrape_iranseda_env.py:23-38 | The page loop raises exactly when fetching some page fails. The exception is the first failing page's. |
| Discovery.CollectAppend | scrape_iranseda_env.py:23-38 | Collecting two page ranges one after the other succeeds exactly when both do, and gives the first range's entries followed by the second's. So an earlier page's entries come first. |
| Discovery.SkippedPage | scrape_iranseda_env.py:28-30 | A page answered with a status other than 200 contributes nothing, wherever it sits in the range. |
| Discovery.CollectMembers | scrape_iranseda_env.py:23-37 | The collected entries are exactly those of the fetched pages' links. Only status-200 pages contribute. |
| Discovery.IdsMembers | scrape_iranseda_env.py:40-44 | The set of seen ids holds exactly the ids of the entries. |
| Discovery.FirstIndices | scrape_iranseda_env.py:42-45 | The kept positions, in increasing order, are exactly the first occurrences of each id. |
| Discovery.FirstOccurrences | scrape_iranseda_env.py:40-45 | The reference dedup result is never longer than its input. Discovery.FirstOccurrencesExact and Discovery.FirstOccurrencesSound characterise it, and Discovery.Dedup proves the loop computes it. |
| Discovery.FirstOccurrencesExact | scrape_iranseda_env.py:42-45 | The deduplicated list is the input at its first-occurrence positions, in order. |
| Discovery.FirstOccurrencesSound | scrape_iranseda_env.py:40-45 | After dedup the ids are distinct. Each kept entry is its id's first occurrence. No id is lost. |
| Discovery.SameIds | scrape_iranseda_env.py:40-45 | Dedup keeps the set of ids unchanged. |
| Discovery.DistinctIdsCount | scrape_iranseda_env.py:40-45 | A list with distinct ids has as many entries as ids. |
| Discovery.Dedup | scrape_iranseda_env.py:40-45 | The `seen`-set loop keeps the first entry of each id in input order. The result has distinct ids, the same id set, and one row per id. |
| Discovery.TableRows | scrape_iranseda_env.py:47-50 | The table is the `AudioBook_ID,URL` header followed by one `id,url` row per unique entry. |
| Discovery.PagesFail | scrape_iranseda_env.py:23-26 | A failing fetch among the visited pages is a failing fetch at some page of the range. |
| Discovery.Discover | scrape_iranseda_env.py:22-50 | The whole run raises exactly when fetching some page in the range fails. |
| Discovery.RowsWritten | scrape_iranseda_env.py:47-52 | The table written has one row per distinct id found, plus the header. |

## Left out

- HTTP itself (`requests.get`, `requests.head`, timeouts, redirects, `r.encoding`) is left out. Every request is a function parameter from URL to outcome.
- HTML parsing (BeautifulSoup, CSS selectors, `get_text`) is left out. A page is the data the helpers read from it: `Extract.Page` for a detail page, and the list of `href`s plus the status for a listing page.
- `urljoin` is modelled only for absolute URLs, root-relative paths and the empty string. Every other relative form goes through the `joinOther` parameter.
- `time.sleep(random.uniform(...))` and all `print` progress output are left out. Neither affects a result, with one exception: the success message at script_iran_seda_final_STREAM_MERGE_v6_env.py:179 is printed inside the `try`, after the merged row is appended. If writing it to stdout failed, the same book would also get an error row. The model assumes printing never fails.
- File and CSV I/O is left out: `read_rows` with its encoding fallbacks, `csv.writer`, `DictWriter`, `pd.read_csv`, directory creation and output paths. A table is a sequence of rows, and a pandas row is a map from column to cell.
- Environment variables and `argparse` are left out. The page range, run name, site and channel texts are parameters, and `SOURCE_URL.format(page)` is the fetch parameter's job.
- `hashlib.sha1` and `now_rfc822` are parameters, the hash function and the publication date string, because they are a foreign hash and the clock.
- `json.loads` is left out. The API reply is given already decoded as `Audio.Json`.
- Numerals.ParseInt: models `int(text)` on optional whitespace, a sign and ASCII digits only. Python also accepts other Unicode decimal digits and `_` between digits. These forms are not modelled, and the model rejects them.
- Audio.NonNumericSizeRaises: holds for the model's `int`. For Python it also needs the stray character to be neither `_` between digits nor a non-ASCII decimal digit, which Python's `int` accepts.
- Urls.FirstQueryValue: `parse_qsl` also percent-decodes names and values and turns `+` into a space. The model splits, drops blank values and turns `+` into a space, but it does not percent-decode, so `g=%31` reads as `%31` where Python reads `1`. The addresses the scripts build carry only letters, digits, `=` and `&`, and `Urls.DigitField` shows that such fields read back unchanged.
- Urls.TokenValue: `re.I` is modelled as ASCII case folding, and `\d` as the ASCII digits. Python's `re.I` also matches `I` against `ı` (dotless i) and `İ`, and its `\d` matches every Unicode decimal digit. Those matches are not modelled.
- Discovery.BookId: shares `Urls.TokenValue`'s restriction to ASCII digits.
- Text.Lower: lower-cases ASCII letters only. Python's `str.lower` on Persian text is the identity, and the names compared are ASCII.
- Audio.IntOf: `int` of a float truncates toward zero, and `int` of a boolean gives 0 or 1. NaN and infinite floats, which raise in Python, cannot be built in this model.
- Feed.AudioLength: the status check stands for `raise_for_status` on the final response after redirects. The redirect chain itself is not modelled.
- Extract.ParsePage: the title, the descriptions, the `dt`/`dd` texts and the item-info texts are taken as the page data gives them, since `get_text(strip=True)` and the CSS selectors belong to the HTML parser.
- The `main` entry points' `sys.exit(1)` when the input file is missing is left out with the rest of the file I/O.

## Findings

| source | as written | input that shows it | evidently intended | confidence | as-written member | corrected member |
|---|---|---|---|---|---|---|
| script_iran_seda_final_STREAM_MERGE_v6_env.py:181-183 | The error branch reads the id with `row.get("AudioBookID")`. The discovery table's column is `AudioBook_ID`, so the error row's id is always empty. | Any row `{AudioBook_ID: 7, URL: u}` whose page fetch raises. | Record the row's `AudioBook_ID` in the error table. | not executed | Merge.ErrorIdLostOnDiscoveredRows | Merge.ProcessRowIntended |

=== FILE: audio.dfy ===
/** `get_mp3s_from_api`: the decoded reply of the book-details API, the Python
    operations the selection performs on it (`.get`, iteration, `str(..).lower()`,
    `int(.. or 0)`), and the choice of the best MP3 among the qualifying downloads. */
module Audio {
  import opened Wrappers
  import opened Text
  import opened Numerals
  import opened Urls

  /** A value as `json.loads` returns it. An object keeps its members in document
      order; with a repeated name the last one counts, as in a Python dict. */
  datatype Json =
    | JNull
    | JBool(b: bool)
    | JInt(i: int)
    | JFloat(f: real)
    | JStr(s: string)
    | JArr(elems: seq<Json>)
    | JObj(members: seq<(string, Json)>)

  /** What `req_get(api_url).json()` produced: a transport error, an HTTP error
      status or a body that is not JSON all raise, and are one case here. */
  datatype ApiReply = ApiFailed | ApiJson(data: Json)

  /** The reasons the selection raises; each ends the call with `(None, None)`. */
  datatype ApiError =
    | NoGetMethod      // `.get` on a value that is not a dict
    | NotIterable      // `for .. in` over null, a boolean or a number
    | UrlNotText       // `abs_url` of a `downloadUrl` that is not a string
    | BadFileSize      // `int(..)` of a `fileSize` it cannot convert

  /** A qualifying download: its absolute URL and its size. */
  datatype Candidate = Candidate(url: string, size: int)

  const ApiPath: string := "https://apisec.iranseda.ir/book/Details/"
  const ApiBase: string := ApiPath + "?VALID=TRUE&g="

  /** The address `get_mp3s_from_api(g, attid)` requests. */
  function ApiUrl(g: string, attId: nat): (r: string)
    ensures StartsWith(r, ApiBase)
  {
    ApiBase + g + "&attid=" + NatToString(attId)
  }

  lemma ApiBaseParts()
    ensures ApiBase == ApiPath + "?" + "VALID=TRUE" + "&" + "g="
    ensures "&attid=" == "&" + "attid="
  {
  }

  /** The query of the API address: its three fields joined by `&`. */
  lemma ApiQuery(g: string, a: string)
    requires AllDigits(g) && AllDigits(a)
    ensures QueryOf(ApiBase + g + "&attid=" + a) == "VALID=TRUE" + "&" + ("g=" + g) + "&" + ("attid=" + a)
  {
    var f1, f2, f3 := "VALID=TRUE", "g=" + g, "attid=" + a;
    var q := f1 + "&" + f2 + "&" + f3;
    ApiBaseParts();
    assert ApiBase + g + "&attid=" + a == ApiPath + "?" + q;
    forall i | 0 <= i < |q| ensures !IsUrlNoise(q[i]) && q[i] != '#' {
      if i < 10 { assert q[i] == f1[i]; }
      else if i == 10 { }
      else if i < 11 + |f2| { assert q[i] == f2[i - 11]; if i >= 13 { assert f2[i - 11] == g[i - 13]; } }
      else if i == 11 + |f2| { }
      else { assert q[i] == f3[i - 12 - |f2|]; if i >= 18 + |f2| { assert f3[i - 12 - |f2|] == a[i - 18 - |f2|]; } }
    }
    QueryOfPlain(ApiPath, q);
  }

  /** That query splits at `&` into the `VALID`, `g` and `attid` fields. */
  lemma ApiFields(g: string, a: string)
    requires AllDigits(g) && AllDigits(a)
    ensures SplitOn("VALID=TRUE" + "&" + ("g=" + g) + "&" + ("attid=" + a), '&') == ["VALID=TRUE", "g=" + g, "attid=" + a]
  {
    var f1, f2, f3 := "VALID=TRUE", "g=" + g, "attid=" + a;
    assert Join([f2, f3], "&") == f2 + "&" + f3 by {
      assert [f2, f3][1..] == [f3];
    }
    assert Join([f1, f2, f3], "&") == f1 + "&" + f2 + "&" + f3 by {
      assert [f1, f2, f3][1..] == [f2, f3];
    }
    assert '&' !in f2 by {
      forall i | 0 <= i < |f2| ensures f2[i] != '&' {
        if i >= 2 { assert f2[i] == g[i - 2] && IsDigit(g[i - 2]); }
      }
    }
    assert '&' !in f3 by {
      forall i | 0 <= i < |f3| ensures f3[i] != '&' {
        if i >= 6 { assert f3[i] == a[i - 6] && IsDigit(a[i - 6]); }
      }
    }
    SplitJoin([f1, f2, f3], '&');
  }

  /** `parse_qsl` reads the API address back into its three fields. */
  lemma ApiPairs(g: string, attId: nat)
    requires |g| >= 1 && AllDigits(g)
    ensures QueryPairs(ApiUrl(g, attId)) == [("VALID", "TRUE"), ("g", g), ("attid", NatToString(attId))]
  {
    var a := NatToString(attId);
    KeyField("g=", "g", g);
    KeyField("attid=", "attid", a);
    ApiQuery(g, a);
    ApiFields(g, a);
    assert QueryPairs(ApiUrl(g, attId)) == QueryFields(["VALID=TRUE", "g=" + g, "attid=" + a]);
    ValidField();
    QueryFieldsThree("VALID=TRUE", "g=" + g, "attid=" + a);
  }

  /** The API address carries the id and the token as its `g` and `attid` query
      fields: the server's `parse_qs` reads back exactly the values requested. */
  lemma ApiUrlRoundTrip(g: string, attId: nat)
    requires |g| >= 1 && AllDigits(g)
    ensures FirstQueryValue(ApiUrl(g, attId), "g") == Some(g)
    ensures FirstQueryValue(ApiUrl(g, attId), "attid") == Some(NatToString(attId))
  {
    var url := ApiUrl(g, attId);
    ApiPairs(g, attId);
    var ps := QueryPairs(url);
    assert ps[0].0 == "VALID" && ps[1] == ("g", g) && ps[2] == ("attid", NatToString(attId));
    assert "VALID"[0] != "g"[0] && "VALID"[0] != "attid"[0] && "g"[0] != "attid"[0];
    FirstQueryValueAt(url, "g", 1);
    FirstQueryValueAt(url, "attid", 2);
  }

  /** Python truthiness of a JSON value. */
  predicate Falsy(v: Json) {
    match v
    case JNull => true
    case JBool(b) => !b
    case JInt(i) => i == 0
    case JFloat(f) => f == 0.0
    case JStr(s) => |s| == 0
    case JArr(es) => |es| == 0
    case JObj(ms) => |ms| == 0
  }

  /** The index of the last member named `key`, the one a dict keeps. */
  function LastMember(ms: seq<(string, Json)>, key: string): (r: Option<nat>)
    ensures r.Some? ==> r.value < |ms| && ms[r.value].0 == key
    ensures r.Some? ==> forall j :: r.value < j < |ms| ==> ms[j].0 != key
    ensures r.None? ==> forall j :: 0 <= j < |ms| ==> ms[j].0 != key
  {
    if |ms| == 0 then None
    else if ms[|ms| - 1].0 == key then Some(|ms| - 1)
    else LastMember(ms[..|ms| - 1], key)
  }

  /** `v.get(key, default)`: only a dict has `.get`. */
  function Get(v: Json, key: string, default: Json): (r: Result<Json, ApiError>)
    ensures r.Err? <==> !v.JObj?
    ensures v.JObj? && LastMember(v.members, key).None? ==> r == Ok(default)
    ensures v.JObj? && LastMember(v.members, key).Some? ==> r == Ok(v.members[LastMember(v.members, key).value].1)
  {
    match v
    case JObj(ms) =>
      var k := LastMember(ms, key);
      if k.None? then Ok(default) else Ok(ms[k.value].1)
    case _ => Err(NoGetMethod)
  }

  /** The values `for x in v` visits: the elements of a list, the names of a dict,
      the one-character strings of a string; anything else is not iterable. */
  function Iterate(v: Json): (r: Result<seq<Json>, ApiError>)
    ensures v.JArr? ==> r == Ok(v.elems)
    ensures r.Err? <==> v.JNull? || v.JBool? || v.JInt? || v.JFloat?
  {
    match v
    case JArr(es) => Ok(es)
    case JObj(ms) => Ok(seq(|ms|, i requires 0 <= i < |ms| => JStr(ms[i].0)))
    case JStr(s) => Ok(seq(|s|, i requires 0 <= i < |s| => JStr([s[i]])))
    case _ => Err(NotIterable)
  }

  /** `int(v)` for a truthy value: an integer as it is, `True` as 1, a float
      truncated toward zero, a string through `int(text)`; a non-empty list or dict
      raises. */
  function IntOf(v: Json): (r: Result<int, ApiError>)
    ensures v.JInt? ==> r == Ok(v.i)
    ensures v.JStr? ==> (r.Ok? <==> ParseInt(v.s).Some?)
    ensures v.JStr? && r.Ok? ==> r.value == ParseInt(v.s).value
    ensures v.JArr? || v.JObj? || v.JNull? ==> r.Err?
  {
    match v
    case JInt(i) => Ok(i)
    case JBool(b) => Ok(if b then 1 else 0)
    case JFloat(f) => Ok(if f >= 0.0 then f.Floor else -((-f).Floor))
    case JStr(s) => if ParseInt(s).Some? then Ok(ParseInt(s).value) else Err(BadFileSize)
    case _ => Err(BadFileSize)
  }

  /** `str(d.get("extension", "")).lower() == "mp3"`. Only a string can print as
      `mp3`: `str` of null, a boolean, a number, a list or a dict never does. */
  function IsMp3(d: Json): (r: Result<bool, ApiError>)
    ensures r.Err? <==> !d.JObj?
    ensures r.Ok? ==> (r.value <==> var k := LastMember(d.members, "extension");
                                    && k.Some?
                                    && d.members[k.value].1.JStr?
                                    && Lower(d.members[k.value].1.s) == "mp3")
  {
    var ext :- Get(d, "extension", JStr(""));
    Ok(ext.JStr? && Lower(ext.s) == "mp3")
  }

  /** The value a dict keeps for `key`, if it has one. */
  function Member(d: Json, key: string): (r: Option<Json>)
    requires d.JObj?
    ensures r.None? <==> forall j :: 0 <= j < |d.members| ==> d.members[j].0 != key
  {
    var k := LastMember(d.members, key);
    if k.None? then None else Some(d.members[k.value].1)
  }

  /** `int(d.get("fileSize", "0") or 0)`: 0 when the size is missing or falsy, the
      number itself, or the text read by `int`, which raises on anything else. */
  function SizeOf(d: Json): (r: Result<int, ApiError>)
    ensures !d.JObj? ==> r.Err?
    ensures d.JObj? && Member(d, "fileSize").Some? && Falsy(Member(d, "fileSize").value) ==> r == Ok(0)
    ensures d.JObj? && Member(d, "fileSize").Some? && Member(d, "fileSize").value.JInt? ==>
              r == Ok(Member(d, "fileSize").value.i)
    ensures d.JObj? && Member(d, "fileSize").Some? && Member(d, "fileSize").value.JStr? ==>
              var t := Member(d, "fileSize").value.s;
              |t| > 0 ==> (r.Ok? <==> ParseInt(t).Some?) && (r.Ok? ==> r.value == ParseInt(t).value)
    ensures d.JObj? && Member(d, "fileSize").Some? ==>
              var v := Member(d, "fileSize").value;
              (v.JArr? || v.JObj?) && !Falsy(v) ==> r.Err?
  {
    var v :- Get(d, "fileSize", JStr("0"));
    if Falsy(v) then Ok(0) else IntOf(v)
  }

  /** `abs_url(d.get("downloadUrl", ""))`: a missing URL reads as `""`, and only
      text can be made absolute. */
  function UrlOf(d: Json, joinOther: string -> string): (r: Result<string, ApiError>)
    ensures r.Err? <==> !d.JObj? || (Member(d, "downloadUrl").Some? && !Member(d, "downloadUrl").value.JStr?)
    ensures d.JObj? && Member(d, "downloadUrl").None? ==> r == Ok(AbsUrl("", joinOther))
    ensures d.JObj? && Member(d, "downloadUrl").Some? && Member(d, "downloadUrl").value.JStr? ==>
              r == Ok(AbsUrl(Member(d, "downloadUrl").value.s, joinOther))
  {
    var v :- Get(d, "downloadUrl", JStr(""));
    if v.JStr? then Ok(AbsUrl(v.s, joinOther)) else Err(UrlNotText)
  }

  /** One download entry: no candidate when its extension is not `mp3`, else its
      URL and size, in that order of evaluation. */
  function CandidateOf(d: Json, joinOther: string -> string): (r: Result<seq<Candidate>, ApiError>)
    ensures r.Err? <==> IsMp3(d).Err? || (IsMp3(d) == Ok(true) && (UrlOf(d, joinOther).Err? || SizeOf(d).Err?))
    ensures IsMp3(d) == Ok(false) ==> r == Ok([])
    ensures IsMp3(d) == Ok(true) && r.Ok? ==> r.value == [Candidate(UrlOf(d, joinOther).value, SizeOf(d).value)]
  {
    var mp3 :- IsMp3(d);
    if !mp3 then Ok([])
    else
      var url :- UrlOf(d, joinOther);
      var size :- SizeOf(d);
      Ok([Candidate(url, size)])
  }

  /** The candidates of a list of download entries, in order; the first error
      ends the scan. */
  function CandidatesOf(ds: seq<Json>, joinOther: string -> string): (r: Result<seq<Candidate>, ApiError>)
    ensures r.Ok? ==> |r.value| == |Mp3Entries(ds)|
  {
    if |ds| == 0 then Ok([])
    else
      var c :- CandidateOf(ds[0], joinOther);
      var rest :- CandidatesOf(ds[1..], joinOther);
      Ok(c + rest)
  }

  /** The download entries whose extension is `mp3`, in order. */
  function Mp3Entries(ds: seq<Json>): (r: seq<Json>)
    ensures |r| <= |ds|
    ensures forall i :: 0 <= i < |r| ==> IsMp3(r[i]) == Ok(true)
  {
    if |ds| == 0 then []
    else if IsMp3(ds[0]) == Ok(true) then [ds[0]] + Mp3Entries(ds[1..])
    else Mp3Entries(ds[1..])
  }

  /** An entry is among the `mp3` entries exactly when it is a download entry whose
      extension is `mp3`. */
  lemma {:induction false} Mp3EntriesExact(ds: seq<Json>, d: Json)
    ensures d in Mp3Entries(ds) <==> d in ds && IsMp3(d) == Ok(true)
  {
    if |ds| > 0 {
      Mp3EntriesExact(ds[1..], d);
      assert d in ds <==> d == ds[0] || d in ds[1..];
    }
  }

  /** The `mp3` entries keep their order: those of two lists, one after the other. */
  lemma {:induction false} Mp3EntriesAppend(a: seq<Json>, b: seq<Json>)
    ensures Mp3Entries(a + b) == Mp3Entries(a) + Mp3Entries(b)
  {
    if |a| == 0 {
      assert a + b == b;
    } else {
      assert (a + b)[0] == a[0] && (a + b)[1..] == a[1..] + b;
      Mp3EntriesAppend(a[1..], b);
    }
  }

  /** Each candidate is the one the entry at the same place makes. */
  predicate MadeBy(ms: seq<Json>, cs: seq<Candidate>, joinOther: string -> string)
    decreases |ms|
  {
    && |ms| == |cs|
    && (|ms| == 0 || (CandidateOf(ms[0], joinOther) == Ok([cs[0]]) && MadeBy(ms[1..], cs[1..], joinOther)))
  }

  lemma {:induction false} MadeByAt(ms: seq<Json>, cs: seq<Candidate>, joinOther: string -> string)
    requires MadeBy(ms, cs, joinOther)
    ensures |ms| == |cs|
    ensures forall i :: 0 <= i < |cs| ==> CandidateOf(ms[i], joinOther) == Ok([cs[i]])
    decreases |ms|
  {
    if |ms| > 0 {
      MadeByAt(ms[1..], cs[1..], joinOther);
      forall i | 1 <= i < |cs| ensures CandidateOf(ms[i], joinOther) == Ok([cs[i]]) {
        assert ms[i] == ms[1..][i - 1] && cs[i] == cs[1..][i - 1];
      }
    }
  }

  lemma {:induction false} CandidatesMadeBy(ds: seq<Json>, joinOther: string -> string)
    requires CandidatesOf(ds, joinOther).Ok?
    ensures MadeBy(Mp3Entries(ds), CandidatesOf(ds, joinOther).value, joinOther)
    decreases |ds|
  {
    if |ds| > 0 {
      CandidatesMadeBy(ds[1..], joinOther);
      var cs := CandidatesOf(ds, joinOther).value;
      var c := CandidateOf(ds[0], joinOther).value;
      var rest := CandidatesOf(ds[1..], joinOther).value;
      var more := Mp3Entries(ds[1..]);
      assert cs == c + rest;
      if IsMp3(ds[0]) == Ok(true) {
        var ms := [ds[0]] + more;
        assert Mp3Entries(ds) == ms;
        assert c == [c[0]];
        assert ms[1..] == more && cs[1..] == rest;
      } else {
        assert IsMp3(ds[0]) == Ok(false);
        assert c == [];
        assert cs == rest;
        assert Mp3Entries(ds) == more;
      }
    }
  }

  /** A scan that succeeds yields one candidate per `mp3` entry, in order, each
      the one that entry makes: its URL and its size. */
  lemma CandidatesOfMp3(ds: seq<Json>, joinOther: string -> string)
    requires CandidatesOf(ds, joinOther).Ok?
    ensures var cs := CandidatesOf(ds, joinOther).value;
            var ms := Mp3Entries(ds);
            && |cs| == |ms|
            && forall i :: 0 <= i < |cs| ==> CandidateOf(ms[i], joinOther) == Ok([cs[i]])
  {
    CandidatesMadeBy(ds, joinOther);
    MadeByAt(Mp3Entries(ds), CandidatesOf(ds, joinOther).value, joinOther);
  }

  /** Scanning two lists one after the other is scanning their concatenation. */
  lemma {:induction false} CandidatesOfAppend(a: seq<Json>, b: seq<Json>, joinOther: string -> string)
    ensures CandidatesOf(a + b, joinOther).Ok? <==> CandidatesOf(a, joinOther).Ok? && CandidatesOf(b, joinOther).Ok?
    ensures CandidatesOf(a + b, joinOther).Ok? ==>
              CandidatesOf(a + b, joinOther).value == CandidatesOf(a, joinOther).value + CandidatesOf(b, joinOther).value
    decreases |a|
  {
    if |a| == 0 {
      assert a + b == b;
    } else {
      assert (a + b)[0] == a[0] && (a + b)[1..] == a[1..] + b;
      CandidatesOfAppend(a[1..], b, joinOther);
    }
  }

  /** The candidates of the items, item after item and download after download. */
  function ItemCandidates(items: seq<Json>, joinOther: string -> string): (r: Result<seq<Candidate>, ApiError>) {
    if |items| == 0 then Ok([])
    else
      var dl :- Get(items[0], "download", JArr([]));
      var ds :- Iterate(dl);
      var c :- CandidatesOf(ds, joinOther);
      var rest :- ItemCandidates(items[1..], joinOther);
      Ok(c + rest)
  }

  /** The download entries of the items, item after item, as the two loops visit
      them. */
  function ItemDownloads(items: seq<Json>): Result<seq<Json>, ApiError> {
    if |items| == 0 then Ok([])
    else
      var dl :- Get(items[0], "download", JArr([]));
      var ds :- Iterate(dl);
      var rest :- ItemDownloads(items[1..]);
      Ok(ds + rest)
  }

  /** Every download entry of a decoded reply, in the order the loops visit them. */
  function Downloads(data: Json): Result<seq<Json>, ApiError> {
    var itemsValue :- Get(data, "items", JArr([]));
    var items :- Iterate(itemsValue);
    ItemDownloads(items)
  }

  lemma {:induction false} ItemCandidatesFlatten(items: seq<Json>, joinOther: string -> string)
    ensures ItemCandidates(items, joinOther).Ok? <==>
              ItemDownloads(items).Ok? && CandidatesOf(ItemDownloads(items).value, joinOther).Ok?
    ensures ItemCandidates(items, joinOther).Ok? ==>
              ItemCandidates(items, joinOther).value == CandidatesOf(ItemDownloads(items).value, joinOther).value
    decreases |items|
  {
    if |items| > 0 {
      ItemCandidatesFlatten(items[1..], joinOther);
      var dl := Get(items[0], "download", JArr([]));
      if dl.Ok? && Iterate(dl.value).Ok? && ItemDownloads(items[1..]).Ok? {
        CandidatesOfAppend(Iterate(dl.value).value, ItemDownloads(items[1..]).value, joinOther);
      }
    }
  }

  /** Every qualifying download of a decoded reply, in encounter order. */
  function Candidates(data: Json, joinOther: string -> string): (r: Result<seq<Candidate>, ApiError>)
    ensures !data.JObj? ==> r.Err?
  {
    var itemsValue :- Get(data, "items", JArr([]));
    var items :- Iterate(itemsValue);
    ItemCandidates(items, joinOther)
  }

  /** The candidates are exactly the `mp3` entries among all the downloads, in the
      order the loops visit them, and the reply yields them only when reading every
      item and every download entry raises nothing. */
  lemma CandidatesAreMp3Downloads(data: Json, joinOther: string -> string)
    ensures Candidates(data, joinOther).Ok? <==>
              && Downloads(data).Ok?
              && forall i :: 0 <= i < |Downloads(data).value| ==> CandidateOf(Downloads(data).value[i], joinOther).Ok?
    ensures Candidates(data, joinOther).Ok? ==>
              var cs := Candidates(data, joinOther).value;
              var ms := Mp3Entries(Downloads(data).value);
              && |cs| == |ms|
              && forall i :: 0 <= i < |cs| ==> CandidateOf(ms[i], joinOther) == Ok([cs[i]])
  {
    var itemsValue := Get(data, "items", JArr([]));
    if itemsValue.Ok? && Iterate(itemsValue.value).Ok? {
      ItemCandidatesFlatten(Iterate(itemsValue.value).value, joinOther);
      if Downloads(data).Ok? {
        CandidatesAllOrNothing(Downloads(data).value, joinOther);
        if Candidates(data, joinOther).Ok? {
          CandidatesOfMp3(Downloads(data).value, joinOther);
        }
      }
    }
  }

  /** The URLs `get_mp3s_from_api` collects are those of the `mp3` entries among
      all the downloads, in the order the loops visit them, each paired with the
      size read from the same entry. */
  lemma CandidateUrlsAreMp3Urls(data: Json, joinOther: string -> string)
    requires Candidates(data, joinOther).Ok?
    ensures Downloads(data).Ok?
    ensures var cs := Candidates(data, joinOther).value;
            var ms := Mp3Entries(Downloads(data).value);
            && |UrlsOf(cs)| == |ms|
            && forall i :: 0 <= i < |ms| ==>
                 UrlOf(ms[i], joinOther) == Ok(UrlsOf(cs)[i]) && SizeOf(ms[i]) == Ok(cs[i].size)
  {
    CandidatesAreMp3Downloads(data, joinOther);
    var cs := Candidates(data, joinOther).value;
    var ms := Mp3Entries(Downloads(data).value);
    forall i | 0 <= i < |ms|
      ensures UrlOf(ms[i], joinOther) == Ok(UrlsOf(cs)[i]) && SizeOf(ms[i]) == Ok(cs[i].size)
    {
      assert CandidateOf(ms[i], joinOther) == Ok([cs[i]]);
      assert IsMp3(ms[i]) == Ok(true);
    }
  }

  /** The running maximum of the selection loop after the first `n` candidates:
      `best_size`, starting at -1, and the index whose URL is `best_url`, replaced
      only by a strictly larger size. */
  function BestAfter(cs: seq<Candidate>, n: nat): (r: (int, Option<nat>))
    requires n <= |cs|
    ensures r.1.None? <==> forall j :: 0 <= j < n ==> cs[j].size < 0
    ensures r.1.None? ==> r.0 == -1
    ensures r.1.Some? ==> r.1.value < n && r.0 == cs[r.1.value].size && r.0 >= 0
    ensures r.1.Some? ==> forall j :: 0 <= j < r.1.value ==> cs[j].size < r.0
    ensures forall j :: 0 <= j < n ==> cs[j].size <= r.0
    decreases n
  {
    if n == 0 then (-1, None)
    else
      var prev := BestAfter(cs, n - 1);
      if cs[n - 1].size > prev.0 then (cs[n - 1].size, Some(n - 1)) else prev
  }

  /** Index `k` holds the first strictly largest non-negative size. */
  predicate IsFirstMax(cs: seq<Candidate>, k: nat) {
    && k < |cs| && cs[k].size >= 0
    && (forall j :: 0 <= j < k ==> cs[j].size < cs[k].size)
    && (forall j :: k < j < |cs| ==> cs[j].size <= cs[k].size)
  }

  /** The index whose URL the loop returns as `best_url`. */
  function BestIndex(cs: seq<Candidate>): Option<nat> {
    BestAfter(cs, |cs|).1
  }

  /** The loop picks exactly the first candidate of maximal size, and picks none
      only when every size is negative (a size of -1 never beats the start). */
  lemma BestIsFirstMax(cs: seq<Candidate>, k: nat)
    ensures BestIndex(cs) == Some(k) <==> IsFirstMax(cs, k)
    ensures BestIndex(cs).None? <==> forall j :: 0 <= j < |cs| ==> cs[j].size < 0
  {
  }

  function UrlsOf(cs: seq<Candidate>): (r: seq<string>)
    ensures |r| == |cs| && forall i :: 0 <= i < |cs| ==> r[i] == cs[i].url
  {
    seq(|cs|, i requires 0 <= i < |cs| => cs[i].url)
  }

  /** `get_mp3s_from_api` on a reply: `(best_url, all_urls)`, or `(None, None)` when
      anything raised. */
  function GetMp3s(reply: ApiReply, joinOther: string -> string): (r: (Option<string>, Option<string>))
    ensures reply.ApiFailed? ==> r == (None, None)
    ensures reply.ApiJson? && Candidates(reply.data, joinOther).Err? ==> r == (None, None)
    ensures reply.ApiJson? && Candidates(reply.data, joinOther).Ok? ==>
              var cs := Candidates(reply.data, joinOther).value;
              && (r.1.None? <==> |cs| == 0)
              && (r.1.Some? ==> r.1.value == Join(UrlsOf(cs), ","))
              && (r.0.None? <==> BestIndex(cs).None?)
              && (r.0.Some? ==> r.0.value == cs[BestIndex(cs).value].url)
    ensures r.0.Some? ==> r.1.Some?
  {
    match reply
    case ApiFailed => (None, None)
    case ApiJson(data) =>
      match Candidates(data, joinOther)
      case Err(_) => (None, None)
      case Ok(cs) =>
        var best := BestIndex(cs);
        var bestUrl := if best.Some? then Some(cs[best.value].url) else None;
        (bestUrl, if |cs| == 0 then None else Some(Join(UrlsOf(cs), ",")))
  }

  /** When no URL holds a comma, splitting `All_MP3s_Found` at commas gives back the
      qualifying URLs in encounter order. */
  lemma AllUrlsSplit(cs: seq<Candidate>)
    requires |cs| >= 1
    requires forall i :: 0 <= i < |cs| ==> ',' !in cs[i].url
    ensures SplitOn(Join(UrlsOf(cs), ","), ',') == UrlsOf(cs)
  {
    SplitJoin(UrlsOf(cs), ',');
  }

  /** Ties keep the earliest: sizes 100, 500, 500 pick the second download. */
  lemma TieKeepsFirst(a: string, b: string, c: string)
    ensures BestIndex([Candidate(a, 100), Candidate(b, 500), Candidate(c, 500)]) == Some(1)
  {
    var cs := [Candidate(a, 100), Candidate(b, 500), Candidate(c, 500)];
    BestIsFirstMax(cs, 1);
  }

  /** The scan of a download list succeeds exactly when every entry is read
      without raising: one bad entry anywhere, before or after good ones, voids the
      list, and with it the whole call. */
  lemma {:induction false} CandidatesAllOrNothing(ds: seq<Json>, joinOther: string -> string)
    ensures CandidatesOf(ds, joinOther).Ok? <==> forall i :: 0 <= i < |ds| ==> CandidateOf(ds[i], joinOther).Ok?
    decreases |ds|
  {
    if |ds| > 0 {
      CandidatesAllOrNothing(ds[1..], joinOther);
      assert forall i :: 1 <= i < |ds| ==> ds[i] == ds[1..][i - 1];
    }
  }

  /** An mp3 entry whose `fileSize` is text that `int` refuses, such as `"12 MB"`,
      raises rather than counting as size 0. */
  lemma NonNumericSizeRaises(d: Json, size: string, k: nat, joinOther: string -> string)
    requires IsMp3(d) == Ok(true)
    requires Get(d, "fileSize", JStr("0")) == Ok(JStr(size))
    requires k < |size| && !IsDigit(size[k]) && !IsSpace(size[k]) && size[k] != '+' && size[k] != '-'
    ensures CandidateOf(d, joinOther).Err?
  {
    ParseIntRejectsStray(size, k);
  }

  /** A download without a `fileSize` counts as size 0 (the default `"0"` is read by
      `int`), so it can still be the best one. */
  lemma MissingSizeIsZero(d: Json)
    requires d.JObj? && LastMember(d.members, "fileSize").None?
    ensures SizeOf(d) == Ok(0)
  {
    var v := JStr("0");
    assert Get(d, "fileSize", v) == Ok(v);
    assert !Falsy(v);
    ParseIntZero();
    assert IntOf(v) == Ok(0);
  }
}

=== FILE: discovery.dfy ===
/** The listing scraper, scrape_iranseda_env.py: visits the listing pages
    `START_PAGE..END_PAGE`, collects the book id and the absolute URL of every
    book link, and keeps the first URL seen for each id. The page fetch and the
    rest of `urljoin` are parameters; the HTML is given as the `href` of each
    link. */
module Discovery {
  import opened Wrappers
  import opened Text
  import opened Numerals
  import opened Urls

  // ---------------------------------------------------------------------------
  // The pages

  /** `range(START_PAGE, END_PAGE + 1)`. */
  function Pages(start: int, end: int): (r: seq<int>)
    ensures |r| == if end < start then 0 else end - start + 1
    ensures forall i :: 0 <= i < |r| ==> r[i] == start + i
    decreases end - start
  {
    if end < start then [] else Pages(start, end - 1) + [end]
  }

  /** The pages visited are exactly those from the first to the last, both
      included, and there are none when the range is reversed. */
  lemma PagesVisited(start: int, end: int, p: int)
    ensures p in Pages(start, end) <==> start <= p <= end
    ensures end < start ==> Pages(start, end) == []
  {
    var r := Pages(start, end);
    if start <= p <= end {
      assert r[p - start] == p;
    }
  }

  // ---------------------------------------------------------------------------
  // One listing page

  /** What `requests.get(SOURCE_URL.format(page))` gives: a transport error
      (which nothing catches), or the status and the `href` of every link on the
      page, in document order. */
  datatype Listing = FetchFailed(message: string) | Fetched(status: int, hrefs: seq<string>)

  /** The text `a[href*='?VALID=TRUE&g=']` looks for in a link. */
  const BookLinkMarker: string := "?VALID=TRUE&g="

  /** The key of `[?&]g=(\d+)`. */
  const IdKey: string := "g="

  /** One row of `all_data`: a book id and the link's absolute URL. */
  datatype Entry = Entry(id: nat, url: string)

  /** `int(m.group(1))` for `re.search(r"[?&]g=(\d+)", href)`, case-sensitive:
      the value of the digits after the leftmost `?g=` or `&g=` followed by a
      digit. */
  function BookId(href: string): (r: Option<nat>)
    ensures r.None? <==> forall j :: !TokenAt(href, IdKey, false, j)
  {
    TokenValue(href, IdKey, false)
  }

  /** The entry a link gives: the selector must pick it and the pattern must
      match; `e.url` is then the link's absolute form. */
  function LinkEntry(joinOther: string -> string, href: string): (r: Option<Entry>)
    ensures r.Some? <==> Contains(href, BookLinkMarker) && BookId(href).Some?
    ensures r.Some? ==> r.value.id == BookId(href).value && r.value.url == AbsUrl(href, joinOther)
  {
    if Contains(href, BookLinkMarker) && BookId(href).Some? then Some(Entry(BookId(href).value, AbsUrl(href, joinOther)))
    else None
  }

  /** The entries the loop over a page's links appends, in document order, with
      `link` giving the entry of one link. */
  function PageEntries(hrefs: seq<string>, link: string -> Option<Entry>): (r: seq<Entry>)
    ensures |r| <= |hrefs|
    decreases |hrefs|
  {
    if |hrefs| == 0 then []
    else
      var n := |hrefs| - 1;
      PageEntries(hrefs[..n], link) + (if link(hrefs[n]).Some? then [link(hrefs[n]).value] else [])
  }

  /** A page's entries are exactly the ones its links give. */
  lemma {:induction false} PageEntriesMembers(hrefs: seq<string>, link: string -> Option<Entry>, e: Entry)
    ensures e in PageEntries(hrefs, link) <==> exists k :: 0 <= k < |hrefs| && link(hrefs[k]) == Some(e)
    decreases |hrefs|
  {
    if |hrefs| > 0 {
      var n := |hrefs| - 1;
      var init := hrefs[..n];
      PageEntriesMembers(init, link, e);
      if exists k :: 0 <= k < |init| && link(init[k]) == Some(e) {
        var k :| 0 <= k < |init| && link(init[k]) == Some(e);
        assert hrefs[k] == init[k];
      }
      if exists k :: 0 <= k < |hrefs| && link(hrefs[k]) == Some(e) {
        var k :| 0 <= k < |hrefs| && link(hrefs[k]) == Some(e);
        if k < n {
          assert init[k] == hrefs[k];
        }
      }
    }
  }

  /** The entries of two runs of links, one after the other. */
  lemma {:induction false} PageEntriesAppend(a: seq<string>, b: seq<string>, link: string -> Option<Entry>)
    ensures PageEntries(a + b, link) == PageEntries(a, link) + PageEntries(b, link)
    decreases |b|
  {
    if |b| == 0 {
      assert a + b == a;
    } else {
      var n := |b| - 1;
      assert (a + b)[..|a + b| - 1] == a + b[..n];
      PageEntriesAppend(a, b[..n], link);
    }
  }

  /** A link that gives no entry contributes nothing, wherever it stands. */
  lemma LinkWithoutIdIgnored(a: seq<string>, h: string, b: seq<string>, link: string -> Option<Entry>)
    requires link(h).None?
    ensures PageEntries(a + [h] + b, link) == PageEntries(a + b, link)
  {
    PageEntriesAppend(a + [h], b, link);
    PageEntriesAppend(a, [h], link);
    PageEntriesAppend(a, b, link);
    assert [h][..0] == [];
  }

  /** A link without a `g=` id, or one the selector does not pick, gives no
      entry. */
  lemma UnmatchedLinkGivesNothing(joinOther: string -> string, h: string)
    requires !Contains(h, BookLinkMarker) || BookId(h).None?
    ensures LinkEntry(joinOther, h).None?
  {
  }

  /** Leading zeros collapse: `g=07` and `g=7` give the same id. */
  lemma IdLeadingZero(page: string, ds: string, tail: string)
    requires MarkersNotBefore(page, 'g')
    requires |ds| >= 1 && AllDigits(ds)
    requires |tail| == 0 || !IsDigit(tail[0])
    ensures BookId(page + "&g=" + ("0" + ds) + tail) == BookId(page + "&g=" + ds + tail) == Some(DigitsValue(ds))
  {
    ZeroLedDigits(ds);
    IdReadsBack(page, "0" + ds, tail);
    IdReadsBack(page, ds, tail);
    LeadingZeroIgnored(ds);
  }

  lemma ZeroLedDigits(ds: string)
    requires AllDigits(ds)
    ensures AllDigits("0" + ds)
  {
    assert forall i :: 1 <= i < |"0" + ds| ==> ("0" + ds)[i] == ds[i - 1];
  }

  // ---------------------------------------------------------------------------
  // The page loop

  /** What a fetched page contributes: its entries when the status is 200 and
      nothing otherwise. */
  function PageYield(l: Listing, joinOther: string -> string): seq<Entry>
    requires l.Fetched?
  {
    if l.status == 200 then PageEntries(l.hrefs, h => LinkEntry(joinOther, h)) else []
  }

  /** The page loop, with `fetch` standing for the `GET` of a listing page: a
      page with another status is skipped and the loop goes on; a transport
      error ends the run with that error. */
  function Collect(pages: seq<int>, fetch: int -> Listing, joinOther: string -> string)
    : (r: Result<seq<Entry>, string>)
    ensures r.Err? <==> exists p :: p in pages && fetch(p).FetchFailed?
    ensures r.Err? ==> exists i :: 0 <= i < |pages| && fetch(pages[i]) == FetchFailed(r.error)
                                && forall j :: 0 <= j < i ==> fetch(pages[j]).Fetched?
    decreases |pages|
  {
    if |pages| == 0 then Ok([])
    else
      match fetch(pages[0])
      case FetchFailed(m) =>
        var p := pages[0];
        assert p in pages && fetch(p).FetchFailed?;
        Err(m)
      case Fetched(status, hrefs) =>
        match Collect(pages[1..], fetch, joinOther)
        case Err(m) =>
          assert forall i :: 1 <= i < |pages| ==> pages[1..][i - 1] == pages[i];
          Err(m)
        case Ok(more) => Ok(PageYield(fetch(pages[0]), joinOther) + more)
  }

  /** A page whose status is not 200 contributes nothing, and the pages after
      it are still visited. */
  lemma {:induction false} SkippedPage(ps1: seq<int>, p: int, ps2: seq<int>, fetch: int -> Listing,
                                       joinOther: string -> string)
    requires fetch(p).Fetched? && fetch(p).status != 200
    ensures Collect(ps1 + [p] + ps2, fetch, joinOther) == Collect(ps1 + ps2, fetch, joinOther)
    decreases |ps1|
  {
    if |ps1| == 0 {
      var s := [p] + ps2;
      assert ps1 + [p] + ps2 == s && ps1 + ps2 == ps2;
      assert s[0] == p && s[1..] == ps2;
      assert PageYield(fetch(p), joinOther) == [];
      match Collect(ps2, fetch, joinOther) {
        case Err(m) =>
          assert Collect(s, fetch, joinOther) == Err(m);
        case Ok(more) =>
          assert Collect(s, fetch, joinOther) == Ok(PageYield(fetch(p), joinOther) + more);
          assert [] + more == more;
      }
    } else {
      assert (ps1 + [p] + ps2)[1..] == ps1[1..] + [p] + ps2;
      assert (ps1 + ps2)[1..] == ps1[1..] + ps2;
      SkippedPage(ps1[1..], p, ps2, fetch, joinOther);
    }
  }

  /** The pages are visited in order: collecting over two runs of pages is
      collecting over the first, then over the second. */
  lemma {:induction false} CollectAppend(ps1: seq<int>, ps2: seq<int>, fetch: int -> Listing, joinOther: string -> string)
    ensures Collect(ps1 + ps2, fetch, joinOther).Ok? <==>
              Collect(ps1, fetch, joinOther).Ok? && Collect(ps2, fetch, joinOther).Ok?
    ensures Collect(ps1 + ps2, fetch, joinOther).Ok? ==>
              Collect(ps1 + ps2, fetch, joinOther).value == Collect(ps1, fetch, joinOther).value + Collect(ps2, fetch, joinOther).value
    decreases |ps1|
  {
    if |ps1| == 0 {
      assert ps1 + ps2 == ps2;
    } else {
      var s := ps1 + ps2;
      assert s[0] == ps1[0] && s[1..] == ps1[1..] + ps2;
      CollectAppend(ps1[1..], ps2, fetch, joinOther);
      if fetch(ps1[0]).Fetched? && Collect(ps1[1..] + ps2, fetch, joinOther).Ok? {
        var y := PageYield(fetch(ps1[0]), joinOther);
        assert Collect(s, fetch, joinOther).value == y + Collect(ps1[1..] + ps2, fetch, joinOther).value;
        assert Collect(ps1, fetch, joinOther).value == y + Collect(ps1[1..], fetch, joinOther).value;
      }
    }
  }

  /** When every page is reached, an entry is collected exactly when some page
      with status 200 lists it. */
  lemma {:induction false} CollectMembers(pages: seq<int>, fetch: int -> Listing, joinOther: string -> string, e: Entry)
    requires Collect(pages, fetch, joinOther).Ok?
    ensures e in Collect(pages, fetch, joinOther).value <==>
            exists i :: 0 <= i < |pages| && fetch(pages[i]).Fetched? && e in PageYield(fetch(pages[i]), joinOther)
    decreases |pages|
  {
    if |pages| > 0 {
      var tail := pages[1..];
      CollectMembers(tail, fetch, joinOther, e);
      if exists i :: 0 <= i < |tail| && fetch(tail[i]).Fetched? && e in PageYield(fetch(tail[i]), joinOther) {
        var i :| 0 <= i < |tail| && fetch(tail[i]).Fetched? && e in PageYield(fetch(tail[i]), joinOther);
        assert pages[i + 1] == tail[i];
      }
      if exists i :: 0 <= i < |pages| && fetch(pages[i]).Fetched? && e in PageYield(fetch(pages[i]), joinOther) {
        var i :| 0 <= i < |pages| && fetch(pages[i]).Fetched? && e in PageYield(fetch(pages[i]), joinOther);
        if i > 0 {
          assert tail[i - 1] == pages[i];
        }
      }
    }
  }

  // ---------------------------------------------------------------------------
  // De-duplication

  /** The ids of a run of entries. */
  function Ids(xs: seq<Entry>): set<nat>
    decreases |xs|
  {
    if |xs| == 0 then {} else Ids(xs[..|xs| - 1]) + {xs[|xs| - 1].id}
  }

  /** An id is among the ids of a run exactly when some entry carries it. */
  lemma {:induction false} IdsMembers(xs: seq<Entry>, id: nat)
    ensures id in Ids(xs) <==> exists k :: 0 <= k < |xs| && xs[k].id == id
    decreases |xs|
  {
    if |xs| > 0 {
      var n := |xs| - 1;
      IdsMembers(xs[..n], id);
      if exists k :: 0 <= k < |xs| && xs[k].id == id {
        var k :| 0 <= k < |xs| && xs[k].id == id;
        if k < n {
          assert xs[..n][k] == xs[k];
        }
      }
    }
  }

  /** No entry before the one at `i` has its id: it is that id's first
      occurrence. */
  predicate IsFirst(xs: seq<Entry>, i: nat)
    requires i < |xs|
  {
    forall k :: 0 <= k < i ==> xs[k].id != xs[i].id
  }

  /** The reference result of the de-duplication: the first occurrence of
      every id, in input order. */
  function FirstOccurrences(xs: seq<Entry>): (r: seq<Entry>)
    ensures |r| <= |xs|
    decreases |xs|
  {
    if |xs| == 0 then []
    else
      var n := |xs| - 1;
      FirstOccurrences(xs[..n]) + (if IsFirst(xs, n) then [xs[n]] else [])
  }

  /** The positions of the first occurrences, in increasing order. */
  function FirstIndices(xs: seq<Entry>): (r: seq<nat>)
    ensures forall k :: 0 <= k < |r| ==> r[k] < |xs|
    ensures forall j, k :: 0 <= j < k < |r| ==> r[j] < r[k]
    ensures forall i :: 0 <= i < |xs| ==> (i in r <==> IsFirst(xs, i))
    decreases |xs|
  {
    if |xs| == 0 then []
    else
      var n := |xs| - 1;
      assert forall i :: 0 <= i < n ==> (IsFirst(xs[..n], i) <==> IsFirst(xs, i)) by {
        forall i | 0 <= i < n ensures IsFirst(xs[..n], i) <==> IsFirst(xs, i) {
          assert forall k :: 0 <= k <= i ==> xs[..n][k] == xs[k];
        }
      }
      FirstIndices(xs[..n]) + (if IsFirst(xs, n) then [n] else [])
  }

  /** The kept entries are the entries at the first-occurrence positions, in
      order: the first URL of each id, in the order the ids first appear. */
  lemma {:induction false} FirstOccurrencesExact(xs: seq<Entry>)
    ensures var ix := FirstIndices(xs);
            var r := FirstOccurrences(xs);
            |r| == |ix| && forall k :: 0 <= k < |r| ==> r[k] == xs[ix[k]]
    decreases |xs|
  {
    if |xs| > 0 {
      var n := |xs| - 1;
      FirstOccurrencesExact(xs[..n]);
      var ix0 := FirstIndices(xs[..n]);
      var r0 := FirstOccurrences(xs[..n]);
      var ix := FirstIndices(xs);
      var r := FirstOccurrences(xs);
      forall k | 0 <= k < |r0| ensures r[k] == xs[ix[k]] {
        assert ix0[k] < n;
        assert xs[..n][ix0[k]] == xs[ix0[k]];
      }
    }
  }

  /** No two kept entries share an id. */
  predicate DistinctIds(xs: seq<Entry>) {
    forall i, j :: 0 <= i < j < |xs| ==> xs[i].id != xs[j].id
  }

  /** The kept ids are pairwise distinct, every kept entry is an input entry
      that is its id's first occurrence, and every input id is kept. */
  lemma FirstOccurrencesSound(xs: seq<Entry>)
    ensures DistinctIds(FirstOccurrences(xs))
    ensures forall j :: 0 <= j < |FirstOccurrences(xs)| ==>
              exists i :: 0 <= i < |xs| && FirstOccurrences(xs)[j] == xs[i] && IsFirst(xs, i)
    ensures Ids(FirstOccurrences(xs)) == Ids(xs)
  {
    var r := FirstOccurrences(xs);
    var ix := FirstIndices(xs);
    FirstOccurrencesExact(xs);
    forall i, j | 0 <= i < j < |r| ensures r[i].id != r[j].id {
      assert ix[i] < ix[j] && IsFirst(xs, ix[j]);
    }
    forall j | 0 <= j < |r| ensures exists i :: 0 <= i < |xs| && r[j] == xs[i] && IsFirst(xs, i) {
      assert ix[j] in ix;
    }
    SameIds(xs);
  }

  lemma {:induction false} SameIds(xs: seq<Entry>)
    ensures Ids(FirstOccurrences(xs)) == Ids(xs)
    decreases |xs|
  {
    if |xs| > 0 {
      var n := |xs| - 1;
      SameIds(xs[..n]);
      var r0 := FirstOccurrences(xs[..n]);
      var r := FirstOccurrences(xs);
      if IsFirst(xs, n) {
        assert r == r0 + [xs[n]];
        assert r[..|r| - 1] == r0;
      } else {
        assert r == r0;
        var k :| 0 <= k < n && xs[k].id == xs[n].id;
        assert xs[..n][k].id == xs[n].id;
        IdsMembers(xs[..n], xs[n].id);
      }
    }
  }

  /** A run with pairwise distinct ids has as many entries as ids. */
  lemma {:induction false} DistinctIdsCount(xs: seq<Entry>)
    requires DistinctIds(xs)
    ensures |Ids(xs)| == |xs|
    decreases |xs|
  {
    if |xs| > 0 {
      var n := |xs| - 1;
      var init := xs[..n];
      assert DistinctIds(init) by {
        forall i, j | 0 <= i < j < |init| ensures init[i].id != init[j].id {
          assert init[i] == xs[i] && init[j] == xs[j];
        }
      }
      DistinctIdsCount(init);
      assert xs[n].id !in Ids(init) by {
        forall k | 0 <= k < |init| ensures init[k].id != xs[n].id {
          assert init[k] == xs[k];
        }
        IdsMembers(init, xs[n].id);
      }
    }
  }

  /** The `seen`-set loop: keeps the first entry of every id, in input order. */
  method Dedup(all: seq<Entry>) returns (unique: seq<Entry>)
    ensures unique == FirstOccurrences(all)
    ensures DistinctIds(unique)
    ensures Ids(unique) == Ids(all)
    ensures |unique| == |Ids(all)|
    ensures forall j :: 0 <= j < |unique| ==> exists i :: 0 <= i < |all| && unique[j] == all[i] && IsFirst(all, i)
  {
    var seen: set<nat> := {};
    unique := [];
    var i := 0;
    while i < |all|
      invariant 0 <= i <= |all|
      invariant unique == FirstOccurrences(all[..i])
      invariant seen == Ids(all[..i])
    {
      var e := all[i];
      var next := all[..i + 1];
      assert next[..i] == all[..i];
      assert IsFirst(next, i) <==> e.id !in seen by {
        assert forall k :: 0 <= k < i ==> next[k] == all[..i][k];
        IdsMembers(all[..i], e.id);
      }
      if e.id !in seen {
        seen := seen + {e.id};
        unique := unique + [e];
      }
      i := i + 1;
    }
    assert all[..i] == all;
    FirstOccurrencesSound(all);
    DistinctIdsCount(unique);
  }

  // ---------------------------------------------------------------------------
  // The whole run

  /** The header of the written table. */
  const Header: seq<string> := ["AudioBook_ID", "URL"]

  /** The rows `csv.writer` writes: the header, then one row per kept entry. */
  function TableRows(unique: seq<Entry>): (r: seq<seq<string>>)
    ensures |r| == |unique| + 1 && r[0] == Header
    ensures forall k :: 0 <= k < |unique| ==> r[k + 1] == [NatToString(unique[k].id), unique[k].url]
  {
    [Header] + seq(|unique|, k requires 0 <= k < |unique| => [NatToString(unique[k].id), unique[k].url])
  }

  /** Some visited page fails exactly when some page of the range fails. */
  lemma PagesFail(start: int, end: int, fetch: int -> Listing)
    ensures (exists p :: p in Pages(start, end) && fetch(p).FetchFailed?) <==>
            (exists p :: start <= p <= end && fetch(p).FetchFailed?)
  {
    forall p ensures p in Pages(start, end) <==> start <= p <= end {
      PagesVisited(start, end, p);
    }
  }

  /** The scraper from the first page to the written rows, or the transport
      error that ends it. */
  function Discover(start: int, end: int, fetch: int -> Listing, joinOther: string -> string)
    : (r: Result<seq<seq<string>>, string>)
    ensures r.Err? <==> exists p :: start <= p <= end && fetch(p).FetchFailed?
  {
    PagesFail(start, end, fetch);
    var all :- Collect(Pages(start, end), fetch, joinOther);
    Ok(TableRows(FirstOccurrences(all)))
  }

  /** The number of rows written, besides the header, is the number of distinct
      ids collected. */
  lemma RowsWritten(start: int, end: int, fetch: int -> Listing, joinOther: string -> string)
    requires Collect(Pages(start, end), fetch, joinOther).Ok?
    ensures var all := Collect(Pages(start, end), fetch, joinOther).value;
            |Discover(start, end, fetch, joinOther).value| == |Ids(all)| + 1
  {
    var all := Collect(Pages(start, end), fetch, joinOther).value;
    FirstOccurrencesSound(all);
    DistinctIdsCount(FirstOccurrences(all));
  }
}

=== FILE: extract.dfy ===
/** Record extraction from one audiobook detail page (`parse_page` and its
    helpers in script_iran_seda_final_STREAM_MERGE_v6_env.py). The markup is given
    as the plain data the helpers read out of it, so each extraction rule is a
    small total function. */
module Extract {
  import opened Wrappers
  import opened Text
  import opened Numerals
  import opened Urls
  import Seqs

  /** One `.metadata-list li`: the text of its first `dt` and of its first `dd`
      (each `get_text(strip=True)`), `None` where the element is missing. */
  datatype MetaItem = MetaItem(dt: Option<string>, dd: Option<string>)

  /** One `.item-info li`: the text of its first `span` (`get_text(strip=True)`),
      `None` without a span, and the text of the whole `li`
      (`get_text(" ", strip=True)`). */
  datatype InfoItem = InfoItem(span: Option<string>, text: string)

  /** What `parse_page` reads from a detail page. */
  datatype Page = Page(
    heading: Option<string>,          // first <h1>
    shortDescription: Option<string>, // first div.short-description
    fullDescription: Option<string>,  // first div.full-description
    metadata: seq<MetaItem>,          // .metadata-list li, document order
    itemInfo: seq<InfoItem>,          // .item-info li, document order
    ogImage: Option<string>,          // content of the first meta[property=og:image], if it has one
    imageSources: seq<string>)        // src of every <img> that has one, document order

  /** One row of the merged table (the `CSV_FIELDS` columns plus `attid`). */
  datatype BookRecord = BookRecord(
    audioBookId: Option<string>,
    title: Option<string>,
    description: string,
    detail: string,
    language: Option<string>,
    country: Option<string>,
    author: Option<string>,
    translator: Option<string>,
    narrator: Option<string>,
    director: Option<string>,
    producer: Option<string>,
    soundEngineer: Option<string>,
    effector: Option<string>,
    actors: Option<string>,
    genre: Option<string>,
    category: Option<string>,
    duration: Option<string>,
    episodeCount: Option<string>,
    coverImageUrl: Option<string>,
    playerLink: Option<string>,
    attId: Option<nat>,
    fullBookMp3Url: Option<string>,
    allMp3sFound: Option<string>)

  // Labels of the metadata list, matched as substrings of the `dt` text.
  const LabelLanguage: string := "زبان"
  const LabelCountry: string := "کشور"
  const LabelAuthor: string := "نویسنده"
  const LabelTranslator: string := "مترجم"
  const LabelNarrator: string := "گوینده"
  const LabelDirector: string := "کارگردان"
  const LabelProducer: string := "تهیه\U{200C}کننده"
  const LabelSoundEngineer: string := "مهندس صدا"
  const LabelEffector: string := "افکت\U{200C}گذار"
  const LabelActors: string := "بازیگران"
  const LabelGenre: string := "ژانر"
  const LabelCategory: string := "دسته\U{200C}بندی"

  // Labels of the item-info list, matched as substrings of the `span` text.
  const LabelDuration: string := "مدت زمان:"
  const LabelEpisodes: string := "تعداد قسمت:"

  /** The key of the asset token in an image URL (matched ignoring case). */
  const AttIdKey: string := "AttID="

  predicate DtMatches(item: MetaItem, phrase: string) {
    item.dt.Some? && Contains(item.dt.value, phrase)
  }

  predicate SpanMatches(item: InfoItem, phrase: string) {
    item.span.Some? && Contains(item.span.value, phrase)
  }

  /** `parse_from_metadata_list`: the `dd` text of the first item whose `dt` text
      contains `phrase`; `None` when no `dt` does, or when that first item has no
      `dd`. */
  function MetadataValue(items: seq<MetaItem>, phrase: string): (r: Option<string>)
    ensures (forall j :: 0 <= j < |items| ==> !DtMatches(items[j], phrase)) ==> r.None?
    ensures r.Some? ==> exists k :: 0 <= k < |items| && DtMatches(items[k], phrase) && items[k].dd == r
  {
    match Seqs.FirstWhere(items, (m: MetaItem) => DtMatches(m, phrase))
    case None => None
    case Some(k) => items[k].dd
  }

  /** The first item whose `dt` matches decides the value, even when it has no
      `dd` and a later matching item does. */
  lemma MetadataFirstMatchWins(items: seq<MetaItem>, phrase: string, k: nat)
    requires k < |items| && DtMatches(items[k], phrase)
    requires forall j :: 0 <= j < k ==> !DtMatches(items[j], phrase)
    ensures MetadataValue(items, phrase) == items[k].dd
  {
    Seqs.FirstWhereAt(items, (m: MetaItem) => DtMatches(m, phrase), k);
  }

  /** Items after the first match are never consulted. */
  lemma MetadataIgnoresLater(items: seq<MetaItem>, later: seq<MetaItem>, phrase: string)
    requires exists k :: 0 <= k < |items| && DtMatches(items[k], phrase)
    ensures MetadataValue(items + later, phrase) == MetadataValue(items, phrase)
  {
    var p := (m: MetaItem) => DtMatches(m, phrase);
    Seqs.FirstWhereIgnoresSuffix(items, later, p);
  }

  /** `parse_label_from_iteminfo`: for the first item whose span text contains
      `phrase`, the item's whole text with every occurrence of `phrase` removed and
      then stripped; `None` when no span matches. */
  function ItemInfoValue(items: seq<InfoItem>, phrase: string): (r: Option<string>)
    requires |phrase| > 0
    ensures r.None? <==> forall j :: 0 <= j < |items| ==> !SpanMatches(items[j], phrase)
    ensures r.Some? ==> IsStripped(r.value)
  {
    match Seqs.FirstWhere(items, (m: InfoItem) => SpanMatches(m, phrase))
    case None => None
    case Some(k) => Some(Strip(ReplaceAll(items[k].text, phrase, "")))
  }

  /** The first item whose span matches decides the value. */
  lemma ItemInfoFirstMatchWins(items: seq<InfoItem>, phrase: string, k: nat)
    requires |phrase| > 0
    requires k < |items| && SpanMatches(items[k], phrase)
    requires forall j :: 0 <= j < k ==> !SpanMatches(items[j], phrase)
    ensures ItemInfoValue(items, phrase) == Some(Strip(ReplaceAll(items[k].text, phrase, "")))
  {
    Seqs.FirstWhereAt(items, (m: InfoItem) => SpanMatches(m, phrase), k);
  }

  /** When the phrase text does not occur in the item text (it sits only in the
      span's markup, say), the value is the whole item text, stripped. */
  lemma ItemInfoValueWithoutLabel(item: InfoItem, rest: seq<InfoItem>, phrase: string)
    requires |phrase| > 0
    requires SpanMatches(item, phrase) && !Contains(item.text, phrase)
    ensures ItemInfoValue([item] + rest, phrase) == Some(Strip(item.text))
  {
    ReplaceAllAbsent(item.text, phrase, "");
    ItemInfoFirstMatchWins([item] + rest, phrase, 0);
  }

  /** `get_og_image`: the og:image content when it is non-empty. */
  function OgImage(page: Page): (r: Option<string>)
    ensures r.Some? ==> |r.value| > 0
    ensures page.ogImage.Some? && |page.ogImage.value| > 0 ==> r == page.ogImage
    ensures r.None? <==> page.ogImage.None? || page.ogImage.value == ""
  {
    if page.ogImage.Some? && |page.ogImage.value| > 0 then page.ogImage else None
  }

  /** `get_og_image(soup) or find_first_image_src(soup)`: the og:image when it is
      non-empty, else the first image source (even an empty one), else `None`. */
  function CoverImage(page: Page): (r: Option<string>)
    ensures OgImage(page).Some? ==> r == OgImage(page)
    ensures OgImage(page).None? && |page.imageSources| > 0 ==> r == Some(page.imageSources[0])
    ensures r.None? <==> OgImage(page).None? && |page.imageSources| == 0
  {
    if OgImage(page).Some? then OgImage(page)
    else if |page.imageSources| > 0 then Some(page.imageSources[0])
    else None
  }

  /** The asset token of one image URL: `int` of the digits after the leftmost
      `?AttID=` or `&AttID=` (any case) that is followed by a digit. */
  function AttIdOf(url: string): Option<nat> {
    TokenValue(url, AttIdKey, true)
  }

  /** `extract_attid`: the og:image's token if it carries one, else the token of the
      first image source that carries one, else `None`. */
  function ExtractAttId(page: Page): (r: Option<nat>)
    ensures OgImage(page).Some? && AttIdOf(OgImage(page).value).Some? ==> r == AttIdOf(OgImage(page).value)
    ensures r.None? <==> (OgImage(page).None? || AttIdOf(OgImage(page).value).None?)
                         && forall j :: 0 <= j < |page.imageSources| ==> AttIdOf(page.imageSources[j]).None?
  {
    var og := OgImage(page);
    if og.Some? && AttIdOf(og.value).Some? then AttIdOf(og.value)
    else
      match Seqs.FirstWhere(page.imageSources, (src: string) => AttIdOf(src).Some?)
      case None => None
      case Some(k) => AttIdOf(page.imageSources[k])
  }

  /** Without a token in the og:image, the first image source (document order)
      that carries one decides; sources after it are never consulted. */
  lemma AttIdFromFirstImage(page: Page, k: nat)
    requires OgImage(page).None? || AttIdOf(OgImage(page).value).None?
    requires k < |page.imageSources| && AttIdOf(page.imageSources[k]).Some?
    requires forall j :: 0 <= j < k ==> AttIdOf(page.imageSources[j]).None?
    ensures ExtractAttId(page) == AttIdOf(page.imageSources[k])
  {
    Seqs.FirstWhereAt(page.imageSources, (src: string) => AttIdOf(src).Some?, k);
  }

  /** The player page; `build_player_link` appends `&g=`, the id, `&b=&attid=`
      and the token. */
  const DetailsPage: string := "https://book.iranseda.ir/Details?VALID=TRUE"
  const BlankB: string := "&b="
  const AttIdField: string := "&attid="

  /** `build_player_link(g, attid)`: the details page of book `g`, followed by
      the token field. */
  function BuildPlayerLink(g: string, attId: nat): (r: string)
    ensures StartsWith(r, DetailsPage + "&g=" + g)
    ensures |r| > |DetailsPage + "&g=" + g|
  {
    DetailsPage + "&g=" + g + (BlankB + AttIdField + NatToString(attId))
  }

  /** `build_player_link(g, attid) if g and attid else None`: a link exactly when the
      id is non-empty and the token is present and non-zero. */
  function PlayerLink(g: Option<string>, attId: Option<nat>): (r: Option<string>)
    ensures r.Some? <==> g.Some? && |g.value| > 0 && attId.Some? && attId.value != 0
  {
    if g.Some? && |g.value| > 0 && attId.Some? && attId.value != 0
    then Some(BuildPlayerLink(g.value, attId.value))
    else None
  }

  /** The player link carries the book id and the token, and both read back out of
      it: the id with the scraper's `[?&]g=(\d+)` rule, the token with the
      `[?&]AttID=(\d+)` rule that extracted it. */
  lemma PlayerLinkRoundTrip(n: nat, attId: nat)
    requires attId != 0
    ensures PlayerLink(Some(NatToString(n)), Some(attId)).Some?
    ensures TokenValue(PlayerLink(Some(NatToString(n)), Some(attId)).value, "g=", false) == Some(n)
    ensures AttIdOf(PlayerLink(Some(NatToString(n)), Some(attId)).value) == Some(attId)
  {
    var g := NatToString(n);
    var a := NatToString(attId);
    DetailsPageMarkers();
    IdReadsBack(DetailsPage, g, BlankB + AttIdField + a);
    var front := DetailsPage + "&g=" + g + BlankB;
    Assoc(BlankB, AttIdField, a);
    Assoc(DetailsPage + "&g=" + g, BlankB, AttIdField + a);
    FrontMarkers(DetailsPage, g);
    TokenReadsBack(front, attId);
  }

  /** Neither `g=` nor `AttID=` can match inside the page address. */
  lemma DetailsPageMarkers()
    ensures MarkersNotBefore(DetailsPage, 'g') && MarkersNotBefore(DetailsPage, 'a')
  {
    var p := DetailsPage;
    forall j | 0 <= j < |p| && (p[j] == '?' || p[j] == '&') ensures j == 32 {
    }
    assert p[33] == 'V';
  }

  /** After text with no match in it, `&attid=` and the token read back as the
      token. */
  lemma TokenReadsBack(front: string, attId: nat)
    requires MarkersNotBefore(front, 'a')
    ensures AttIdOf(front + (AttIdField + NatToString(attId))) == Some(attId)
  {
    var a := NatToString(attId);
    var back := AttIdField + a;
    assert back == ['&'] + "attid=" + a + "";
    TokenValueHere('&', "attid=", AttIdKey, true, a, "");
    NoTokenInFront(front, back, AttIdKey, true);
  }

  /** The id field and the empty `b` field add no `AttID=` match. */
  lemma FrontMarkers(page: string, g: string)
    requires MarkersNotBefore(page, 'a') && AllDigits(g)
    ensures MarkersNotBefore(page + "&g=" + g + BlankB, 'a')
  {
    var s := page + "&g=" + g + BlankB;
    var k := |page|;
    forall j | 0 <= j < |s| && (s[j] == '?' || s[j] == '&')
      ensures j + 1 < |s| && LowerChar(s[j + 1]) != 'a'
    {
      if j < k {
        assert s[j] == page[j] && s[j + 1] == page[j + 1];
      } else if j == k {
        assert s[j + 1] == 'g';
      } else if j < k + 3 + |g| {
      } else {
        assert j == k + 3 + |g| && s[j + 1] == 'b';
      }
    }
  }

  /** `parse_page(html, url)`. The mp3 columns are filled in by the merge step. */
  function ParsePage(page: Page, url: string): (r: BookRecord)
    ensures r.audioBookId == FirstQueryValue(url, "g")
    ensures r.description == page.shortDescription.GetOr("")
    ensures r.detail == page.fullDescription.GetOr("")
    ensures r.playerLink.Some? <==> r.audioBookId.Some? && r.attId.Some? && r.attId.value != 0
    ensures r.attId == ExtractAttId(page) && r.coverImageUrl == CoverImage(page)
    ensures r.fullBookMp3Url.None? && r.allMp3sFound.None?
    ensures r.playerLink.Some? ==> r.playerLink.value == BuildPlayerLink(r.audioBookId.value, r.attId.value)
    ensures r.title == page.heading
    ensures && r.language == MetadataValue(page.metadata, LabelLanguage)
            && r.country == MetadataValue(page.metadata, LabelCountry)
            && r.author == MetadataValue(page.metadata, LabelAuthor)
            && r.translator == MetadataValue(page.metadata, LabelTranslator)
            && r.narrator == MetadataValue(page.metadata, LabelNarrator)
            && r.director == MetadataValue(page.metadata, LabelDirector)
            && r.producer == MetadataValue(page.metadata, LabelProducer)
            && r.soundEngineer == MetadataValue(page.metadata, LabelSoundEngineer)
            && r.effector == MetadataValue(page.metadata, LabelEffector)
            && r.actors == MetadataValue(page.metadata, LabelActors)
            && r.genre == MetadataValue(page.metadata, LabelGenre)
            && r.category == MetadataValue(page.metadata, LabelCategory)
    ensures r.duration == ItemInfoValue(page.itemInfo, LabelDuration)
    ensures r.episodeCount == ItemInfoValue(page.itemInfo, LabelEpisodes)
  {
    var g := FirstQueryValue(url, "g");
    var attId := ExtractAttId(page);
    BookRecord(
      audioBookId := g,
      title := page.heading,
      description := page.shortDescription.GetOr(""),
      detail := page.fullDescription.GetOr(""),
      language := MetadataValue(page.metadata, LabelLanguage),
      country := MetadataValue(page.metadata, LabelCountry),
      author := MetadataValue(page.metadata, LabelAuthor),
      translator := MetadataValue(page.metadata, LabelTranslator),
      narrator := MetadataValue(page.metadata, LabelNarrator),
      director := MetadataValue(page.metadata, LabelDirector),
      producer := MetadataValue(page.metadata, LabelProducer),
      soundEngineer := MetadataValue(page.metadata, LabelSoundEngineer),
      effector := MetadataValue(page.metadata, LabelEffector),
      actors := MetadataValue(page.metadata, LabelActors),
      genre := MetadataValue(page.metadata, LabelGenre),
      category := MetadataValue(page.metadata, LabelCategory),
      duration := ItemInfoValue(page.itemInfo, LabelDuration),
      episodeCount := ItemInfoValue(page.itemInfo, LabelEpisodes),
      coverImageUrl := CoverImage(page),
      playerLink := PlayerLink(g, attId),
      attId := attId,
      fullBookMp3Url := None,
      allMp3sFound := None)
  }

  // ---------------------------------------------------------------------------
  // The page of the cover-image test

  const DetailsPath: string := "https://book.iranseda.ir/Details"

  /** The query of a details URL with an id appended. */
  lemma DetailsQuery(g: string)
    requires AllDigits(g)
    ensures QueryOf(DetailsPage + "&g=" + g) == "VALID=TRUE&g=" + g
  {
    var q := "VALID=TRUE&g=" + g;
    assert DetailsPage + "&g=" + g == DetailsPath + "?" + q;
    forall i | 0 <= i < |q| ensures !IsUrlNoise(q[i]) && q[i] != '#' {
      if i >= 13 { assert q[i] == g[i - 13]; }
    }
    QueryOfPlain(DetailsPath, q);
  }

  /** That query splits at `&` into the `VALID` field and the id field. */
  lemma DetailsFields(g: string)
    requires AllDigits(g)
    ensures SplitOn("VALID=TRUE&g=" + g, '&') == ["VALID=TRUE", "g=" + g]
  {
    var f1, f2 := "VALID=TRUE", "g=" + g;
    assert Join([f1, f2], "&") == "VALID=TRUE&g=" + g;
    assert '&' !in f2 by {
      forall i | 0 <= i < |f2| ensures f2[i] != '&' {
        if i >= 2 { assert f2[i] == g[i - 2]; }
      }
    }
    SplitJoin([f1, f2], '&');
  }

  /** `parse_qsl` reads those two fields as two pairs. */
  lemma DetailsPairs(g: string)
    requires |g| >= 1 && AllDigits(g)
    ensures QueryPairs(DetailsPage + "&g=" + g) == [("VALID", "TRUE"), ("g", g)]
  {
    KeyField("g=", "g", g);
    DetailsQuery(g);
    DetailsFields(g);
    var fs := ["VALID=TRUE", "g=" + g];
    assert QueryPairs(DetailsPage + "&g=" + g) == QueryFields(fs);
    ValidField();
    QueryFieldsTwo("VALID=TRUE", "g=" + g);
  }

  /** `parse_qs` reads the id back out of a details URL `…/Details?VALID=TRUE&g=<digits>`. */
  lemma DetailsUrlId(g: string)
    requires |g| >= 1 && AllDigits(g)
    ensures FirstQueryValue(DetailsPage + "&g=" + g, "g") == Some(g)
  {
    DetailsPairs(g);
    assert "VALID" != "g";
    FirstQueryValueAt(DetailsPage + "&g=" + g, "g", 1);
  }

  /** The test's page address. */
  const ExampleId: string := "5678"
  const ExampleUrl: string := DetailsPage + "&g=" + ExampleId

  const CoverPath: string := "/images/cover.jpg"
  const CoverUrl: string := CoverPath + "?AttID=1234"

  /** The cover-image test's page (an `og:image` with a token, a heading and both
      descriptions, no `<img>`), with one author entry added to its metadata. */
  const ExamplePage: Page := Page(Some("Example Book"), Some("Short"), Some("Full"),
                                  [MetaItem(Some(LabelAuthor + ":"), Some("Author"))], [],
                                  Some(CoverUrl), [])

  lemma FourDigits()
    ensures AllDigits("1234") && DigitsValue("1234") == 1234
  {
    assert "1234"[..3] == "123" && "123"[..2] == "12" && "12"[..1] == "1";
  }

  lemma CoverToken()
    ensures AttIdOf(CoverUrl) == Some(1234)
  {
    var back := ['?'] + AttIdKey + "1234" + "";
    assert CoverUrl == CoverPath + back;
    assert MarkersNotBefore(CoverPath, 'a') by {
      forall j | 0 <= j < |CoverPath| ensures CoverPath[j] != '?' && CoverPath[j] != '&' { }
    }
    NoTokenInFront(CoverPath, back, AttIdKey, true);
    TokenValueSkip(CoverPath, back, AttIdKey, true);
    FourDigits();
    TokenValueHere('?', AttIdKey, AttIdKey, true, "1234", "");
    assert TokenValue(back, AttIdKey, true) == Some(1234);
  }

  /** What `parse_page` makes of that page at the test's URL: the id from the URL,
      the token from the `og:image`, the player link built from both, the author
      from its label, and the cover exactly as the `og:image` gives it, relative. */
  lemma ExamplePageParsed()
    ensures var r := ParsePage(ExamplePage, ExampleUrl);
            && r.audioBookId == Some(ExampleId)
            && r.title == Some("Example Book")
            && r.author == Some("Author")
            && r.attId == Some(1234)
            && r.coverImageUrl == Some(CoverUrl)
            && r.playerLink == Some(BuildPlayerLink(ExampleId, 1234))
  {
    var r := ParsePage(ExamplePage, ExampleUrl);
    ExampleUrlId();
    ExampleCover();
    ExampleAuthor();
  }

  lemma ExampleUrlId()
    ensures FirstQueryValue(ExampleUrl, "g") == Some(ExampleId)
  {
    assert AllDigits(ExampleId);
    DetailsUrlId(ExampleId);
  }

  lemma ExampleCover()
    ensures ExtractAttId(ExamplePage) == Some(1234) && CoverImage(ExamplePage) == Some(CoverUrl)
  {
    assert OgImage(ExamplePage) == Some(CoverUrl);
    CoverToken();
  }

  lemma ExampleAuthor()
    ensures MetadataValue(ExamplePage.metadata, LabelAuthor) == Some("Author")
  {
    ContainsInfix("", LabelAuthor, ":");
    assert "" + LabelAuthor + ":" == LabelAuthor + ":";
    MetadataFirstMatchWins(ExamplePage.metadata, LabelAuthor, 0);
  }

}

=== FILE: feed.dfy ===
/** The podcast writer, tools/csv_to_podcast.py: reads the merged table, probes
    each episode's audio with a `HEAD` request and writes an RSS 2.0 feed with
    iTunes extensions. The probe, the SHA-1 digest and the clock are parameters. */
module Feed {
  import opened Wrappers
  import opened Text
  import opened Numerals
  import opened Xml

  /** One row of the input table as `csv.DictReader` gives it: a short row leaves
      its missing columns `None`. */
  type FeedRow = map<string, Option<string>>

  // ---------------------------------------------------------------------------
  // safe_get

  /** `safe_get(row, key, default)`: a missing key gives the default (stripped,
      since it goes through `str(v).strip()`); a `None` cell gives the default
      as it is; any other cell gives its stripped text. */
  function SafeGet(row: FeedRow, key: string, default: string): (r: string)
    ensures r == default || IsStripped(r)
    ensures IsStripped(default) ==> IsStripped(r)
    ensures key in row && row[key].Some? ==> r == Strip(row[key].value)
    ensures key in row && row[key].None? ==> r == default
    ensures key !in row ==> r == Strip(default)
  {
    if key !in row then Strip(default)
    else
      match row[key]
      case None => default
      case Some(v) => Strip(v)
  }

  /** `safe_get(row, key)`, the form every caller uses. */
  function Field(row: FeedRow, key: string): (r: string)
    ensures IsStripped(r)
    ensures r == "" <==> key !in row || row[key].None? || Strip(row[key].value) == ""
  {
    SafeGet(row, key, "")
  }

  /** Python's `a or b` on two strings. */
  function Or(a: string, b: string): (r: string)
    ensures r == "" <==> a == "" && b == ""
    ensures r == a || r == b
    ensures a != "" ==> r == a
  {
    if a != "" then a else b
  }

  const TitleKey: string := "Book_Title"
  const Mp3Key: string := "FullBook_MP3_URL"
  const PlayerKey: string := "Player_Link"
  const CoverKey: string := "Cover_Image_URL"
  const DurationKey: string := "Book_Duration"
  const ProducerKey: string := "Book_Producer"
  const AuthorKey: string := "Book_Author"
  const CategoryKey: string := "Book_Category"
  const GenreKey: string := "Book_Genre"
  const LanguageKey: string := "Book_Language"
  const CountryKey: string := "Book_Country"

  /** The title given to a book without one ("untitled"). */
  const Untitled: string := "عنوان بدون نام"
  const DefaultLanguage: string := "fa"

  /** `safe_get(row, "FullBook_MP3_URL") or safe_get(row, "Player_Link")`. */
  function AudioOf(row: FeedRow): (r: string)
    ensures r == "" <==> Field(row, Mp3Key) == "" && Field(row, PlayerKey) == ""
    ensures Field(row, Mp3Key) != "" ==> r == Field(row, Mp3Key)
  {
    Or(Field(row, Mp3Key), Field(row, PlayerKey))
  }

  // ---------------------------------------------------------------------------
  // The description

  /** The columns the description shows, each with its Persian label, in the
      order they are shown. */
  const FieldMap: seq<(string, string)> := [
      ("Book_Title", "عنوان کتاب"),
      ("Book_Description", "توضیحات کتاب"),
      ("Book_Detail", "جزئیات"),
      ("Book_Language", "زبان"),
      ("Book_Country", "کشور"),
      ("Book_Author", "نویسنده"),
      ("Book_Translator", "مترجم"),
      ("Book_Narrator", "گوینده"),
      ("Book_Director", "کارگردان"),
      ("Book_Producer", "تهیه\U{200C}کننده"),
      ("Book_SoundEngineer", "صدابردار"),
      ("Book_Effector", "افکت\U{200C}گذار"),
      ("Book_Actors", "بازیگران"),
      ("Book_Genre", "ژانر"),
      ("Book_Category", "دسته\U{200C}بندی"),
      ("Book_Duration", "مدت زمان"),
      ("Episode_Count", "تعداد اپیزود"),
      ("Cover_Image_URL", "تصویر کاور")
    ]

  const EntrySeparator: string := "<br/>"

  /** `f"{label}: {val}"`, for the column `f.0` labelled `f.1`, where `value`
      looks a column up in the row. */
  function Entry(value: string -> string, f: (string, string)): string {
    f.1 + ": " + value(f.0)
  }

  /** The positions in `fm` of the columns that have a value, in increasing order. */
  function FilledIndices(value: string -> string, fm: seq<(string, string)>): (r: seq<nat>)
    ensures forall k :: 0 <= k < |r| ==> r[k] < |fm|
    ensures forall j, k :: 0 <= j < k < |r| ==> r[j] < r[k]
    ensures forall i :: 0 <= i < |fm| ==> (i in r <==> value(fm[i].0) != "")
    decreases |fm|
  {
    if |fm| == 0 then []
    else
      var n := |fm| - 1;
      FilledIndices(value, fm[..n]) + (if value(fm[n].0) != "" then [n] else [])
  }

  /** The description entries, as the loop over `field_map` appends them. */
  function DescEntries(value: string -> string, fm: seq<(string, string)>): (r: seq<string>)
    ensures |r| <= |fm|
    decreases |fm|
  {
    if |fm| == 0 then []
    else
      var n := |fm| - 1;
      DescEntries(value, fm[..n]) + (if value(fm[n].0) != "" then [Entry(value, fm[n])] else [])
  }

  /** The description holds one entry per column with a value, in `field_map`
      order, and nothing else. */
  lemma {:induction false} DescEntriesExact(value: string -> string, fm: seq<(string, string)>)
    ensures var ix := FilledIndices(value, fm);
            var r := DescEntries(value, fm);
            |r| == |ix| && forall k :: 0 <= k < |r| ==> r[k] == Entry(value, fm[ix[k]])
    decreases |fm|
  {
    if |fm| > 0 {
      var n := |fm| - 1;
      DescEntriesExact(value, fm[..n]);
      var ix0 := FilledIndices(value, fm[..n]);
      var r0 := DescEntries(value, fm[..n]);
      var ix := FilledIndices(value, fm);
      var r := DescEntries(value, fm);
      if value(fm[n].0) != "" {
        assert r == r0 + [Entry(value, fm[n])] && ix == ix0 + [n];
      } else {
        assert r == r0 && ix == ix0;
      }
      forall k | 0 <= k < |r0| ensures r[k] == Entry(value, fm[ix[k]]) {
        assert r[k] == r0[k] && ix[k] == ix0[k] < n;
        assert fm[..n][ix0[k]] == fm[ix0[k]];
      }
    }
  }

  /** The item description: the entries joined by `<br/>`. */
  function Description(row: FeedRow): string {
    Join(DescEntries(key => Field(row, key), FieldMap), EntrySeparator)
  }

  // ---------------------------------------------------------------------------
  // fetch_audio_length

  /** What `requests.head(url, allow_redirects=True)` gives: a transport error, or
      the final response's status and the pairs of `r.headers.items()`, names as
      the server sent them. `requests` keeps headers in a case-insensitive dict,
      and a header the server repeats arrives as one comma-joined value, so the
      list stands for those pairs and a later name overrides an earlier one. */
  datatype ProbeReply = ProbeFailed(message: string) | Response(status: int, headers: seq<(string, string)>)

  /** Why the probe raised. */
  datatype ProbeError =
    | Transport(message: string)
    | HttpError(status: int)
    | InvalidContentType(contentType: Option<string>)
    | MissingContentLength
    | BadContentLength(text: string)

  const ContentTypeName: string := "content-type"
  const ContentLengthName: string := "content-length"
  const AudioMpeg: string := "audio/mpeg"

  /** `raise_for_status`: a client or server error status raises. */
  predicate IsHttpError(status: int) {
    400 <= status < 600
  }

  /** The value of the last header whose lower-cased name is `name`. */
  function LastHeader(hs: seq<(string, string)>, name: string): (r: Option<string>)
    ensures r.None? <==> forall i :: 0 <= i < |hs| ==> Lower(hs[i].0) != name
    decreases |hs|
  {
    if |hs| == 0 then None
    else if Lower(hs[|hs| - 1].0) == name then Some(hs[|hs| - 1].1)
    else LastHeader(hs[..|hs| - 1], name)
  }

  /** The header a name finds is the last one carrying it. */
  lemma {:induction false} LastHeaderAt(hs: seq<(string, string)>, name: string, i: nat)
    requires i < |hs| && Lower(hs[i].0) == name
    requires forall j :: i < j < |hs| ==> Lower(hs[j].0) != name
    ensures LastHeader(hs, name) == Some(hs[i].1)
    decreases |hs|
  {
    if i < |hs| - 1 {
      var front := hs[..|hs| - 1];
      assert front[i] == hs[i];
      assert forall j :: i < j < |front| ==> front[j] == hs[j];
      LastHeaderAt(front, name, i);
    }
  }

  /** `{k.lower(): v for k, v in r.headers.items()}`: a later header overwrites an
      earlier one with the same lower-cased name. */
  function LowerHeaders(hs: seq<(string, string)>): (m: map<string, string>)
    ensures forall k :: k in m <==> LastHeader(hs, k).Some?
    ensures forall k :: k in m ==> m[k] == LastHeader(hs, k).value
    decreases |hs|
  {
    if |hs| == 0 then map[]
    else
      var h := hs[|hs| - 1];
      LowerHeaders(hs[..|hs| - 1])[Lower(h.0) := h.1]
  }

  /** `m.get(name)`. */
  function Lookup(m: map<string, string>, name: string): (r: Option<string>)
    ensures r.Some? <==> name in m
  {
    if name in m then Some(m[name]) else None
  }

  /** The media type of a `Content-Type` value: the text before the first `;`,
      trimmed and lower-cased. */
  function MediaType(contentType: string): (r: string)
    ensures |r| <= |contentType|
  {
    Lower(Strip(BeforeFirst(contentType, ';')))
  }

  /** The checks `fetch_audio_length` makes on a successful reply, given what
      `headers.get` finds under `content-type` and `content-length`: the media
      type first, then the presence of the length, then `int` of it. */
  function HeadersLength(contentType: Option<string>, contentLength: Option<string>): Result<int, ProbeError> {
    if MediaType(contentType.GetOr("")) != AudioMpeg then Err(InvalidContentType(contentType))
    else if contentLength.None? then Err(MissingContentLength)
    else
      match ParseInt(contentLength.value)
      case None => Err(BadContentLength(contentLength.value))
      case Some(n) => Ok(n)
  }

  /** `fetch_audio_length(url)` given the `HEAD` reply for `url`. */
  function AudioLength(reply: ProbeReply): (r: Result<int, ProbeError>)
    ensures reply.ProbeFailed? ==> r == Err(Transport(reply.message))
    ensures reply.Response? && IsHttpError(reply.status) ==> r == Err(HttpError(reply.status))
    ensures reply.Response? && !IsHttpError(reply.status) ==>
              var ct := LastHeader(reply.headers, ContentTypeName);
              var len := LastHeader(reply.headers, ContentLengthName);
              && (MediaType(ct.GetOr("")) != AudioMpeg ==> r == Err(InvalidContentType(ct)))
              && (MediaType(ct.GetOr("")) == AudioMpeg && len.None? ==> r == Err(MissingContentLength))
              && (MediaType(ct.GetOr("")) == AudioMpeg && len.Some? ==>
                    r == (match ParseInt(len.value)
                          case None => Err(BadContentLength(len.value))
                          case Some(n) => Ok(n)))
  {
    match reply
    case ProbeFailed(msg) => Err(Transport(msg))
    case Response(status, hs) =>
      if IsHttpError(status) then Err(HttpError(status))
      else
        var headers := LowerHeaders(hs);
        LookupLower(hs, ContentTypeName);
        LookupLower(hs, ContentLengthName);
        HeadersLength(Lookup(headers, ContentTypeName), Lookup(headers, ContentLengthName))
  }

  /** Looking a name up in the lower-cased headers finds the last header of
      that name. */
  lemma LookupLower(hs: seq<(string, string)>, name: string)
    ensures Lookup(LowerHeaders(hs), name) == LastHeader(hs, name)
  {
  }

  /** A header that is neither `Content-Type` nor `Content-Length` (such as
      `Accept-Ranges`, whatever its value) does not change the answer of the
      header lookup, wherever it stands. */
  lemma {:induction false} OtherHeaderIgnored(hs1: seq<(string, string)>, h: (string, string),
                                               hs2: seq<(string, string)>, name: string)
    requires Lower(h.0) != name
    ensures LastHeader(hs1 + [h] + hs2, name) == LastHeader(hs1 + hs2, name)
    decreases |hs2|
  {
    if |hs2| == 0 {
      assert hs1 + [h] + hs2 == hs1 + [h];
      assert (hs1 + [h])[..|hs1|] == hs1;
      assert hs1 + hs2 == hs1;
    } else {
      var last := hs2[|hs2| - 1];
      var hs2' := hs2[..|hs2| - 1];
      assert (hs1 + [h] + hs2)[..|hs1 + [h] + hs2| - 1] == hs1 + [h] + hs2';
      assert (hs1 + hs2)[..|hs1 + hs2| - 1] == hs1 + hs2';
      OtherHeaderIgnored(hs1, h, hs2', name);
    }
  }

  /** The probe's outcome does not depend on `Accept-Ranges`: the same headers
      with it absent, set to `none` or set to `bytes` give the same answer. */
  lemma {:induction false} AcceptRangesIgnored(status: int, hs1: seq<(string, string)>, hs2: seq<(string, string)>, value: string)
    ensures AudioLength(Response(status, hs1 + [("Accept-Ranges", value)] + hs2)) ==
            AudioLength(Response(status, hs1 + hs2))
  {
    var h := ("Accept-Ranges", value);
    assert Lower(h.0)[0] == 'a';
    OtherHeaderIgnored(hs1, h, hs2, ContentTypeName);
    OtherHeaderIgnored(hs1, h, hs2, ContentLengthName);
    SameLookupsSameLength(status, hs1 + [h] + hs2, hs1 + hs2);
  }

  /** The probe reads nothing but the two headers it looks up. */
  lemma {:induction false} SameLookupsSameLength(status: int, hs1: seq<(string, string)>, hs2: seq<(string, string)>)
    requires LastHeader(hs1, ContentTypeName) == LastHeader(hs2, ContentTypeName)
    requires LastHeader(hs1, ContentLengthName) == LastHeader(hs2, ContentLengthName)
    ensures AudioLength(Response(status, hs1)) == AudioLength(Response(status, hs2))
  {
    LookupLower(hs1, ContentTypeName);
    LookupLower(hs1, ContentLengthName);
    LookupLower(hs2, ContentTypeName);
    LookupLower(hs2, ContentLengthName);
  }

  /** A media type holds no parameters, no surrounding spaces and no capitals. */
  lemma MediaTypeNormal(contentType: string)
    ensures var m := MediaType(contentType);
            && ';' !in m && IsStripped(m)
            && forall i :: 0 <= i < |m| ==> !('A' <= m[i] <= 'Z')
  {
    var b := BeforeFirst(contentType, ';');
    var t := Strip(b);
    StripFrom(b);
    assert ';' !in t by {
      forall i | 0 <= i < |t| ensures t[i] != ';' {
        assert t[i] in b;
      }
    }
    LowerKeepsShape(t);
  }

  lemma LowerKeepsShape(t: string)
    requires ';' !in t && IsStripped(t)
    ensures var m := Lower(t);
            && ';' !in m && IsStripped(m)
            && forall i :: 0 <= i < |m| ==> !('A' <= m[i] <= 'Z')
  {
    var m := Lower(t);
    assert ';' !in m by {
      forall i | 0 <= i < |m| ensures m[i] != ';' {
        assert m[i] == LowerChar(t[i]);
      }
    }
    assert |m| > 0 ==> m[0] == LowerChar(t[0]) && m[|m| - 1] == LowerChar(t[|t| - 1]);
  }

  /** Reading the media type twice changes nothing. */
  lemma MediaTypeIdempotent(contentType: string)
    ensures MediaType(MediaType(contentType)) == MediaType(contentType)
  {
    MediaTypeNormal(contentType);
    MediaTypePlain(MediaType(contentType));
  }

  /** A media type written without parameters, spaces or capitals is its own
      media type. */
  lemma MediaTypePlain(s: string)
    requires ';' !in s && IsStripped(s)
    requires forall i :: 0 <= i < |s| ==> !('A' <= s[i] <= 'Z')
    ensures MediaType(s) == s
  {
    var b := BeforeFirst(s, ';');
    assert b == s;
    assert Lower(s) == s;
  }

  lemma AudioMpegPlain()
    ensures MediaType(AudioMpeg) == AudioMpeg
  {
    assert ';' !in AudioMpeg && IsStripped(AudioMpeg);
    assert forall i :: 0 <= i < |AudioMpeg| ==> !('A' <= AudioMpeg[i] <= 'Z');
    MediaTypePlain(AudioMpeg);
  }

  /** A response of media type `audio/mpeg` (parameters allowed) with a decimal
      length reports that length. */
  lemma {:induction false} LengthReported(status: int, hs: seq<(string, string)>, ct: string, n: nat)
    ensures && !IsHttpError(status)
            && LastHeader(hs, ContentTypeName) == Some(ct) && MediaType(ct) == AudioMpeg
            && LastHeader(hs, ContentLengthName) == Some(NatToString(n))
            ==> AudioLength(Response(status, hs)) == Ok(n)
  {
    ParseIntOfString(n);
  }

  /** The headers `Content-Type: audio/mpeg` and `Content-Length: 321`, under any
      spelling of the two names, give the length 321. */
  lemma LengthOf321(ctName: string, clName: string)
    requires Lower(ctName) == ContentTypeName && Lower(clName) == ContentLengthName
    ensures AudioLength(Response(200, [(ctName, AudioMpeg), (clName, "321")])) == Ok(321)
  {
    var hs := [(ctName, AudioMpeg), (clName, "321")];
    assert hs[..1] == [(ctName, AudioMpeg)];
    assert LastHeader(hs, ContentTypeName) == Some(AudioMpeg) by {
      HeaderNamesDiffer();
    }
    assert LastHeader(hs, ContentLengthName) == Some("321");
    Decimal321();
    AudioMpegPlain();
    LengthReported(200, hs, AudioMpeg, 321);
  }

  /** Headers that differ only in their spelling of `content-length`: the names
      are distinct. */
  lemma HeaderNamesDiffer()
    ensures ContentTypeName != ContentLengthName
  {
    assert ContentTypeName[8] != ContentLengthName[8];
  }

  lemma NotLengthHeader(name: string, value: string)
    requires Lower(name) == ContentTypeName
    ensures LastHeader([(name, value)], ContentLengthName).None?
  {
    HeaderNamesDiffer();
    assert [(name, value)][..0] == [];
  }

  /** `Content-Type: audio/mpeg` alone, with no length: the probe raises. */
  lemma NoLengthRaises(ctName: string)
    requires Lower(ctName) == ContentTypeName
    ensures AudioLength(Response(200, [(ctName, AudioMpeg)])) == Err(MissingContentLength)
  {
    var hs := [(ctName, AudioMpeg)];
    AudioMpegPlain();
    LastHeaderAt(hs, ContentTypeName, 0);
    NotLengthHeader(ctName, AudioMpeg);
    LengthMissing(200, hs, AudioMpeg);
  }

  /** With the right media type and no `Content-Length` the probe raises. */
  lemma {:induction false} LengthMissing(status: int, hs: seq<(string, string)>, ct: string)
    requires !IsHttpError(status)
    requires LastHeader(hs, ContentTypeName) == Some(ct) && MediaType(ct) == AudioMpeg
    requires LastHeader(hs, ContentLengthName).None?
    ensures AudioLength(Response(status, hs)) == Err(MissingContentLength)
  {
  }

  /** Whatever the length says, a wrong media type is what the probe reports. */
  lemma {:induction false} ContentTypeCheckedFirst(status: int, hs: seq<(string, string)>)
    requires !IsHttpError(status)
    ensures MediaType(LastHeader(hs, ContentTypeName).GetOr("")) != AudioMpeg ==>
              AudioLength(Response(status, hs)) == Err(InvalidContentType(LastHeader(hs, ContentTypeName)))
  {
  }

  // ---------------------------------------------------------------------------
  // build_item

  /** The texts `build_item` reads from a row, after its fallbacks. */
  datatype ItemTexts = ItemTexts(title: string, description: string, author: string, duration: string,
                                 image: string, category: string, language: string, keywords: string)

  /** The row's texts: a missing title becomes "untitled", the author is the
      producer or else the author, the category is the category or else the
      genre, and the language defaults to `fa`. */
  function TextsOf(row: FeedRow): ItemTexts {
    ItemTexts(Or(Field(row, TitleKey), Untitled), Description(row),
              Or(Field(row, ProducerKey), Field(row, AuthorKey)), Field(row, DurationKey), Field(row, CoverKey),
              Or(Field(row, CategoryKey), Field(row, GenreKey)), Or(Field(row, LanguageKey), DefaultLanguage),
              Field(row, CountryKey))
  }

  /** The fallbacks of `build_item`: the title and the language are never empty,
      and each of the author and the category is empty only when both of the
      columns it falls back through are. */
  lemma TextsFallbacks(row: FeedRow)
    ensures var t := TextsOf(row);
            && t.title != "" && (Field(row, TitleKey) != "" ==> t.title == Field(row, TitleKey))
            && (Field(row, TitleKey) == "" ==> t.title == Untitled)
            && t.description == Description(row)
            && (t.author == "" <==> Field(row, ProducerKey) == "" && Field(row, AuthorKey) == "")
            && (Field(row, ProducerKey) != "" ==> t.author == Field(row, ProducerKey))
            && (Field(row, ProducerKey) == "" ==> t.author == Field(row, AuthorKey))
            && (t.category == "" <==> Field(row, CategoryKey) == "" && Field(row, GenreKey) == "")
            && (Field(row, CategoryKey) != "" ==> t.category == Field(row, CategoryKey))
            && (Field(row, CategoryKey) == "" ==> t.category == Field(row, GenreKey))
            && t.language != "" && (Field(row, LanguageKey) != "" ==> t.language == Field(row, LanguageKey))
            && (Field(row, LanguageKey) == "" ==> t.language == DefaultLanguage)
            && t.duration == Field(row, DurationKey) && t.image == Field(row, CoverKey)
            && t.keywords == Field(row, CountryKey)
  {
    assert Untitled != "" && DefaultLanguage != "";
  }

  /** The elements of one `<item>`, in the order they are written. */
  datatype Element =
    | TitleElem(text: string)
    | DescriptionElem(html: string)
    | Enclosure(url: string, length: int)
    | Guid(id: string)
    | PubDate(date: string)
    | Extra(kind: ExtraKind, text: string)

  /** The elements written only when their text is non-empty. */
  datatype ExtraKind = Author | Duration | Image | Category | Language | Keywords

  /** The order in which the optional elements are written. */
  const ExtraOrder: seq<ExtraKind> := [Author, Duration, Image, Category, Language, Keywords]

  /** Every kind of optional element is written. */
  lemma KindListed(k: ExtraKind)
    ensures k in ExtraOrder
  {
    match k
    case Author => assert ExtraOrder[0] == k;
    case Duration => assert ExtraOrder[1] == k;
    case Image => assert ExtraOrder[2] == k;
    case Category => assert ExtraOrder[3] == k;
    case Language => assert ExtraOrder[4] == k;
    case Keywords => assert ExtraOrder[5] == k;
  }

  /** The text an optional element would carry. */
  function ExtraText(t: ItemTexts, k: ExtraKind): string {
    match k
    case Author => t.author
    case Duration => t.duration
    case Image => t.image
    case Category => t.category
    case Language => t.language
    case Keywords => t.keywords
  }

  /** The optional elements of the kinds `ks`, each one present exactly when its
      text is non-empty. */
  function Extras(t: ItemTexts, ks: seq<ExtraKind>): (r: seq<Element>)
    ensures |r| <= |ks|
    decreases |ks|
  {
    if |ks| == 0 then []
    else
      var k := ks[0];
      (if ExtraText(t, k) != "" then [Extra(k, ExtraText(t, k))] else []) + Extras(t, ks[1..])
  }

  /** Nothing but optional elements of the listed kinds, each with its text. */
  lemma {:induction false} ExtrasAreExtra(t: ItemTexts, ks: seq<ExtraKind>)
    ensures forall e :: e in Extras(t, ks) ==> e.Extra? && e.kind in ks && e.text != "" && e.text == ExtraText(t, e.kind)
    decreases |ks|
  {
    if |ks| > 0 {
      ExtrasAreExtra(t, ks[1..]);
    }
  }

  /** Optional elements only, no two of the same kind. */
  predicate OnePerKind(r: seq<Element>) {
    forall i, j :: 0 <= i < j < |r| ==> r[i].Extra? && r[j].Extra? && r[i].kind != r[j].kind
  }

  /** With every kind listed once, as `build_item` lists them, each kind gives at
      most one element. */
  lemma {:induction false} ExtrasOnePerKind(t: ItemTexts, ks: seq<ExtraKind>)
    requires forall i, j :: 0 <= i < j < |ks| ==> ks[i] != ks[j]
    ensures OnePerKind(Extras(t, ks))
    decreases |ks|
  {
    if |ks| > 0 {
      var rest := Extras(t, ks[1..]);
      var r := Extras(t, ks);
      ExtrasOnePerKind(t, ks[1..]);
      ExtrasAreExtra(t, ks[1..]);
      if ExtraText(t, ks[0]) != "" {
        assert r == [Extra(ks[0], ExtraText(t, ks[0]))] + rest;
        forall i, j | 0 <= i < j < |r| ensures r[i].Extra? && r[j].Extra? && r[i].kind != r[j].kind {
          assert r[j] == rest[j - 1] && r[j] in rest;
          var m :| 0 <= m < |ks[1..]| && ks[1..][m] == r[j].kind;
          assert ks[m + 1] == r[j].kind;
          if i > 0 {
            assert r[i] == rest[i - 1] && rest[i - 1].kind != rest[j - 1].kind;
          } else {
            assert r[0].kind == ks[0] && ks[0] != ks[m + 1];
          }
        }
      } else {
        assert r == rest;
      }
    }
  }

  /** An item carries at most one optional element of each kind. */
  lemma ItemExtrasOnePerKind(t: ItemTexts)
    ensures OnePerKind(Extras(t, ExtraOrder))
  {
    ExtrasOnePerKind(t, ExtraOrder);
  }

  /** The elements follow the order of the kinds: those of a list split in two
      are those of the first part, then those of the second. */
  lemma {:induction false} ExtrasAppend(t: ItemTexts, a: seq<ExtraKind>, b: seq<ExtraKind>)
    ensures Extras(t, a + b) == Extras(t, a) + Extras(t, b)
    decreases |a|
  {
    if |a| == 0 {
      assert a + b == b;
    } else {
      assert (a + b)[0] == a[0] && (a + b)[1..] == a[1..] + b;
      ExtrasAppend(t, a[1..], b);
    }
  }

  /** The optional elements are exactly those of the listed kinds whose text is
      non-empty. */
  lemma {:induction false} ExtrasExact(t: ItemTexts, ks: seq<ExtraKind>, k: ExtraKind, x: string)
    ensures Extra(k, x) in Extras(t, ks) <==> k in ks && x != "" && x == ExtraText(t, k)
    decreases |ks|
  {
    if |ks| > 0 {
      ExtrasExact(t, ks[1..], k, x);
      assert k in ks <==> k == ks[0] || k in ks[1..];
    }
  }

  /** The elements `build_item` writes for a row with audio `audio`. */
  function ItemElements(t: ItemTexts, audio: string, length: int, guid: string, pubdate: string): (r: seq<Element>)
    ensures |r| >= 5
    ensures r[0] == TitleElem(t.title) && r[1] == DescriptionElem(t.description)
    ensures r[2] == Enclosure(audio, length) && r[3] == Guid(guid) && r[4] == PubDate(pubdate)
    ensures r[5..] == Extras(t, ExtraOrder)
  {
    [TitleElem(t.title), DescriptionElem(t.description), Enclosure(audio, length), Guid(guid), PubDate(pubdate)]
    + Extras(t, ExtraOrder)
  }

  const Indent: string := "      "

  /** The attributes of the enclosure, after the `<`. */
  function EnclosureBody(url: string, length: int): string {
    "enclosure url=\"" + Escape(url) + "\" length=\"" + IntToString(length) + "\" type=\"audio/mpeg\""
  }

  /** The line each element is written as. */
  function ElementLine(e: Element): string {
    match e
    case TitleElem(t) => Indent + "<title>" + Escape(t) + "</title>"
    case DescriptionElem(h) => Indent + "<description>" + CData(Some(h)) + "</description>"
    case Enclosure(u, n) => Indent + "<" + EnclosureBody(u, n) + "/>"
    case Guid(g) => Indent + "<guid isPermaLink=\"false\">" + g + "</guid>"
    case PubDate(d) => Indent + "<pubDate>" + d + "</pubDate>"
    case Extra(Author, a) => Indent + "<itunes:author>" + Escape(a) + "</itunes:author>"
    case Extra(Duration, d) => Indent + "<itunes:duration>" + Escape(d) + "</itunes:duration>"
    case Extra(Image, h) => Indent + "<itunes:image href=\"" + Escape(h) + "\"/>"
    case Extra(Category, c) => Indent + "<category>" + Escape(c) + "</category>"
    case Extra(Language, l) => Indent + "<language>" + Escape(l) + "</language>"
    case Extra(Keywords, k) => Indent + "<itunes:keywords>" + Escape(k) + "</itunes:keywords>"
  }

  const ItemOpen: string := "    <item>"
  const ItemClose: string := "    </item>"

  /** The lines of one item, between `<item>` and `</item>`. */
  function ItemLines(elems: seq<Element>): (r: seq<string>)
    ensures |r| == |elems| + 2
    ensures r[0] == ItemOpen && r[|r| - 1] == ItemClose
    ensures forall i :: 0 <= i < |elems| ==> r[i + 1] == ElementLine(elems[i])
  {
    [ItemOpen] + ElementLines(elems) + [ItemClose]
  }

  /** One line per element, in order. */
  function ElementLines(elems: seq<Element>): (r: seq<string>)
    ensures |r| == |elems|
    ensures forall i :: 0 <= i < |elems| ==> r[i] == ElementLine(elems[i])
    decreases |elems|
  {
    if |elems| == 0 then [] else [ElementLine(elems[0])] + ElementLines(elems[1..])
  }

  /** The text of one item: its lines joined by newlines. */
  function ItemText(t: ItemTexts, audio: string, length: int, guid: string, pubdate: string): string {
    Join(ItemLines(ItemElements(t, audio, length, guid, pubdate)), "\n")
  }

  /** `build_item(row, pubdate)`: `Ok(None)` for a row without audio, the item's
      text when the probe succeeds, and the probe's error otherwise. */
  function BuildItem(row: FeedRow, pubdate: string, sha1: string -> string,
                     audioLength: string -> Result<int, ProbeError>)
    : (r: Result<Option<string>, ProbeError>)
    ensures r == Ok(None) <==> AudioOf(row) == ""
    ensures AudioOf(row) != "" ==> (r.Err? <==> audioLength(AudioOf(row)).Err?)
    ensures r.Err? ==> r.error == audioLength(AudioOf(row)).error
  {
    var audio := AudioOf(row);
    if audio == "" then Ok(None)
    else
      var length :- audioLength(audio);
      Ok(Some(ItemText(TextsOf(row), audio, length, sha1(audio), pubdate)))
  }

  /** Which optional elements an item carries: each kind exactly when its text
      is non-empty, and then with that text. */
  lemma ItemOptionalElements(t: ItemTexts, audio: string, length: int, guid: string, pubdate: string)
    ensures var r := ItemElements(t, audio, length, guid, pubdate);
            forall k, x :: Extra(k, x) in r <==> x != "" && x == ExtraText(t, k)
  {
    var r := ItemElements(t, audio, length, guid, pubdate);
    forall k, x ensures Extra(k, x) in r <==> x != "" && x == ExtraText(t, k) {
      ExtrasExact(t, ExtraOrder, k, x);
      KindListed(k);
    }
  }

  /** Every item text holds its title, description, enclosure, guid and date
      lines, and is never empty. */
  lemma ItemTextShows(t: ItemTexts, audio: string, n: int, guid: string, pubdate: string)
    ensures var x := ItemText(t, audio, n, guid, pubdate);
            && Contains(x, ElementLine(TitleElem(t.title)))
            && Contains(x, ElementLine(DescriptionElem(t.description)))
            && Contains(x, EnclosureBody(audio, n))
            && Contains(x, ElementLine(Guid(guid)))
            && Contains(x, ElementLine(PubDate(pubdate)))
            && x != ""
  {
    var elems := ItemElements(t, audio, n, guid, pubdate);
    var lines := ItemLines(elems);
    var x := Join(lines, "\n");
    JoinContainsPart(lines, "\n", 1);
    JoinContainsPart(lines, "\n", 2);
    JoinContainsPart(lines, "\n", 4);
    JoinContainsPart(lines, "\n", 5);
    JoinHasPart(lines, "\n", 3);
    var a, b :| x == a + lines[3] + b;
    assert lines[3] == Indent + "<" + EnclosureBody(audio, n) + "/>";
    ContainsNested(a, Indent + "<", EnclosureBody(audio, n), "/>", b);
    assert x == lines[0] + "\n" + Join(lines[1..], "\n");
    assert |lines[0]| > 0 by { assert lines[0] == ItemOpen; }
  }

  /** An item built from a probed audio URL shows the probed length in its
      enclosure and the digest of the audio URL as its guid. */
  lemma ItemShowsProbe(row: FeedRow, pubdate: string, sha1: string -> string,
                        audioLength: string -> Result<int, ProbeError>, n: int)
    requires AudioOf(row) != "" && audioLength(AudioOf(row)) == Ok(n)
    ensures BuildItem(row, pubdate, sha1, audioLength).Ok?
    ensures var x := BuildItem(row, pubdate, sha1, audioLength).value;
            && x.Some?
            && Contains(x.value, EnclosureBody(AudioOf(row), n))
            && Contains(x.value, ElementLine(Guid(sha1(AudioOf(row)))))
  {
    var audio := AudioOf(row);
    ItemTextShows(TextsOf(row), audio, n, sha1(audio), pubdate);
  }

  /** An item built from a row shows the row's title, or the "untitled" text
      when the row has none, and the row's description in its CDATA section. */
  lemma ItemShowsTitle(row: FeedRow, pubdate: string, sha1: string -> string,
                       audioLength: string -> Result<int, ProbeError>, n: int)
    requires AudioOf(row) != "" && audioLength(AudioOf(row)) == Ok(n)
    ensures BuildItem(row, pubdate, sha1, audioLength).Ok?
    ensures var x := BuildItem(row, pubdate, sha1, audioLength).value;
            && x.Some?
            && (Field(row, TitleKey) != "" ==> Contains(x.value, ElementLine(TitleElem(Field(row, TitleKey)))))
            && (Field(row, TitleKey) == "" ==> Contains(x.value, ElementLine(TitleElem(Untitled))))
            && Contains(x.value, ElementLine(DescriptionElem(Description(row))))
            && Contains(x.value, ElementLine(PubDate(pubdate)))
  {
    var audio := AudioOf(row);
    var t := TextsOf(row);
    assert BuildItem(row, pubdate, sha1, audioLength) == Ok(Some(ItemText(t, audio, n, sha1(audio), pubdate)));
    assert t.title == Or(Field(row, TitleKey), Untitled) && t.description == Description(row);
    ItemTextShows(t, audio, n, sha1(audio), pubdate);
  }

  /** For a URL with nothing to escape the enclosure reads
      `enclosure url="URL" length="N" type="audio/mpeg"`. */
  lemma EnclosureText(url: string, n: nat)
    requires '&' !in url && '<' !in url && '>' !in url
    ensures EnclosureBody(url, n) == "enclosure url=\"" + url + "\" length=\"" + NatToString(n) + "\" type=\"audio/mpeg\""
  {
    EscapePlain(url);
  }

  const ExampleUrl: string := "http://example.com/a.mp3"
  const ExampleRow: FeedRow := map[TitleKey := Some("T"), Mp3Key := Some(ExampleUrl)]
  const ExampleEnclosure: string := "enclosure url=\"" + ExampleUrl + "\" length=\"" + "321" + "\" type=\"audio/mpeg\""

  /** The example row's audio is its MP3 URL. */
  lemma ExampleRowAudio()
    ensures AudioOf(ExampleRow) == ExampleUrl
  {
    assert IsStripped(ExampleUrl);
    assert Field(ExampleRow, Mp3Key) == ExampleUrl;
  }

  /** The example URL has nothing to escape, so its enclosure with length 321
      is written as it stands. */
  lemma ExampleEnclosureBody()
    ensures EnclosureBody(ExampleUrl, 321) == ExampleEnclosure
  {
    assert '&' !in ExampleUrl && '<' !in ExampleUrl && '>' !in ExampleUrl;
    EnclosureText(ExampleUrl, 321);
    Decimal321();
  }

  lemma Decimal321()
    ensures NatToString(321) == "321"
  {
    assert NatToString(3) == "3";
    assert NatToString(32) == "32";
  }

  /** A row with title `T` and audio `http://example.com/a.mp3`, probed with
      `audio/mpeg` and length 321, gives an item whose enclosure reads
      `enclosure url="http://example.com/a.mp3" length="321" type="audio/mpeg"`. */
  lemma ExampleItemEnclosure(ctName: string, clName: string, pubdate: string, sha1: string -> string,
                             probe: string -> ProbeReply)
    requires Lower(ctName) == ContentTypeName && Lower(clName) == ContentLengthName
    requires probe(ExampleUrl) == Response(200, [(ctName, AudioMpeg), (clName, "321")])
    ensures var r := BuildItem(ExampleRow, pubdate, sha1, url => AudioLength(probe(url)));
            r.Ok? && r.value.Some? && Contains(r.value.value, ExampleEnclosure)
  {
    ExampleRowAudio();
    LengthOf321(ctName, clName);
    ItemShowsProbe(ExampleRow, pubdate, sha1, url => AudioLength(probe(url)), 321);
    ExampleEnclosureBody();
  }

  /** An item, when there is one, is never empty text, so `if it:` only drops the
      rows without audio. */
  lemma ItemNonEmpty(row: FeedRow, pubdate: string, sha1: string -> string,
                      audioLength: string -> Result<int, ProbeError>)
    ensures var r := BuildItem(row, pubdate, sha1, audioLength);
            r.Ok? && r.value.Some? ==> r.value.value != ""
  {
    var audio := AudioOf(row);
    if audio != "" && audioLength(audio).Ok? {
      ItemTextShows(TextsOf(row), audio, audioLength(audio).value, sha1(audio), pubdate);
    }
  }

  // ---------------------------------------------------------------------------
  // main: the channel

  /** The command-line settings of the feed. */
  datatype Channel = Channel(site: string, runName: string, title: string, author: string, summary: string)

  /** `rows and safe_get(rows[0], "Cover_Image_URL") or ""`: the channel image is
      the first row's cover. */
  function CoverOf(rows: seq<FeedRow>): (r: string)
    ensures |rows| == 0 ==> r == ""
    ensures |rows| > 0 ==> r == Field(rows[0], CoverKey)
  {
    if |rows| == 0 then "" else Or(Field(rows[0], CoverKey), "")
  }

  const FeedsDir: string := "/feeds/"
  const FeedFile: string := "/podcast.xml"

  /** The `href` of the channel's `atom:link`. */
  function SelfLink(site: string, runName: string): string {
    Escape(RStripChar(site, '/')) + FeedsDir + Escape(runName) + FeedFile
  }

  /** The fixed parts of the self link have nothing to escape. */
  lemma FeedPathPlain()
    ensures Escape(FeedsDir) == FeedsDir && Escape(FeedFile) == FeedFile
  {
    assert '&' !in FeedsDir && '<' !in FeedsDir && '>' !in FeedsDir;
    assert '&' !in FeedFile && '<' !in FeedFile && '>' !in FeedFile;
    EscapePlain(FeedsDir);
    EscapePlain(FeedFile);
  }

  /** Escaping the pieces one by one, around two pieces escaping leaves alone,
      escapes the whole. */
  lemma EscapeAround(x: string, y: string, z: string, w: string)
    requires Escape(y) == y && Escape(w) == w
    ensures Escape(x) + y + Escape(z) + w == Escape(x + y + z + w)
  {
    EscapeAppend(x, y);
    EscapeAppend(x + y, z);
    EscapeAppend(x + y + z, w);
  }

  /** The self link is the escaped form of `site.rstrip("/")` followed by
      `/feeds/<run>/podcast.xml`, with no `/` doubled at the seam. */
  lemma SelfLinkIsFeedPath(site: string, runName: string)
    ensures SelfLink(site, runName) == Escape(RStripChar(site, '/') + FeedsDir + runName + FeedFile)
  {
    FeedPathPlain();
    EscapeAround(RStripChar(site, '/'), FeedsDir, runName, FeedFile);
  }

  /** The items that `if it: items.append(it)` keeps, in order. */
  function Kept(os: seq<Option<string>>): (r: seq<string>)
    ensures |r| <= |os|
    ensures forall x :: x in r ==> x != "" && Some(x) in os
    decreases |os|
  {
    if |os| == 0 then []
    else (if os[0].Some? && os[0].value != "" then [os[0].value] else []) + Kept(os[1..])
  }

  /** An item is kept exactly when it is built and non-empty. */
  lemma {:induction false} KeptExact(os: seq<Option<string>>, x: string)
    ensures x in Kept(os) <==> x != "" && Some(x) in os
    decreases |os|
  {
    if |os| > 0 {
      KeptExact(os[1..], x);
      assert os == [os[0]] + os[1..];
    }
  }

  /** Keeping preserves order: the items kept from two runs of rows, one after
      the other. */
  lemma {:induction false} KeptAppend(a: seq<Option<string>>, b: seq<Option<string>>)
    ensures Kept(a + b) == Kept(a) + Kept(b)
    decreases |a|
  {
    if |a| == 0 {
      assert a + b == b;
    } else {
      assert (a + b)[0] == a[0] && (a + b)[1..] == a[1..] + b;
      KeptAppend(a[1..], b);
    }
  }

  /** The item loop of `main`, with `build` standing for `build_item(r, pubdate)`:
      the first row whose probe raises ends the run with that error. */
  function CollectItems(rows: seq<FeedRow>, build: FeedRow -> Result<Option<string>, ProbeError>)
    : (r: Result<seq<string>, ProbeError>)
    ensures r.Err? <==> exists i :: 0 <= i < |rows| && build(rows[i]).Err?
    ensures r.Err? ==> exists i :: 0 <= i < |rows| && build(rows[i]) == Err(r.error)
                                && forall j :: 0 <= j < i ==> build(rows[j]).Ok?
    decreases |rows|
  {
    if |rows| == 0 then Ok([])
    else
      match build(rows[0])
      case Err(e) => Err(e)
      case Ok(it) =>
        match CollectItems(rows[1..], build)
        case Err(e) =>
          assert forall i :: 1 <= i < |rows| ==> rows[1..][i - 1] == rows[i];
          Err(e)
        case Ok(rest) => Ok((if it.Some? && it.value != "" then [it.value] else []) + rest)
  }

  /** When no probe raises, the items are the built items of the rows, in row
      order, without the rows that gave none. */
  lemma {:induction false} CollectItemsKept(rows: seq<FeedRow>, build: FeedRow -> Result<Option<string>, ProbeError>)
    requires forall i :: 0 <= i < |rows| ==> build(rows[i]).Ok?
    ensures CollectItems(rows, build) == Ok(Kept(seq(|rows|, i requires 0 <= i < |rows| => build(rows[i]).value)))
    decreases |rows|
  {
    if |rows| > 0 {
      CollectItemsKept(rows[1..], build);
      var os := seq(|rows|, i requires 0 <= i < |rows| => build(rows[i]).value);
      var tail := rows[1..];
      assert os[1..] == seq(|tail|, i requires 0 <= i < |tail| => build(tail[i]).value);
    }
  }

  const XmlDecl: string := "<?xml version=\"1.0\" encoding=\"UTF-8\"?>"
  const RssOpen: string := "<rss version=\"2.0\" xmlns:itunes=\"http://www.itunes.com/dtds/podcast-1.0.dtd\" xmlns:atom=\"http://www.w3.org/2005/Atom\">"
  const ChannelImagePrefix: string := "    <itunes:image href=\""

  /** The lines of the whole feed, items included. */
  function FeedLines(ch: Channel, pubdate: string, cover: string, items: seq<string>): seq<string> {
    [ XmlDecl,
      RssOpen,
      "  <channel>",
      "    <title>" + Escape(ch.title) + "</title>",
      "    <link>" + Escape(ch.site) + "</link>",
      "    <language>fa</language>",
      "    <lastBuildDate>" + pubdate + "</lastBuildDate>",
      "    <itunes:author>" + Escape(ch.author) + "</itunes:author>",
      "    <itunes:summary>" + Escape(ch.summary) + "</itunes:summary>",
      "    <description>" + CData(Some(ch.summary)) + "</description>" ]
    + (if cover != "" then [ChannelImagePrefix + Escape(cover) + "\"/>"] else [])
    + [ "    <atom:link href=\"" + SelfLink(ch.site, ch.runName) + "\" rel=\"self\" type=\"application/rss+xml\" />",
        Join(items, "\n"),
        "  </channel>",
        "</rss>" ]
  }

  /** `build_item(r, pubdate)` with the audio probed by `probe`. */
  function ProbedItem(pubdate: string, sha1: string -> string, probe: string -> ProbeReply, row: FeedRow)
    : Result<Option<string>, ProbeError>
  {
    BuildItem(row, pubdate, sha1, url => AudioLength(probe(url)))
  }

  /** The feed `main` writes, or the probe error that ends the run. */
  function FeedXml(rows: seq<FeedRow>, ch: Channel, pubdate: string, sha1: string -> string,
                   probe: string -> ProbeReply): (r: Result<string, ProbeError>)
    ensures r.Err? <==> exists i :: 0 <= i < |rows| && ProbedItem(pubdate, sha1, probe, rows[i]).Err?
  {
    var items :- CollectItems(rows, row => ProbedItem(pubdate, sha1, probe, row));
    Ok(Join(FeedLines(ch, pubdate, CoverOf(rows), items), "\n"))
  }

  /** The channel carries an image line exactly when the first row has a cover,
      then comes the self link to the escaped `site/feeds/run/podcast.xml`, and
      the item block sits right after it. */
  lemma FeedLayout(ch: Channel, pubdate: string, cover: string, items: seq<string>)
    ensures var lines := FeedLines(ch, pubdate, cover, items);
            && |lines| == (if cover != "" then 15 else 14)
            && (cover != "" ==> lines[10] == ChannelImagePrefix + Escape(cover) + "\"/>")
            && lines[|lines| - 4] == "    <atom:link href=\""
                 + Escape(RStripChar(ch.site, '/') + FeedsDir + ch.runName + FeedFile)
                 + "\" rel=\"self\" type=\"application/rss+xml\" />"
            && lines[|lines| - 3] == Join(items, "\n")
  {
    SelfLinkIsFeedPath(ch.site, ch.runName);
  }
}

=== FILE: merge.dfy ===
/** The batch loop of `main` in script_iran_seda_final_STREAM_MERGE_v6_env.py:
    every discovered row is fetched and parsed, enriched with the MP3 columns when
    the page yields an id and a token, and lands either among the merged rows or
    among the error rows. Fetching and the API call are parameters. */
module Merge {
  import opened Wrappers
  import opened Text
  import opened Urls
  import opened Extract
  import opened Audio

  /** A cell of the input table as pandas reads it: an empty cell is NaN, whose
      `str` is `nan`; any other cell is its printed text. */
  datatype Cell = Blank | Filled(s: string)

  /** One input row, keyed by column name. */
  type CsvRow = map<string, Cell>

  /** The outcome of `req_get(url)` on a detail page: any exception it raises
      (transport error, status 4xx/5xx) with its message, or the page. */
  datatype DetailFetch = FetchFailed(message: string) | Fetched(page: Page)

  /** One row of the error table: the `AudioBook_ID` and `Error` columns. */
  datatype ErrorRow = ErrorRow(audioBookId: Option<Cell>, error: string)

  datatype RowOutcome = Merged(rec: BookRecord) | Failed(err: ErrorRow)

  const UrlColumn: string := "URL"
  const IdColumn: string := "AudioBook_ID"

  /** The key the error branch reads the id from, as written. */
  const AsWrittenErrorKey: string := "AudioBookID"

  /** `str(x)` of a cell. */
  function CellText(c: Cell): (r: string)
    ensures c.Blank? ==> r == "nan"
    ensures c.Filled? ==> r == c.s
  {
    match c
    case Blank => "nan"
    case Filled(s) => s
  }

  /** `str(row["URL"]).strip()`: the URL cell's text with the whitespace around
      it cut off (`TrimUnique` says there is only one such text). */
  function RowUrl(row: CsvRow): (r: string)
    requires UrlColumn in row
    ensures IsTrimOf(r, CellText(row[UrlColumn]))
    ensures row[UrlColumn].Blank? ==> r == "nan"
    ensures row[UrlColumn].Filled? && IsStripped(row[UrlColumn].s) ==> r == row[UrlColumn].s
  {
    StripTrims(CellText(row[UrlColumn]));
    Strip(CellText(row[UrlColumn]))
  }

  /** `row.get(key)`. */
  function RowGet(row: CsvRow, key: string): (r: Option<Cell>)
    ensures r.Some? <==> key in row
    ensures r.Some? ==> r.value == row[key]
  {
    if key in row then Some(row[key]) else None
  }

  /** The id the error branch records, as written: `row.get("AudioBookID")`. */
  function ErrorIdAsWritten(row: CsvRow): (r: Option<Cell>)
    ensures r.Some? <==> AsWrittenErrorKey in row
    ensures r.Some? ==> r.value == row[AsWrittenErrorKey]
  {
    RowGet(row, AsWrittenErrorKey)
  }

  /** The id the error branch is meant to record: the row's `AudioBook_ID`. */
  function ErrorId(row: CsvRow): (r: Option<Cell>)
    ensures r.Some? <==> IdColumn in row
    ensures r.Some? ==> r.value == row[IdColumn]
  {
    RowGet(row, IdColumn)
  }

  /** On the rows the discoverer writes (columns `AudioBook_ID` and `URL`), the
      error branch as written always records an empty id, while the intended
      lookup records the row's id. */
  lemma ErrorIdLostOnDiscoveredRows(row: CsvRow)
    requires row.Keys == {IdColumn, UrlColumn}
    ensures ErrorIdAsWritten(row).None?
    ensures ErrorId(row) == Some(row[IdColumn])
  {
    assert AsWrittenErrorKey != IdColumn && AsWrittenErrorKey != UrlColumn;
  }

  /** `attid and parsed.get("AudioBook_ID")`: the API is consulted only with a
      non-zero token and a non-empty id. */
  predicate QueriesApi(rec: BookRecord) {
    rec.attId.Some? && rec.attId.value != 0 && rec.audioBookId.Some? && |rec.audioBookId.value| > 0
  }

  /** The MP3 columns for a parsed record: the API's answer when it is consulted,
      `(None, None)` otherwise. */
  function Mp3Columns(rec: BookRecord, api: string -> ApiReply, joinOther: string -> string): (r: (Option<string>, Option<string>))
    ensures !QueriesApi(rec) ==> r == (None, None)
    ensures QueriesApi(rec) ==> r == GetMp3s(api(ApiUrl(rec.audioBookId.value, rec.attId.value)), joinOther)
  {
    if QueriesApi(rec) then GetMp3s(api(ApiUrl(rec.audioBookId.value, rec.attId.value)), joinOther)
    else (None, None)
  }

  /** One iteration of the loop body, for a row that has a `URL` column, with the
      error branch reading the id from `errorId`. */
  function ProcessRowWith(row: CsvRow, errorId: CsvRow -> Option<Cell>, fetch: string -> DetailFetch,
                          api: string -> ApiReply, joinOther: string -> string): (r: RowOutcome)
    requires UrlColumn in row
    ensures r.Failed? <==> fetch(RowUrl(row)).FetchFailed?
    ensures r.Failed? ==> r.err == ErrorRow(errorId(row), fetch(RowUrl(row)).message)
  {
    var url := RowUrl(row);
    match fetch(url)
    case FetchFailed(msg) => Failed(ErrorRow(errorId(row), msg))
    case Fetched(page) =>
      var parsed := ParsePage(page, url);
      var mp3 := Mp3Columns(parsed, api, joinOther);
      Merged(parsed.(fullBookMp3Url := mp3.0, allMp3sFound := mp3.1))
  }

  /** The loop body as written: the error row takes its id from `AudioBookID`. */
  function ProcessRow(row: CsvRow, fetch: string -> DetailFetch, api: string -> ApiReply,
                      joinOther: string -> string): (r: RowOutcome)
    requires UrlColumn in row
    ensures r.Failed? <==> fetch(RowUrl(row)).FetchFailed?
    ensures r.Failed? ==> r.err.audioBookId == RowGet(row, AsWrittenErrorKey)
  {
    ProcessRowWith(row, ErrorIdAsWritten, fetch, api, joinOther)
  }

  /** The loop body as intended: the error row takes its id from `AudioBook_ID`. */
  function ProcessRowIntended(row: CsvRow, fetch: string -> DetailFetch, api: string -> ApiReply,
                              joinOther: string -> string): (r: RowOutcome)
    requires UrlColumn in row
    ensures r.Failed? <==> fetch(RowUrl(row)).FetchFailed?
    ensures r.Failed? ==> r.err.audioBookId == RowGet(row, IdColumn)
  {
    ProcessRowWith(row, ErrorId, fetch, api, joinOther)
  }

  /** The two bodies agree on every row except in the id of an error row, and on a
      row with the discovery table's columns whose fetch raises, only the intended
      one records the row's id. */
  lemma ProcessRowIntendedDiffersOnlyInId(row: CsvRow, fetch: string -> DetailFetch, api: string -> ApiReply,
                                          joinOther: string -> string)
    requires UrlColumn in row
    ensures var w := ProcessRow(row, fetch, api, joinOther);
            var c := ProcessRowIntended(row, fetch, api, joinOther);
            && (w.Merged? <==> c.Merged?)
            && (w.Merged? ==> w == c)
            && (w.Failed? ==> w.err.error == c.err.error)
    ensures row.Keys == {IdColumn, UrlColumn} && fetch(RowUrl(row)).FetchFailed? ==>
              && ProcessRow(row, fetch, api, joinOther).err.audioBookId.None?
              && ProcessRowIntended(row, fetch, api, joinOther).err.audioBookId == Some(row[IdColumn])
  {
    if row.Keys == {IdColumn, UrlColumn} {
      ErrorIdLostOnDiscoveredRows(row);
    }
  }

  /** A failed fetch gives an error row with the row's id and the exception's
      message; a fetched page gives its parsed record, unchanged except for the two
      MP3 columns, which come from the API exactly when it is consulted. */
  lemma ProcessRowOutcome(row: CsvRow, fetch: string -> DetailFetch, api: string -> ApiReply,
                          joinOther: string -> string)
    requires UrlColumn in row
    ensures var r := ProcessRow(row, fetch, api, joinOther);
            && (r.Failed? ==> r.err == ErrorRow(ErrorIdAsWritten(row), fetch(RowUrl(row)).message))
            && (r.Merged? ==>
                  var parsed := ParsePage(fetch(RowUrl(row)).page, RowUrl(row));
                  && r.rec.(fullBookMp3Url := None, allMp3sFound := None) == parsed
                  && (r.rec.fullBookMp3Url, r.rec.allMp3sFound) == Mp3Columns(parsed, api, joinOther))
  {
  }

  /** Without an id and a non-zero token the API's behaviour cannot affect the
      row: any two APIs give the same outcome. */
  lemma ApiOnlyWithIdAndToken(row: CsvRow, fetch: string -> DetailFetch, api1: string -> ApiReply,
                              api2: string -> ApiReply, joinOther: string -> string)
    requires UrlColumn in row
    ensures fetch(RowUrl(row)).Fetched? && !QueriesApi(ParsePage(fetch(RowUrl(row)).page, RowUrl(row))) ==>
              && ProcessRow(row, fetch, api1, joinOther) == ProcessRow(row, fetch, api2, joinOther)
              && ProcessRow(row, fetch, api1, joinOther).rec.fullBookMp3Url.None?
  {
    var url := RowUrl(row);
    if fetch(url).Fetched? {
      var parsed := ParsePage(fetch(url).page, url);
      if !QueriesApi(parsed) {
        ProcessRowOutcome(row, fetch, api1, joinOther);
        ProcessRowOutcome(row, fetch, api2, joinOther);
        var r1, r2 := ProcessRow(row, fetch, api1, joinOther), ProcessRow(row, fetch, api2, joinOther);
        assert r1.rec == r1.rec.(fullBookMp3Url := None, allMp3sFound := None) == parsed;
        assert r2.rec == r2.rec.(fullBookMp3Url := None, allMp3sFound := None) == parsed;
      }
    }
  }

  /** The loop body as a whole: `None` when `row["URL"]` raises (outside the
      `try`, so the run ends), else the row's outcome. */
  function RowStep(row: CsvRow, fetch: string -> DetailFetch, api: string -> ApiReply,
                   joinOther: string -> string): (r: Option<RowOutcome>)
    ensures r.None? <==> UrlColumn !in row
    ensures r.Some? ==> (r.value.Failed? <==> fetch(RowUrl(row)).FetchFailed?)
  {
    if UrlColumn in row then Some(ProcessRow(row, fetch, api, joinOther)) else None
  }

  /** The outcome of every row, in input order, for a step that raises on none of
      them. */
  function Outcomes(rows: seq<CsvRow>, step: CsvRow -> Option<RowOutcome>): (r: seq<RowOutcome>)
    requires forall i :: 0 <= i < |rows| ==> step(rows[i]).Some?
  {
    seq(|rows|, i requires 0 <= i < |rows| => step(rows[i]).value)
  }

  /** One more row adds its own outcome at the end. */
  lemma OutcomesSnoc(rows: seq<CsvRow>, i: nat, step: CsvRow -> Option<RowOutcome>)
    requires i < |rows| && forall j :: 0 <= j <= i ==> step(rows[j]).Some?
    ensures Outcomes(rows[..i + 1], step) == Outcomes(rows[..i], step) + [step(rows[i]).value]
  {
  }

  /** The merged records among the outcomes, in order. */
  function Records(os: seq<RowOutcome>): seq<BookRecord>
    decreases |os|
  {
    if |os| == 0 then []
    else Records(os[..|os| - 1]) + (if os[|os| - 1].Merged? then [os[|os| - 1].rec] else [])
  }

  /** The error rows among the outcomes, in order. */
  function Errors(os: seq<RowOutcome>): seq<ErrorRow>
    decreases |os|
  {
    if |os| == 0 then []
    else Errors(os[..|os| - 1]) + (if os[|os| - 1].Failed? then [os[|os| - 1].err] else [])
  }

  /** Every outcome is counted exactly once: merged and error rows together are as
      many as the input rows. */
  lemma {:induction false} PartitionCounts(os: seq<RowOutcome>)
    ensures |Records(os)| + |Errors(os)| == |os|
    decreases |os|
  {
    if |os| > 0 {
      PartitionCounts(os[..|os| - 1]);
    }
  }

  /** Both tables keep input order: the records of a concatenation are the records
      of each part, one after the other. */
  lemma {:induction false} RecordsAppend(a: seq<RowOutcome>, b: seq<RowOutcome>)
    ensures Records(a + b) == Records(a) + Records(b)
    ensures Errors(a + b) == Errors(a) + Errors(b)
    decreases |b|
  {
    if |b| > 0 {
      var b0 := b[..|b| - 1];
      assert (a + b)[..|a + b| - 1] == a + b0;
      RecordsAppend(a, b0);
    } else {
      assert a + b == a;
    }
  }

  /** The whole loop of `main`, run with `step` as its body (`RowStep` with the
      script's fetch and API). A row whose step raises ends the run before any
      table is written (`aborted`). Otherwise `merged` and `errors` are the two
      tables that get written: every row lands in exactly one of them, and each
      keeps input order. */
  method MergeRows(rows: seq<CsvRow>, step: CsvRow -> Option<RowOutcome>)
    returns (aborted: bool, merged: seq<BookRecord>, errors: seq<ErrorRow>)
    ensures aborted <==> exists i :: 0 <= i < |rows| && step(rows[i]).None?
    ensures aborted ==> merged == [] && errors == []
    ensures !aborted ==> merged == Records(Outcomes(rows, step))
    ensures !aborted ==> errors == Errors(Outcomes(rows, step))
    ensures !aborted ==> |merged| + |errors| == |rows|
  {
    merged, errors := [], [];
    ghost var os: seq<RowOutcome> := [];
    var i := 0;
    while i < |rows|
      invariant 0 <= i <= |rows| && |os| == i
      invariant forall j :: 0 <= j < i ==> step(rows[j]).Some?
      invariant os == Outcomes(rows[..i], step)
      invariant merged == Records(os) && errors == Errors(os)
    {
      var next := step(rows[i]);
      if next.None? {
        return true, [], [];
      }
      var o := next.value;
      if o.Merged? {
        merged := merged + [o.rec];
      } else {
        errors := errors + [o.err];
      }
      assert (os + [o])[..i] == os;
      OutcomesSnoc(rows, i, step);
      os := os + [o];
      i := i + 1;
    }
    aborted := false;
    assert rows[..i] == rows;
    PartitionCounts(os);
  }
}

=== FILE: numerals.dfy ===
/** Decimal numerals: the digit runs that `\d+` captures, `int(...)` of them,
    `str(n)` of an integer, and Python's `int(text)` on the ASCII forms. */
module Numerals {
  import opened Wrappers
  import Text

  predicate IsDigit(c: char) {
    '0' <= c <= '9'
  }

  predicate AllDigits(s: string) {
    forall i :: 0 <= i < |s| ==> IsDigit(s[i])
  }

  function DigitValue(c: char): nat
    requires IsDigit(c)
  {
    c as int - '0' as int
  }

  function DigitChar(d: nat): (c: char)
    requires d < 10
    ensures IsDigit(c) && DigitValue(c) == d
  {
    ('0' as int + d) as char
  }

  /** The number a run of decimal digits denotes, most significant digit first. */
  function DigitsValue(ds: string): nat
    requires AllDigits(ds)
    decreases |ds|
  {
    if |ds| == 0 then 0 else DigitsValue(ds[..|ds| - 1]) * 10 + DigitValue(ds[|ds| - 1])
  }

  /** Leading zeros do not change the value, so `g=07` and `g=7` name the same id. */
  lemma {:induction false} LeadingZeroIgnored(ds: string)
    requires AllDigits(ds)
    ensures DigitsValue("0" + ds) == DigitsValue(ds)
    decreases |ds|
  {
    if |ds| > 0 {
      assert ("0" + ds)[..|ds|] == "0" + ds[..|ds| - 1];
      LeadingZeroIgnored(ds[..|ds| - 1]);
    }
  }

  /** A run that starts with a non-zero digit denotes a positive number. */
  lemma {:induction false} NonZeroLeadPositive(ds: string)
    requires AllDigits(ds) && |ds| >= 1 && ds[0] != '0'
    ensures DigitsValue(ds) > 0
    decreases |ds|
  {
    if |ds| > 1 {
      NonZeroLeadPositive(ds[..|ds| - 1]);
    }
  }

  /** The length of the longest run of digits `s` starts with: what a greedy `\d+`
      (or `\d*`) consumes. */
  function LeadingDigits(s: string): (k: nat)
    ensures k <= |s|
    ensures forall i :: 0 <= i < k ==> IsDigit(s[i])
    ensures k == |s| || !IsDigit(s[k])
  {
    if |s| == 0 || !IsDigit(s[0]) then 0 else 1 + LeadingDigits(s[1..])
  }

  /** Python's `str(n)` for a natural number: canonical decimal, no leading zero. */
  function NatToString(n: nat): (r: string)
    ensures |r| >= 1 && AllDigits(r)
    ensures r[0] != '0' || r == "0"
    ensures DigitsValue(r) == n
    decreases n
  {
    if n < 10 then [DigitChar(n)]
    else
      var r := NatToString(n / 10) + [DigitChar(n % 10)];
      assert r[..|r| - 1] == NatToString(n / 10);
      r
  }

  /** Every canonical digit run is what `str` prints for its value. */
  lemma {:induction false} NatToStringOfDigits(ds: string)
    requires AllDigits(ds) && |ds| >= 1 && (ds[0] != '0' || ds == "0")
    ensures NatToString(DigitsValue(ds)) == ds
    decreases |ds|
  {
    if |ds| > 1 {
      var init := ds[..|ds| - 1];
      NonZeroLeadPositive(init);
      NatToStringOfDigits(init);
      assert ds == init + [ds[|ds| - 1]];
    } else {
      assert ds == [ds[0]];
    }
  }

  /** Python's `str(i)` for any integer. */
  function IntToString(i: int): (r: string)
    ensures |r| >= 1
  {
    if i < 0 then "-" + NatToString(-i) else NatToString(i)
  }

  /** Python's `int(text)` on the forms this model admits: optional surrounding
      whitespace, an optional `+` or `-`, then one or more ASCII digits. Anything
      else raises `ValueError`, modelled as `None`. */
  function ParseInt(s: string): Option<int> {
    var t := Text.Strip(s);
    if |t| > 0 && (t[0] == '-' || t[0] == '+') then
      var body := t[1..];
      if |body| > 0 && AllDigits(body) then
        var v: int := DigitsValue(body);
        Some(if t[0] == '-' then -v else v)
      else None
    else if |t| > 0 && AllDigits(t) then Some(DigitsValue(t))
    else None
  }

  /** `int(str(i)) == i`. */
  lemma ParseIntOfString(i: int)
    ensures ParseInt(IntToString(i)) == Some(i)
  {
    var s := IntToString(i);
    assert Text.IsStripped(s);
    if i < 0 {
      assert s[1..] == NatToString(-i);
    }
  }

  /** `int("0") == 0`, the value of the default `fileSize`. */
  lemma ParseIntZero()
    ensures ParseInt("0") == Some(0)
  {
    ParseIntOfString(0);
    assert IntToString(0) == "0";
  }

  /** `int` refuses a text with a character that is neither a digit, a sign nor
      whitespace, such as a file size reported as `"12 MB"` or `"12mb"`. */
  lemma ParseIntRejectsStray(s: string, k: nat)
    requires k < |s| && !IsDigit(s[k]) && !Text.IsSpace(s[k]) && s[k] != '+' && s[k] != '-'
    ensures ParseInt(s) == None
  {
    var t := Text.Strip(s);
    Text.StripKeeps(s, k);
    var j :| 0 <= j < |t| && t[j] == s[k];
    assert !IsDigit(t[j]);
    if |t| > 0 && (t[0] == '-' || t[0] == '+') {
      assert t[1..][j - 1] == t[j];
    }
  }
}

=== FILE: seqs.dfy ===
/** First-match search over sequences: the "first entry that matches wins" rule
    that every label lookup and image scan of the scraper follows. */
module Seqs {
  import opened Wrappers

  /** The index of the first element of `xs` that satisfies `p`, or `None`. */
  function FirstWhere<T>(xs: seq<T>, p: T -> bool): (r: Option<nat>)
    ensures r.None? <==> forall j :: 0 <= j < |xs| ==> !p(xs[j])
    ensures r.Some? ==> r.value < |xs| && p(xs[r.value])
    ensures r.Some? ==> forall j :: 0 <= j < r.value ==> !p(xs[j])
  {
    if |xs| == 0 then None
    else if p(xs[0]) then Some(0)
    else
      match FirstWhere(xs[1..], p)
      case None => None
      case Some(k) => Some(k + 1)
  }

  /** Elements that come after the first match never change the answer. */
  lemma {:induction false} FirstWhereIgnoresSuffix<T>(xs: seq<T>, ys: seq<T>, p: T -> bool)
    requires FirstWhere(xs, p).Some?
    ensures FirstWhere(xs + ys, p) == FirstWhere(xs, p)
  {
    forall j | 0 <= j < |xs| ensures (xs + ys)[j] == xs[j] { }
  }

  /** Elements in front of `xs` that do not match only shift the index. */
  lemma {:induction false} FirstWhereSkipsPrefix<T>(xs: seq<T>, ys: seq<T>, p: T -> bool)
    requires forall j :: 0 <= j < |xs| ==> !p(xs[j])
    ensures FirstWhere(xs + ys, p).None? <==> FirstWhere(ys, p).None?
    ensures FirstWhere(ys, p).Some? ==> FirstWhere(xs + ys, p) == Some(|xs| + FirstWhere(ys, p).value)
  {
    forall j | 0 <= j < |xs| ensures !p((xs + ys)[j]) {
      assert (xs + ys)[j] == xs[j];
    }
    forall j | 0 <= j < |ys| ensures (xs + ys)[|xs| + j] == ys[j] { }
  }

  /** An element that matches, with no match before it, is the one found. */
  lemma FirstWhereAt<T>(xs: seq<T>, p: T -> bool, k: nat)
    requires k < |xs| && p(xs[k])
    requires forall j :: 0 <= j < k ==> !p(xs[j])
    ensures FirstWhere(xs, p) == Some(k)
  {
  }
}

=== FILE: text.dfy ===
/** The handful of Python `str` operations the scripts rely on: `isspace`,
    `strip`, `rstrip(ch)`, `in`, `startswith`, `replace`, `join`, `split(ch)`
    and ASCII `lower`. */
module Text {
  import opened Wrappers
  import Seqs

  /** Python's `str.isspace` for one character: the characters with bidirectional
      class WS, B or S, or general category Zs. */
  predicate IsSpace(c: char) {
    || c == ' '
    || '\t' <= c <= '\r'
    || '\U{1C}' <= c <= '\U{1F}'
    || c == '\U{85}' || c == '\U{A0}' || c == '\U{1680}'
    || '\U{2000}' <= c <= '\U{200A}'
    || c == '\U{2028}' || c == '\U{2029}' || c == '\U{202F}' || c == '\U{205F}' || c == '\U{3000}'
  }

  /** No whitespace at either end. */
  predicate IsStripped(s: string) {
    |s| == 0 || (!IsSpace(s[0]) && !IsSpace(s[|s| - 1]))
  }

  /** Python's `s.lstrip()`. */
  function LStrip(s: string): (r: string)
    ensures |r| <= |s| && r == s[|s| - |r|..]
    ensures |r| == 0 || !IsSpace(r[0])
    ensures |s| == 0 || !IsSpace(s[0]) ==> r == s
    decreases |s|
  {
    if |s| > 0 && IsSpace(s[0]) then LStrip(s[1..]) else s
  }

  /** Python's `s.rstrip()`. */
  function RStrip(s: string): (r: string)
    ensures |r| <= |s| && r == s[..|r|]
    ensures |r| == 0 || !IsSpace(r[|r| - 1])
    ensures |s| == 0 || !IsSpace(s[|s| - 1]) ==> r == s
    decreases |s|
  {
    if |s| > 0 && IsSpace(s[|s| - 1]) then RStrip(s[..|s| - 1]) else s
  }

  /** Python's `s.strip()`: the piece of `s` left after removing whitespace from both
      ends. */
  function Strip(s: string): (r: string)
    ensures IsStripped(r)
    ensures |r| <= |s|
    ensures IsStripped(s) ==> r == s
  {
    var l := LStrip(s);
    var r := RStrip(l);
    assert |r| > 0 ==> r[0] == l[0];
    r
  }

  /** `lstrip` removes only whitespace: every other character survives it. */
  lemma {:induction false} LStripKeeps(s: string, k: nat)
    requires k < |s| && !IsSpace(s[k])
    ensures exists j :: 0 <= j < |LStrip(s)| && LStrip(s)[j] == s[k]
    decreases |s|
  {
    if IsSpace(s[0]) {
      assert s[1..][k - 1] == s[k];
      LStripKeeps(s[1..], k - 1);
      assert LStrip(s) == LStrip(s[1..]);
    } else {
      assert LStrip(s)[k] == s[k];
    }
  }

  /** `rstrip` removes only whitespace: every other character survives it. */
  lemma {:induction false} RStripKeeps(s: string, k: nat)
    requires k < |s| && !IsSpace(s[k])
    ensures exists j :: 0 <= j < |RStrip(s)| && RStrip(s)[j] == s[k]
    decreases |s|
  {
    if IsSpace(s[|s| - 1]) {
      assert s[..|s| - 1][k] == s[k];
      RStripKeeps(s[..|s| - 1], k);
      assert RStrip(s) == RStrip(s[..|s| - 1]);
    } else {
      assert RStrip(s)[k] == s[k];
    }
  }

  /** `strip` removes only whitespace: every other character of `s` is still in
      the result. */
  lemma StripKeeps(s: string, k: nat)
    requires k < |s| && !IsSpace(s[k])
    ensures s[k] in Strip(s)
  {
    LStripKeeps(s, k);
    var l := LStrip(s);
    var j :| 0 <= j < |l| && l[j] == s[k];
    RStripKeeps(l, j);
  }

  /** `strip` only removes: every character of the result comes from `s`. */
  lemma StripFrom(s: string)
    ensures forall i :: 0 <= i < |Strip(s)| ==> Strip(s)[i] in s
  {
    var l := LStrip(s);
    var r := RStrip(l);
    assert Strip(s) == r;
    var d := |s| - |l|;
    assert l == s[d..] && r == l[..|r|];
    forall i | 0 <= i < |r| ensures r[i] in s {
      assert r[i] == l[i] && l[i] == s[d + i];
    }
  }

  /** Nothing but whitespace. */
  predicate AllSpace(s: string) {
    forall i :: 0 <= i < |s| ==> IsSpace(s[i])
  }

  /** `r` is `s` with whitespace cut from both ends and nothing else: a stripped
      infix of `s` with only whitespace around it. */
  predicate IsTrimOf(r: string, s: string) {
    && IsStripped(r)
    && exists i, j :: 0 <= i <= j <= |s| && r == s[i..j] && AllSpace(s[..i]) && AllSpace(s[j..])
  }

  /** What `lstrip` cuts off is whitespace. */
  lemma {:induction false} LStripCut(s: string)
    ensures AllSpace(s[..|s| - |LStrip(s)|])
    decreases |s|
  {
    if |s| > 0 && IsSpace(s[0]) {
      LStripCut(s[1..]);
      var n := |s| - |LStrip(s)|;
      forall i | 0 <= i < n ensures IsSpace(s[..n][i]) {
        if i > 0 { assert s[..n][i] == s[1..][..n - 1][i - 1]; }
      }
    }
  }

  /** What `rstrip` cuts off is whitespace. */
  lemma {:induction false} RStripCut(s: string)
    ensures AllSpace(s[|RStrip(s)|..])
    decreases |s|
  {
    if |s| > 0 && IsSpace(s[|s| - 1]) {
      var t := s[..|s| - 1];
      RStripCut(t);
      var m := |RStrip(s)|;
      forall i | 0 <= i < |s| - m ensures IsSpace(s[m..][i]) {
        if m + i < |t| { assert s[m..][i] == t[m..][i]; }
      }
    }
  }

  /** `strip` is a trim: it cuts whitespace from both ends and nothing else. */
  lemma StripTrims(s: string)
    ensures IsTrimOf(Strip(s), s)
  {
    var l := LStrip(s);
    var r := RStrip(l);
    var i := |s| - |l|;
    var j := i + |r|;
    LStripCut(s);
    RStripCut(l);
    assert r == s[i..j] && s[j..] == l[|r|..];
    TrimAt(s, i, j);
  }

  /** Whitespace around a stripped infix makes it a trim. */
  lemma TrimAt(s: string, i: nat, j: nat)
    requires i <= j <= |s| && IsStripped(s[i..j])
    requires AllSpace(s[..i]) && AllSpace(s[j..])
    ensures IsTrimOf(s[i..j], s)
  {
  }

  /** A string has one trim only, so `IsTrimOf` pins `strip` down. */
  lemma TrimUnique(r1: string, r2: string, s: string)
    requires IsTrimOf(r1, s) && IsTrimOf(r2, s)
    ensures r1 == r2
  {
    var i1, j1 :| 0 <= i1 <= j1 <= |s| && r1 == s[i1..j1] && AllSpace(s[..i1]) && AllSpace(s[j1..]);
    var i2, j2 :| 0 <= i2 <= j2 <= |s| && r2 == s[i2..j2] && AllSpace(s[..i2]) && AllSpace(s[j2..]);
    TrimBounds(s, i1, j1, i2, j2);
    TrimBounds(s, i2, j2, i1, j1);
  }

  /** `TrimUnique` on the index pairs: a non-whitespace character cannot sit in
      the whitespace around another trim. */
  lemma TrimBounds(s: string, i1: nat, j1: nat, i2: nat, j2: nat)
    requires i1 <= j1 <= |s| && i2 <= j2 <= |s|
    requires IsStripped(s[i1..j1]) && IsStripped(s[i2..j2])
    requires AllSpace(s[..i1]) && AllSpace(s[j1..]) && AllSpace(s[..i2]) && AllSpace(s[j2..])
    ensures s[i1..j1] == s[i2..j2]
  {
  }

  /** Python's `s.rstrip(c)` for a one-character argument. */
  function RStripChar(s: string, c: char): (r: string)
    ensures |r| <= |s| && r == s[..|r|]
    ensures |r| == 0 || r[|r| - 1] != c
    ensures forall i :: |r| <= i < |s| ==> s[i] == c
  {
    if |s| > 0 && s[|s| - 1] == c then RStripChar(s[..|s| - 1], c) else s
  }

  /** Python's `s.startswith(p)`. */
  predicate StartsWith(s: string, p: string) {
    |p| <= |s| && s[..|p|] == p
  }

  /** `p` occurs in `s` starting at index `i`. */
  predicate OccursAt(s: string, p: string, i: nat) {
    i + |p| <= |s| && s[i..i + |p|] == p
  }

  /** The leftmost index at or after `from` where `p` occurs in `s`, as Python's
      `s.find(p, from)` finds it. */
  function IndexFrom(s: string, p: string, from: nat): (r: Option<nat>)
    ensures r.Some? ==> from <= r.value && OccursAt(s, p, r.value)
    ensures r.Some? ==> forall j :: from <= j < r.value ==> !OccursAt(s, p, j)
    ensures r.None? ==> forall j :: from <= j ==> !OccursAt(s, p, j)
    decreases |s| - from
  {
    if from + |p| > |s| then None
    else if OccursAt(s, p, from) then Some(from)
    else IndexFrom(s, p, from + 1)
  }

  /** An occurrence splits the text into what comes before it, the pattern and
      what comes after. */
  lemma SplitAtOccurrence(s: string, p: string, i: nat)
    requires OccursAt(s, p, i)
    ensures s == s[..i] + p + s[i + |p|..]
  {
    assert s == s[..i] + s[i..i + |p|] + s[i + |p|..];
  }

  /** Python's `p in s`. */
  predicate Contains(s: string, p: string) {
    IndexFrom(s, p, 0).Some?
  }

  /** A string of the form `a + p + b` contains `p`. */
  lemma ContainsInfix(a: string, p: string, b: string)
    ensures Contains(a + p + b, p)
  {
    assert (a + p + b)[|a|..|a| + |p|] == p;
    assert OccursAt(a + p + b, p, |a|);
  }

  /** A text contains whatever a piece of it contains in the middle. */
  lemma ContainsNested(a: string, p: string, m: string, q: string, b: string)
    ensures Contains(a + (p + m + q) + b, m)
  {
    assert a + (p + m + q) + b == (a + p) + m + (q + b);
    ContainsInfix(a + p, m, q + b);
  }

  /** Dropping the first character shifts every occurrence left by one. */
  lemma OccursAtTail(s: string, p: string, j: nat)
    requires |s| > 0
    ensures OccursAt(s[1..], p, j) <==> OccursAt(s, p, j + 1)
  {
    if j + 1 + |p| <= |s| {
      assert s[1..][j..j + |p|] == s[j + 1..j + 1 + |p|];
    }
  }

  /** Python's `s.replace(pat, rep)` for a non-empty `pat`: occurrences are replaced
      left to right without overlapping. */
  function ReplaceAll(s: string, pat: string, rep: string): string
    requires |pat| > 0
    decreases |s|
  {
    if |s| == 0 then []
    else if OccursAt(s, pat, 0) then rep + ReplaceAll(s[|pat|..], pat, rep)
    else [s[0]] + ReplaceAll(s[1..], pat, rep)
  }

  /** A string that does not contain `pat` is returned unchanged. */
  lemma {:induction false} ReplaceAllAbsent(s: string, pat: string, rep: string)
    requires |pat| > 0
    requires !Contains(s, pat)
    ensures ReplaceAll(s, pat, rep) == s
    decreases |s|
  {
    if |s| > 0 {
      assert !OccursAt(s, pat, 0);
      forall j: nat ensures !OccursAt(s[1..], pat, j) {
        OccursAtTail(s, pat, j);
      }
      ReplaceAllAbsent(s[1..], pat, rep);
    }
  }

  /** A prefix in which no occurrence of `pat` starts is copied through verbatim. */
  lemma {:induction false} ReplaceAllSkip(a: string, b: string, pat: string, rep: string)
    requires |pat| > 0
    requires forall j :: 0 <= j < |a| ==> !OccursAt(a + b, pat, j)
    ensures ReplaceAll(a + b, pat, rep) == a + ReplaceAll(b, pat, rep)
    decreases |a|
  {
    if |a| > 0 {
      var s := a + b;
      assert !OccursAt(s, pat, 0);
      assert s[1..] == a[1..] + b;
      forall j | 0 <= j < |a[1..]| ensures !OccursAt(a[1..] + b, pat, j) {
        OccursAtTail(s, pat, j);
      }
      assert ReplaceAll(s, pat, rep) == [s[0]] + ReplaceAll(s[1..], pat, rep);
      ReplaceAllSkip(a[1..], b, pat, rep);
      var x := ReplaceAll(b, pat, rep);
      assert ReplaceAll(s, pat, rep) == [a[0]] + (a[1..] + x);
      assert [a[0]] + (a[1..] + x) == ([a[0]] + a[1..]) + x;
      assert a == [a[0]] + a[1..];
    } else {
      assert a + b == b;
    }
  }

  /** Python's `sep.join(parts)`. */
  function Join(parts: seq<string>, sep: string): string {
    if |parts| == 0 then ""
    else if |parts| == 1 then parts[0]
    else parts[0] + sep + Join(parts[1..], sep)
  }

  /** Every part shows up in the joined text. */
  lemma {:induction false} JoinHasPart(parts: seq<string>, sep: string, k: nat)
    requires k < |parts|
    ensures exists a, b :: Join(parts, sep) == a + parts[k] + b
    decreases |parts|
  {
    if |parts| == 1 {
      assert Join(parts, sep) == "" + parts[0] + "";
    } else if k == 0 {
      assert Join(parts, sep) == "" + parts[0] + (sep + Join(parts[1..], sep));
    } else {
      JoinHasPart(parts[1..], sep, k - 1);
      var a, b :| Join(parts[1..], sep) == a + parts[1..][k - 1] + b;
      assert Join(parts, sep) == (parts[0] + sep + a) + parts[k] + b;
    }
  }

  /** Concatenation regroups: the one associativity step the string proofs use. */
  lemma Assoc(x: string, y: string, z: string)
    ensures x + (y + z) == x + y + z
  {
  }

  /** The joined text contains every part. */
  lemma JoinContainsPart(parts: seq<string>, sep: string, k: nat)
    requires k < |parts|
    ensures Contains(Join(parts, sep), parts[k])
  {
    JoinHasPart(parts, sep, k);
    var a, b :| Join(parts, sep) == a + parts[k] + b;
    ContainsInfix(a, parts[k], b);
  }

  /** Python's `s.split(c)` for a one-character separator: the pieces between the
      separators, always at least one. */
  function SplitOn(s: string, c: char): (r: seq<string>)
    ensures |r| >= 1
    ensures forall i :: 0 <= i < |r| ==> c !in r[i]
    ensures Join(r, [c]) == s
    decreases |s|
  {
    match Seqs.FirstWhere(s, (x: char) => x == c)
    case None => [s]
    case Some(k) =>
      var rest := SplitOn(s[k + 1..], c);
      assert s == s[..k] + [c] + s[k + 1..];
      [s[..k]] + rest
  }

  /** Splitting a join recovers the parts when no part contains the separator. */
  lemma {:induction false} SplitJoin(parts: seq<string>, c: char)
    requires |parts| >= 1
    requires forall i :: 0 <= i < |parts| ==> c !in parts[i]
    ensures SplitOn(Join(parts, [c]), c) == parts
    decreases |parts|
  {
    if |parts| == 1 {
      assert Seqs.FirstWhere(parts[0], (x: char) => x == c).None?;
    } else {
      var rest := Join(parts[1..], [c]);
      assert Join(parts, [c]) == parts[0] + ([c] + rest);
      SplitOnStep(parts[0], rest, c);
      SplitJoin(parts[1..], c);
      assert parts == [parts[0]] + parts[1..];
    }
  }

  /** A piece without the separator, the separator, then the rest: splitting
      gives the piece, then the pieces of the rest. */
  lemma SplitOnStep(p0: string, rest: string, c: char)
    requires c !in p0
    ensures SplitOn(p0 + ([c] + rest), c) == [p0] + SplitOn(rest, c)
  {
    var isSep := (x: char) => x == c;
    Seqs.FirstWhereSkipsPrefix(p0, [c] + rest, isSep);
    assert Seqs.FirstWhere([c] + rest, isSep) == Some(0);
    assert (p0 + ([c] + rest))[..|p0|] == p0;
    assert (p0 + ([c] + rest))[|p0| + 1..] == rest;
  }

  /** Python's `s.split(c)[0]`: everything before the first `c`. */
  function BeforeFirst(s: string, c: char): (r: string)
    ensures c !in r
    ensures |r| <= |s| && r == s[..|r|]
    ensures |r| == |s| || s[|r|] == c
  {
    var parts := SplitOn(s, c);
    if |parts| == 1 then s
    else
      assert s == parts[0] + [c] + Join(parts[1..], [c]);
      parts[0]
  }

  /** ASCII case folding of one character. */
  function LowerChar(c: char): char {
    if 'A' <= c <= 'Z' then (c as int + 32) as char else c
  }

  /** `s.lower()` restricted to ASCII letters. */
  function Lower(s: string): (r: string)
    ensures |r| == |s|
    ensures forall i :: 0 <= i < |s| ==> r[i] == LowerChar(s[i])
  {
    if |s| == 0 then [] else [LowerChar(s[0])] + Lower(s[1..])
  }
}

=== FILE: urls.dfy ===
/** URL handling shared by the scraper and the merge script: `abs_url`, the
    regular expression `[?&]KEY=(\d+)` that pulls a numeric query value out of a
    URL, and `parse_qs(urlparse(url).query)` for the first value of a name. */
module Urls {
  import opened Wrappers
  import opened Text
  import opened Numerals
  import Seqs

  /** The base both scripts resolve relative links against. */
  const SiteRoot: string := "https://book.iranseda.ir/"
  const SiteOrigin: string := "https://book.iranseda.ir"

  predicate IsUrlNoise(c: char) {
    c == '\t' || c == '\r' || c == '\n'
  }

  /** A root-relative reference that `urljoin(SiteRoot, u)` resolves by plain
      concatenation with the origin: one leading slash (two would name a host), no
      tab/CR/LF, no `;` parameters, no `.` or `..` path segment, and a `?` or `#`
      only when something follows it (`urlunparse` drops an empty query or
      fragment). */
  predicate IsRootPath(u: string) {
    && |u| >= 1 && u[0] == '/' && !(|u| >= 2 && u[1] == '/')
    && (forall i :: 0 <= i < |u| ==> !IsUrlNoise(u[i]))
    && var hash := Seqs.FirstWhere(u, (c: char) => c == '#');
       var beforeHash := if hash.None? then u else u[..hash.value];
       var quest := Seqs.FirstWhere(beforeHash, (c: char) => c == '?');
       var path := if quest.None? then beforeHash else beforeHash[..quest.value];
       && (hash.None? || hash.value + 1 < |u|)
       && (quest.None? || quest.value + 1 < |beforeHash|)
       && ';' !in path
       && forall seg :: seg in SplitOn(path, '/') ==> seg != "." && seg != ".."
  }

  /** `abs_url(u)`: a URL beginning with `http` is kept as it is; anything else is
      `urljoin("https://book.iranseda.ir/", u)`. The empty reference resolves to the
      base and root paths to origin + path; every other relative form is resolved
      by `joinOther`, which stands for the rest of `urljoin`. */
  function AbsUrl(u: string, joinOther: string -> string): (r: string)
    ensures StartsWith(u, "http") ==> r == u
    ensures !StartsWith(u, "http") && IsRootPath(u) ==> r == SiteOrigin + u
    ensures u == "" ==> r == SiteRoot
  {
    if StartsWith(u, "http") then u
    else if u == "" then SiteRoot
    else if IsRootPath(u) then SiteOrigin + u
    else joinOther(u)
  }

  /** On the forms the model resolves itself the result is an `http` URL, so
      applying `abs_url` again changes nothing. */
  lemma AbsUrlIdempotent(u: string, joinOther: string -> string)
    requires StartsWith(u, "http") || u == "" || IsRootPath(u)
    ensures StartsWith(AbsUrl(u, joinOther), "http")
    ensures AbsUrl(AbsUrl(u, joinOther), joinOther) == AbsUrl(u, joinOther)
  {
    var r := AbsUrl(u, joinOther);
    if !StartsWith(u, "http") {
      assert r[..4] == "http";
    }
  }

  // ---------------------------------------------------------------------------
  // re.search(r"[?&]KEY(\d+)", s [, re.I]) followed by int(m.group(1))

  /** Equality of two equally long strings, ignoring ASCII case when `ci`. */
  predicate SameText(a: string, b: string, ci: bool) {
    if ci then Lower(a) == Lower(b) else a == b
  }

  /** The pattern `[?&]` + `key` + `\d` matches at index `i` of `s`. `key` carries
      the name and the `=`, as in `AttID=` or `g=`. */
  predicate TokenAt(s: string, key: string, ci: bool, i: nat) {
    && i + 1 + |key| < |s|
    && (s[i] == '?' || s[i] == '&')
    && SameText(s[i + 1..i + 1 + |key|], key, ci)
    && IsDigit(s[i + 1 + |key|])
  }

  /** The leftmost index at or after `from` where the pattern matches: where
      `re.search` starts its match. */
  function FindToken(s: string, key: string, ci: bool, from: nat): (r: Option<nat>)
    ensures r.Some? ==> from <= r.value && TokenAt(s, key, ci, r.value)
    ensures r.Some? ==> forall j :: from <= j < r.value ==> !TokenAt(s, key, ci, j)
    ensures r.None? ==> forall j :: from <= j ==> !TokenAt(s, key, ci, j)
    decreases |s| - from
  {
    if from + 1 + |key| >= |s| then None
    else if TokenAt(s, key, ci, from) then Some(from)
    else FindToken(s, key, ci, from + 1)
  }

  /** The value of the maximal digit run that starts at `start`. */
  function RunValue(s: string, start: nat): nat
    requires start <= |s|
  {
    var rest := s[start..];
    DigitsValue(rest[..LeadingDigits(rest)])
  }

  /** `int(m.group(1))` for the leftmost match, or `None` when nothing matches. */
  function TokenValue(s: string, key: string, ci: bool): (r: Option<nat>)
    ensures r.None? <==> forall j :: !TokenAt(s, key, ci, j)
  {
    var f := FindToken(s, key, ci, 0);
    if f.None? then None else Some(RunValue(s, f.value + 1 + |key|))
  }

  /** The pattern matches nowhere before index `n`. */
  predicate NoTokenBefore(s: string, key: string, ci: bool, n: nat) {
    forall j :: 0 <= j < n ==> !TokenAt(s, key, ci, j)
  }

  /** The pattern matches at `i` and nowhere before: the match `re.search` reports. */
  predicate FirstTokenAt(s: string, key: string, ci: bool, i: nat) {
    TokenAt(s, key, ci, i) && NoTokenBefore(s, key, ci, i)
  }

  /** `re.search` reports the leftmost match: when the pattern matches at `i` and
      nowhere before, the value is that of the digit run after the key at `i`. */
  lemma TokenValueFirstMatch(s: string, key: string, ci: bool, i: nat)
    requires FirstTokenAt(s, key, ci, i)
    ensures TokenValue(s, key, ci) == Some(RunValue(s, i + 1 + |key|))
  {
    FindTokenAt(s, key, ci, i);
    TokenValueOfFirst(s, key, ci, i);
  }

  /** A match with no match before it is the one `re.search` reports. */
  lemma FindTokenAt(s: string, key: string, ci: bool, i: nat)
    requires FirstTokenAt(s, key, ci, i)
    ensures FindToken(s, key, ci, 0) == Some(i)
  {
  }

  /** Matches in `rest` are matches in `a + rest`, shifted by `|a|`. */
  lemma TokenAtShift(a: string, rest: string, key: string, ci: bool, j: nat)
    ensures TokenAt(a + rest, key, ci, |a| + j) <==> TokenAt(rest, key, ci, j)
  {
    var s := a + rest;
    if j + 1 + |key| < |rest| {
      assert s[|a| + j + 1..|a| + j + 1 + |key|] == rest[j + 1..j + 1 + |key|];
    }
  }

  /** Text in front of the first match does not change the value found. */
  lemma TokenValueSkip(a: string, rest: string, key: string, ci: bool)
    requires NoTokenBefore(a + rest, key, ci, |a|)
    ensures TokenValue(a + rest, key, ci) == TokenValue(rest, key, ci)
  {
    if FindToken(rest, key, ci, 0).None? {
      NoTokenSkip(a, rest, key, ci);
    } else {
      var i := FindToken(rest, key, ci, 0).value;
      FirstTokenSkip(a, rest, key, ci, i);
    }
  }

  lemma NoTokenSkip(a: string, rest: string, key: string, ci: bool)
    requires NoTokenBefore(a + rest, key, ci, |a|)
    requires FindToken(rest, key, ci, 0).None?
    ensures FindToken(a + rest, key, ci, 0).None?
  {
    forall j: nat ensures !TokenAt(a + rest, key, ci, j) {
      if j >= |a| {
        TokenAtShift(a, rest, key, ci, j - |a|);
      }
    }
  }

  lemma FirstTokenSkip(a: string, rest: string, key: string, ci: bool, i: nat)
    requires NoTokenBefore(a + rest, key, ci, |a|)
    requires FirstTokenAt(rest, key, ci, i)
    ensures TokenValue(a + rest, key, ci) == TokenValue(rest, key, ci)
  {
    var start := i + 1 + |key|;
    FirstTokenShift(a, rest, key, ci, i);
    TokenValueFirstMatch(rest, key, ci, i);
    RunValueShift(a, rest, start);
  }

  /** The first match of `rest` is the first match of `a + rest` when `a` holds
      none, so it gives the value there too. */
  lemma FirstTokenShift(a: string, rest: string, key: string, ci: bool, i: nat)
    requires NoTokenBefore(a + rest, key, ci, |a|)
    requires FirstTokenAt(rest, key, ci, i)
    ensures TokenValue(a + rest, key, ci) == Some(RunValue(a + rest, |a| + i + 1 + |key|))
  {
    var s := a + rest;
    assert NoTokenBefore(s, key, ci, |a| + i) by {
      forall j | |a| <= j < |a| + i ensures !TokenAt(s, key, ci, j) {
        TokenAtShift(a, rest, key, ci, j - |a|);
      }
    }
    assert TokenAt(s, key, ci, |a| + i) by {
      TokenAtShift(a, rest, key, ci, i);
    }
    TokenValueFirstMatch(s, key, ci, |a| + i);
  }

  /** Reading a run is unaffected by text in front of it. */
  lemma RunValueShift(a: string, rest: string, start: nat)
    requires start <= |rest|
    ensures RunValue(a + rest, |a| + start) == RunValue(rest, start)
  {
    assert (a + rest)[|a| + start..] == rest[start..];
  }

  /** Every `?` or `&` in `s` is followed, inside `s`, by a character that does
      not fold to `first`: no match of a key starting with `first` can begin in `s`.
      The follower is named `k` rather than `j + 1` so that no instance of the
      quantifier mentions a character the next instance would be about. */
  predicate MarkersNotBefore(s: string, first: char) {
    && (forall j :: 0 <= j < |s| && (s[j] == '?' || s[j] == '&') ==> j + 1 < |s|)
    && (forall j, k :: 0 <= j < |s| && k == j + 1 && k < |s| && (s[j] == '?' || s[j] == '&') ==> LowerChar(s[k]) != first)
  }

  /** Text whose markers all lead elsewhere holds no match, whatever follows it,
      so it does not change the value found. */
  lemma NoTokenInFront(front: string, back: string, key: string, ci: bool)
    requires |key| >= 1 && MarkersNotBefore(front, LowerChar(key[0]))
    requires ci || LowerChar(key[0]) == key[0]
    ensures NoTokenBefore(front + back, key, ci, |front|)
    ensures TokenValue(front + back, key, ci) == TokenValue(back, key, ci)
  {
    var s := front + back;
    forall j | 0 <= j < |front| ensures !TokenAt(s, key, ci, j) {
      if j + 1 + |key| < |s| {
        var w := s[j + 1..j + 1 + |key|];
        assert w[0] == s[j + 1];
      }
    }
    TokenValueSkip(front, back, key, ci);
  }

  /** A match at the very start: marker, key, a digit run, then a non-digit or the
      end. The value is that of the run. */
  lemma TokenValueHere(c: char, keyText: string, key: string, ci: bool, ds: string, tail: string)
    requires c == '?' || c == '&'
    requires |keyText| == |key| && SameText(keyText, key, ci)
    requires |ds| >= 1 && AllDigits(ds)
    requires |tail| == 0 || !IsDigit(tail[0])
    ensures TokenValue([c] + keyText + ds + tail, key, ci) == Some(DigitsValue(ds))
  {
    var pre := [c] + keyText;
    var s := pre + ds + tail;
    TokenAtStart(c, keyText, key, ci, ds, tail);
    TokenValueFirstMatch(s, key, ci, 0);
    RunValueOf(pre, ds, tail);
  }

  /** A marker, the key and a digit make a match at index 0. */
  lemma TokenAtStart(c: char, keyText: string, key: string, ci: bool, ds: string, tail: string)
    requires c == '?' || c == '&'
    requires |keyText| == |key| && SameText(keyText, key, ci)
    requires |ds| >= 1 && IsDigit(ds[0])
    ensures FirstTokenAt([c] + keyText + ds + tail, key, ci, 0)
  {
    var s := [c] + keyText + ds + tail;
    assert s[1..1 + |key|] == keyText;
    assert s[1 + |key|] == ds[0];
  }

  /** After text that holds no match, a `&`, the key itself and a digit run read
      back as the run's value. */
  lemma FieldReadsBack(front: string, key: string, ci: bool, ds: string, tail: string)
    requires |key| >= 1 && MarkersNotBefore(front, LowerChar(key[0]))
    requires ci || LowerChar(key[0]) == key[0]
    requires |ds| >= 1 && AllDigits(ds)
    requires |tail| == 0 || !IsDigit(tail[0])
    ensures TokenValue(front + "&" + key + ds + tail, key, ci) == Some(DigitsValue(ds))
  {
    var rest := ['&'] + key + ds + tail;
    Assoc(front, (['&'] + key + ds), tail);
    Assoc(front, (['&'] + key), ds);
    Assoc(front, ['&'], key);
    TokenValueHere('&', key, key, ci, ds, tail);
    NoTokenInFront(front, rest, key, ci);
  }

  /** The `g=` field after text that holds no match reads back as its digits. */
  lemma IdReadsBack(page: string, g: string, tail: string)
    requires MarkersNotBefore(page, 'g')
    requires |g| >= 1 && AllDigits(g)
    requires |tail| == 0 || !IsDigit(tail[0])
    ensures TokenValue(page + "&g=" + g + tail, "g=", false) == Some(DigitsValue(g))
  {
    var key := "g=";
    assert key[0] == 'g' && LowerChar('g') == 'g';
    assert "&" + "g=" == "&g=";
    Assoc(page, "&", "g=");
    FieldReadsBack(page, key, false, g, tail);
  }

  lemma TokenValueOfFirst(s: string, key: string, ci: bool, i: nat)
    requires FindToken(s, key, ci, 0) == Some(i)
    ensures TokenValue(s, key, ci) == Some(RunValue(s, i + 1 + |key|))
  {
  }

  /** The digit run right after `pre` is read in full and no further. */
  lemma RunValueOf(pre: string, ds: string, tail: string)
    requires AllDigits(ds)
    requires |tail| == 0 || !IsDigit(tail[0])
    ensures RunValue(pre + ds + tail, |pre|) == DigitsValue(ds)
  {
    var s := pre + ds + tail;
    assert s[|pre|..] == ds + tail;
    LeadingDigitsOfRun(ds, tail);
    assert (ds + tail)[..|ds|] == ds;
  }

  /** A greedy digit run stops exactly where the digits end. */
  lemma LeadingDigitsOfRun(ds: string, tail: string)
    requires AllDigits(ds)
    requires |tail| == 0 || !IsDigit(tail[0])
    ensures LeadingDigits(ds + tail) == |ds|
  {
    assert forall i :: 0 <= i < |ds| ==> (ds + tail)[i] == ds[i];
    assert |tail| == 0 || (ds + tail)[|ds|] == tail[0];
  }

  // ---------------------------------------------------------------------------
  // parse_qs(urlparse(url).query).get(name, [None])[0]

  /** What `urlsplit` does to its input before splitting: drop leading C0 controls
      and spaces, then remove every tab, CR and LF. */
  function UrlCleaned(u: string): (r: string)
    ensures forall i :: 0 <= i < |r| ==> !IsUrlNoise(r[i])
  {
    RemoveNoise(DropLeadingControls(u))
  }

  function DropLeadingControls(u: string): string {
    if |u| > 0 && u[0] <= ' ' then DropLeadingControls(u[1..]) else u
  }

  function RemoveNoise(u: string): (r: string)
    ensures forall i :: 0 <= i < |r| ==> !IsUrlNoise(r[i])
  {
    if |u| == 0 then []
    else if IsUrlNoise(u[0]) then RemoveNoise(u[1..])
    else [u[0]] + RemoveNoise(u[1..])
  }

  lemma {:induction false} RemoveNoiseNoOp(u: string)
    requires forall i :: 0 <= i < |u| ==> !IsUrlNoise(u[i])
    ensures RemoveNoise(u) == u
    decreases |u|
  {
    if |u| > 0 {
      RemoveNoiseNoOp(u[1..]);
      assert u == [u[0]] + u[1..];
    }
  }

  /** `urlparse(url).query`: the text after the first `?`, up to the first `#`. */
  function QueryOf(url: string): (q: string)
    ensures '#' !in q
  {
    var u := BeforeFirst(UrlCleaned(url), '#');
    match Seqs.FirstWhere(u, (c: char) => c == '?')
    case None => ""
    case Some(k) =>
      assert forall i :: k + 1 <= i < |u| ==> u[k + 1..][i - k - 1] == u[i];
      u[k + 1..]
  }

  /** One `name=value` field as `parse_qsl` reads it (no percent-decoding): `None`
      when the field is empty, has no `=`, or has an empty value. */
  function QueryField(field: string): (r: Option<(string, string)>)
    ensures r.Some? ==> |r.value.1| > 0
  {
    var nv := SplitOn(field, '=');
    if |nv| < 2 then None
    else
      var value := Join(nv[1..], "=");
      if |value| == 0 then None
      else Some((ReplaceAll(nv[0], "+", " "), ReplaceAll(value, "+", " ")))
  }

  /** `parse_qsl(q)`: the fields of `q`, split at `&`, in order. */
  function QueryFields(fields: seq<string>): seq<(string, string)> {
    if |fields| == 0 then []
    else
      match QueryField(fields[0])
      case None => QueryFields(fields[1..])
      case Some(p) => [p] + QueryFields(fields[1..])
  }

  /** Every pair `parse_qsl` produces has a non-empty value. */
  lemma {:induction false} QueryFieldsNonBlank(fields: seq<string>)
    ensures forall p :: p in QueryFields(fields) ==> |p.1| > 0
  {
    if |fields| > 0 {
      QueryFieldsNonBlank(fields[1..]);
    }
  }

  /** `parse_qsl(urlparse(url).query)`: the non-blank `name=value` pairs of the
      query, in order. */
  function QueryPairs(url: string): (r: seq<(string, string)>)
    ensures forall p :: p in r ==> |p.1| > 0
  {
    QueryFieldsNonBlank(SplitOn(QueryOf(url), '&'));
    QueryFields(SplitOn(QueryOf(url), '&'))
  }

  /** `parse_qs(urlparse(url).query).get(name, [None])[0]`: the first non-blank value
      given to `name` in the query of `url`. */
  function FirstQueryValue(url: string, name: string): (r: Option<string>)
    ensures r.None? <==> forall p :: p in QueryPairs(url) ==> p.0 != name
    ensures r.Some? ==> exists k :: && 0 <= k < |QueryPairs(url)|
                                    && QueryPairs(url)[k] == (name, r.value)
                                    && forall j :: 0 <= j < k ==> QueryPairs(url)[j].0 != name
    ensures r.Some? ==> |r.value| > 0
  {
    var pairs := QueryPairs(url);
    match Seqs.FirstWhere(pairs, (p: (string, string)) => p.0 == name)
    case None => None
    case Some(k) => assert pairs[k] in pairs; Some(pairs[k].1)
  }

  /** The value of the first pair with the name is the one `parse_qs` keeps. */
  lemma FirstQueryValueAt(url: string, name: string, k: nat)
    requires k < |QueryPairs(url)| && QueryPairs(url)[k].0 == name
    requires forall j :: 0 <= j < k ==> QueryPairs(url)[j].0 != name
    ensures FirstQueryValue(url, name) == Some(QueryPairs(url)[k].1)
  {
    Seqs.FirstWhereAt(QueryPairs(url), (p: (string, string)) => p.0 == name, k);
  }

  /** A character that does not occur is not a one-character substring. */
  lemma AbsentChar(s: string, c: char)
    requires c !in s
    ensures !Contains(s, [c])
  {
    forall j: nat ensures !OccursAt(s, [c], j) {
      if j + 1 <= |s| {
        assert s[j..j + 1][0] == s[j];
      }
    }
  }

  /** A plain `name=value` field, with no `=` or `+` in either part and a
      non-empty value, reads as that pair. */
  lemma QueryFieldPlain(name: string, value: string)
    requires '=' !in name && '=' !in value && '+' !in name && '+' !in value
    requires |value| > 0
    ensures QueryField(name + "=" + value) == Some((name, value))
  {
    assert Join([name, value], "=") == name + "=" + value;
    SplitJoin([name, value], '=');
    assert [name, value][1..] == [value];
    AbsentChar(name, '+');
    AbsentChar(value, '+');
    ReplaceAllAbsent(name, "+", " ");
    ReplaceAllAbsent(value, "+", " ");
  }

  /** A run of digits holds nothing `parse_qsl` treats specially. */
  lemma DigitsUnquoted(g: string)
    requires AllDigits(g)
    ensures '=' !in g && '+' !in g
  {
    forall i | 0 <= i < |g| ensures g[i] != '=' && g[i] != '+' {
      assert IsDigit(g[i]);
    }
  }

  /** A `name=<digits>` field reads as that name and those digits. */
  lemma DigitField(name: string, g: string)
    requires '=' !in name && '+' !in name
    requires |g| >= 1 && AllDigits(g)
    ensures QueryField(name + "=" + g) == Some((name, g))
  {
    DigitsUnquoted(g);
    QueryFieldPlain(name, g);
  }

  /** The same, for a field written as its `name=` key followed by the digits. */
  lemma KeyField(key: string, name: string, g: string)
    requires key == name + "=" && '=' !in name && '+' !in name
    requires |g| >= 1 && AllDigits(g)
    ensures QueryField(key + g) == Some((name, g))
  {
    DigitField(name, g);
  }

  /** The `VALID=TRUE` field both of the site's addresses carry. */
  lemma ValidField()
    ensures QueryField("VALID=TRUE") == Some(("VALID", "TRUE"))
  {
    assert "VALID=TRUE" == "VALID" + "=" + "TRUE";
    QueryFieldPlain("VALID", "TRUE");
  }

  lemma QueryFieldsTwo(f1: string, f2: string)
    requires QueryField(f1).Some? && QueryField(f2).Some?
    ensures QueryFields([f1, f2]) == [QueryField(f1).value, QueryField(f2).value]
  {
    assert [f1, f2][0] == f1 && [f1, f2][1..] == [f2];
    assert [f2][0] == f2 && [f2][1..] == [];
    assert QueryFields([f2]) == [QueryField(f2).value] + QueryFields([]);
  }

  lemma QueryFieldsThree(f1: string, f2: string, f3: string)
    requires QueryField(f1).Some? && QueryField(f2).Some? && QueryField(f3).Some?
    ensures QueryFields([f1, f2, f3]) == [QueryField(f1).value, QueryField(f2).value, QueryField(f3).value]
  {
    assert [f1, f2, f3][0] == f1 && [f1, f2, f3][1..] == [f2, f3];
    QueryFieldsTwo(f2, f3);
  }

  /** The query of `base?q`, when the base holds no `?` or `#`, nothing the URL
      cleaning would remove, and starts with a printable character. */
  lemma QueryOfPlain(base: string, q: string)
    requires |base| > 0 && base[0] > ' '
    requires forall i :: 0 <= i < |base| ==> !IsUrlNoise(base[i]) && base[i] != '?' && base[i] != '#'
    requires forall i :: 0 <= i < |q| ==> !IsUrlNoise(q[i]) && q[i] != '#'
    ensures QueryOf(base + "?" + q) == q
  {
    var u := base + "?" + q;
    assert DropLeadingControls(u) == u;
    forall i | 0 <= i < |u| ensures !IsUrlNoise(u[i]) {
      if i > |base| { assert u[i] == q[i - |base| - 1]; }
    }
    RemoveNoiseNoOp(u);
    assert '#' !in u by {
      forall i | 0 <= i < |u| ensures u[i] != '#' {
        if i > |base| { assert u[i] == q[i - |base| - 1]; }
      }
    }
    var b := BeforeFirst(u, '#');
    assert |b| == |u|;
    assert b == u;
    Seqs.FirstWhereAt(u, (c: char) => c == '?', |base|);
    assert u[|base| + 1..] == q;
  }
}

=== FILE: wrappers.dfy ===
/** Optional values and results with an error, used wherever the scripts return
    `None` or raise an exception. */
module Wrappers {

  /** Python's `None` or a present value. */
  datatype Option<+T> = None | Some(value: T) {

    /** The present value, or `default` for `None`. */
    function GetOr(default: T): T {
      match this
      case Some(v) => v
      case None => default
    }
  }

  /** The outcome of a step that may raise: a value or the error it raised. */
  datatype Result<+T, +E> = Ok(value: T) | Err(error: E) {

    predicate IsFailure() {
      Err?
    }

    function PropagateFailure<U>(): Result<U, E>
      requires Err?
    {
      Err(error)
    }

    function Extract(): T
      requires Ok?
    {
      value
    }
  }
}

=== FILE: xml.dfy ===
/** The two ways the feed writer puts text into XML: `xml.sax.saxutils.escape`
    for element text and attribute values, and `cdata` for descriptions, which
    splits every `]]>` across two CDATA sections (section 2.7 of the W3C XML 1.0
    Recommendation forbids `]]>` inside one section). */
module Xml {
  import opened Wrappers
  import opened Text

  // ---------------------------------------------------------------------------
  // xml.sax.saxutils.escape

  /** The entity one character becomes. */
  function EscapeChar(c: char): string {
    if c == '&' then "&amp;"
    else if c == '<' then "&lt;"
    else if c == '>' then "&gt;"
    else [c]
  }

  /** `escape(s)`: `&`, `<` and `>` become entities, everything else is kept. */
  function Escape(s: string): (r: string)
    ensures |r| >= |s|
    decreases |s|
  {
    if |s| == 0 then "" else EscapeChar(s[0]) + Escape(s[1..])
  }

  /** Reading entities back: the inverse of `Escape`. */
  function Unescape(s: string): string
    decreases |s|
  {
    if |s| == 0 then ""
    else if StartsWith(s, "&amp;") then "&" + Unescape(s[5..])
    else if StartsWith(s, "&lt;") then "<" + Unescape(s[4..])
    else if StartsWith(s, "&gt;") then ">" + Unescape(s[4..])
    else [s[0]] + Unescape(s[1..])
  }

  /** Escaped text reads back as the original text. */
  lemma {:induction false} EscapeRoundTrip(s: string)
    ensures Unescape(Escape(s)) == s
    decreases |s|
  {
    if |s| > 0 {
      EscapeRoundTrip(s[1..]);
      UnescapeStep(s[0], Escape(s[1..]));
      assert s == [s[0]] + s[1..];
    }
  }

  /** One escaped character is read back, and reading goes on right after it. */
  lemma UnescapeStep(c: char, rest: string)
    ensures Unescape(EscapeChar(c) + rest) == [c] + Unescape(rest)
  {
    var e := EscapeChar(c) + rest;
    var n := |EscapeChar(c)|;
    assert e[..n] == EscapeChar(c) && e[n..] == rest;
    if c == '&' {
      assert StartsWith(e, "&amp;");
    } else if c == '<' {
      assert e[1] == 'l';
      assert !StartsWith(e, "&amp;") by { assert "&amp;"[1] == 'a'; }
      assert StartsWith(e, "&lt;");
    } else if c == '>' {
      assert e[1] == 'g';
      assert !StartsWith(e, "&amp;") by { assert "&amp;"[1] == 'a'; }
      assert !StartsWith(e, "&lt;") by { assert "&lt;"[1] == 'l'; }
      assert StartsWith(e, "&gt;");
    } else {
      assert e[0] == c;
      assert !StartsWith(e, "&amp;") by { assert "&amp;"[0] == '&'; }
      assert !StartsWith(e, "&lt;") by { assert "&lt;"[0] == '&'; }
      assert !StartsWith(e, "&gt;") by { assert "&gt;"[0] == '&'; }
    }
  }

  /** Escaped text has no `<` or `>` left, so it cannot open or close an element. */
  lemma {:induction false} EscapeNoAngles(s: string)
    ensures '<' !in Escape(s) && '>' !in Escape(s)
    decreases |s|
  {
    if |s| > 0 {
      EscapeNoAngles(s[1..]);
      var e := EscapeChar(s[0]);
      assert '<' !in e && '>' !in e;
    }
  }

  /** Escaping works piece by piece. */
  lemma {:induction false} EscapeAppend(a: string, b: string)
    ensures Escape(a + b) == Escape(a) + Escape(b)
    decreases |a|
  {
    if |a| == 0 {
      assert a + b == b;
    } else {
      assert (a + b)[0] == a[0] && (a + b)[1..] == a[1..] + b;
      EscapeAppend(a[1..], b);
    }
  }

  /** Text with no `&`, `<` or `>` is left as it is. */
  lemma {:induction false} EscapePlain(s: string)
    requires '&' !in s && '<' !in s && '>' !in s
    ensures Escape(s) == s
    decreases |s|
  {
    if |s| > 0 {
      assert s[0] in s;
      assert s == [s[0]] + s[1..];
      EscapePlain(s[1..]);
    }
  }

  /** `s.replace(c, rep)` for a one-character pattern, character by character. */
  function MapChar(s: string, c: char, rep: string): string
    decreases |s|
  {
    if |s| == 0 then "" else (if s[0] == c then rep else [s[0]]) + MapChar(s[1..], c, rep)
  }

  /** Replacing a one-character pattern is a character-by-character map. */
  lemma {:induction false} ReplaceOneChar(s: string, c: char, rep: string)
    ensures ReplaceAll(s, [c], rep) == MapChar(s, c, rep)
    decreases |s|
  {
    if |s| > 0 {
      ReplaceOneChar(s[1..], c, rep);
      assert OccursAt(s, [c], 0) <==> s[0] == c by {
        assert OccursAt(s, [c], 0) ==> s[0..1][0] == c;
        assert s[0] == c ==> s[0..1] == [c];
      }
    }
  }

  lemma {:induction false} MapCharAppend(a: string, b: string, c: char, rep: string)
    ensures MapChar(a + b, c, rep) == MapChar(a, c, rep) + MapChar(b, c, rep)
    decreases |a|
  {
    if |a| == 0 {
      assert a + b == b;
    } else {
      assert (a + b)[0] == a[0] && (a + b)[1..] == a[1..] + b;
      MapCharAppend(a[1..], b, c, rep);
    }
  }

  lemma {:induction false} MapCharAbsent(s: string, c: char, rep: string)
    requires c !in s
    ensures MapChar(s, c, rep) == s
    decreases |s|
  {
    if |s| > 0 {
      MapCharAbsent(s[1..], c, rep);
      assert s == [s[0]] + s[1..];
    }
  }

  /** `xml.sax.saxutils.escape` is three `replace` calls: `&` first, so that the
      entities added later are not escaped again, then `>`, then `<`. `Escape`
      computes the same thing. */
  lemma {:induction false} EscapeIsReplaceChain(s: string)
    ensures Escape(s) == ReplaceAll(ReplaceAll(ReplaceAll(s, "&", "&amp;"), ">", "&gt;"), "<", "&lt;")
  {
    ReplaceOneChar(s, '&', "&amp;");
    var s1 := MapChar(s, '&', "&amp;");
    ReplaceOneChar(s1, '>', "&gt;");
    var s2 := MapChar(s1, '>', "&gt;");
    ReplaceOneChar(s2, '<', "&lt;");
    EscapeAsMaps(s);
  }

  /** The three passes applied one after another, in the order of `escape`. */
  function EscapePasses(s: string): string {
    MapChar(MapChar(MapChar(s, '&', "&amp;"), '>', "&gt;"), '<', "&lt;")
  }

  lemma EscapePassesAppend(a: string, b: string)
    ensures EscapePasses(a + b) == EscapePasses(a) + EscapePasses(b)
  {
    MapCharAppend(a, b, '&', "&amp;");
    var a1, b1 := MapChar(a, '&', "&amp;"), MapChar(b, '&', "&amp;");
    MapCharAppend(a1, b1, '>', "&gt;");
    var a2, b2 := MapChar(a1, '>', "&gt;"), MapChar(b1, '>', "&gt;");
    MapCharAppend(a2, b2, '<', "&lt;");
  }

  /** On one character the three passes give its entity. */
  lemma EscapePassesChar(c: char)
    ensures EscapePasses([c]) == EscapeChar(c)
  {
    MapCharOne(c, '&', "&amp;");
    if c == '&' {
      MapCharAbsent("&amp;", '>', "&gt;");
      MapCharAbsent("&amp;", '<', "&lt;");
    } else {
      MapCharOne(c, '>', "&gt;");
      if c == '>' {
        MapCharAbsent("&gt;", '<', "&lt;");
      } else {
        MapCharOne(c, '<', "&lt;");
      }
    }
  }

  /** A pass over one character replaces it or keeps it. */
  lemma MapCharOne(c: char, d: char, rep: string)
    ensures MapChar([c], d, rep) == if c == d then rep else [c]
  {
    assert [c][1..] == [];
  }

  /** The `>` and `<` passes commute, since neither entity holds `<` or `>`. */
  lemma {:induction false} AnglePassesCommute(s: string)
    ensures MapChar(MapChar(s, '>', "&gt;"), '<', "&lt;") == MapChar(MapChar(s, '<', "&lt;"), '>', "&gt;")
    decreases |s|
  {
    if |s| > 0 {
      var c, t := s[0], s[1..];
      assert s == [c] + t;
      MapCharAppend([c], t, '>', "&gt;");
      MapCharAppend([c], t, '<', "&lt;");
      var g, l := MapChar([c], '>', "&gt;"), MapChar([c], '<', "&lt;");
      MapCharAppend(g, MapChar(t, '>', "&gt;"), '<', "&lt;");
      MapCharAppend(l, MapChar(t, '<', "&lt;"), '>', "&gt;");
      AnglePassesChar(c);
      AnglePassesCommute(t);
    }
  }

  /** The two angle passes commute on one character. */
  lemma AnglePassesChar(c: char)
    ensures MapChar(MapChar([c], '>', "&gt;"), '<', "&lt;") == MapChar(MapChar([c], '<', "&lt;"), '>', "&gt;")
  {
    MapCharOne(c, '>', "&gt;");
    MapCharOne(c, '<', "&lt;");
    if c == '>' {
      MapCharAbsent("&gt;", '<', "&lt;");
    } else if c == '<' {
      MapCharAbsent("&lt;", '>', "&gt;");
    }
  }

  lemma {:induction false} EscapeAsMaps(s: string)
    ensures Escape(s) == EscapePasses(s)
    decreases |s|
  {
    if |s| > 0 {
      EscapeAsMaps(s[1..]);
      assert s == [s[0]] + s[1..];
      EscapePassesAppend([s[0]], s[1..]);
      EscapePassesChar(s[0]);
    }
  }

  // ---------------------------------------------------------------------------
  // cdata

  const Open: string := "<![CDATA["
  const Close: string := "]]>"

  /** What each `]]>` of the text becomes: the first section ends after `]]`, and
      the `>` starts the next one. */
  const SplitClose: string := "]]]]><![CDATA[>"

  /** The replacement is the two brackets, a section end, a section start and the
      `>`. */
  lemma SplitCloseParts()
    ensures SplitClose == "]]" + Close + Open + ">"
  {
  }

  lemma CloseParts()
    ensures Close == "]]" + ">"
  {
  }

  /** `cdata(text)` for a text or `None`. */
  function CData(text: Option<string>): (r: string)
    ensures text.None? ==> r == Open + Close
    ensures text.Some? && !Contains(text.value, Close) ==> r == Open + text.value + Close
  {
    var t := text.GetOr("");
    if Contains(t, Close) then Open + ReplaceAll(t, Close, SplitClose) + Close
    else
      ReplaceAllAbsent(t, Close, SplitClose);
      Open + t + Close
  }

  /** What an XML reader gets from a run of CDATA sections, given the text after the
      first `<![CDATA[`: each section runs to its first `]]>`, and is followed
      either by the end or by the next `<![CDATA[`. `None` when the text is not
      such a run. */
  function SectionsFrom(body: string): (r: Option<string>)
    decreases |body|
  {
    match IndexFrom(body, Close, 0)
    case None => None
    case Some(k) =>
      var content := body[..k];
      var rest := body[k + |Close|..];
      if |rest| == 0 then Some(content)
      else if StartsWith(rest, Open) then
        match SectionsFrom(rest[|Open|..])
        case None => None
        case Some(more) => Some(content + more)
      else None
  }

  /** The text a reader recovers from a whole CDATA run. */
  function CDataText(x: string): Option<string> {
    if StartsWith(x, Open) then SectionsFrom(x[|Open|..]) else None
  }

  /** No `]]>` lies wholly inside `p`. */
  predicate CloseFree(p: string) {
    forall j :: 0 <= j && j + |Close| <= |p| ==> !OccursAt(p, Close, j)
  }

  /** The sections `cdata` writes hold, together, exactly the original text. */
  lemma CDataRoundTrip(text: string)
    ensures CDataText(CData(Some(text))) == Some(text)
  {
    var r := ReplaceAll(text, Close, SplitClose);
    if !Contains(text, Close) {
      ReplaceAllAbsent(text, Close, SplitClose);
    }
    var x := Open + (r + Close);
    assert CData(Some(text)) == x;
    assert x[..|Open|] == Open && x[|Open|..] == r + Close;
    SectionsRoundTrip(text);
  }

  /** The heart of the round trip: the replaced text, closed, reads back. */
  lemma {:induction false} SectionsRoundTrip(t: string)
    ensures SectionsFrom(ReplaceAll(t, Close, SplitClose) + Close) == Some(t)
    decreases |t|
  {
    match IndexFrom(t, Close, 0)
    case None =>
      ReplaceAllAbsent(t, Close, SplitClose);
      SectionsLast(t);
    case Some(i) =>
      var a, b := t[..i], t[i + |Close|..];
      var p := a + "]]";
      var rb := ReplaceAll(b, Close, SplitClose);
      var y := ">" + rb + Close;
      ReplacedAtFirst(t, i);
      PrefixCloseFree(t, i);
      SectionsNext(p, y);
      assert SectionsFrom(ReplaceAll(t, Close, SplitClose) + Close) ==
             (match SectionsFrom(y) case None => None case Some(m) => Some(p + m));
      assert !OccursAt(">" + b, Close, 0) by {
        assert (">" + b)[0] == '>' && Close[0] == ']';
      }
      ReplaceAllSkip(">", b, Close, SplitClose);
      assert y == ReplaceAll(">" + b, Close, SplitClose) + Close;
      SectionsRoundTrip(">" + b);
      assert SectionsFrom(y) == Some(">" + b);
      Reassemble(a, b);
      SplitAtOccurrence(t, Close, i);
  }

  /** The two brackets that end one section and the `>` that starts the next are
      the `]]>` they came from. */
  lemma Reassemble(a: string, b: string)
    ensures (a + "]]") + (">" + b) == a + Close + b
  {
    CloseParts();
    Assoc(a + "]]", ">", b);
    Assoc(a, "]]", ">");
  }

  /** Replacing from the first `]]>` on: the text before it is copied, then comes
      the split marker and the replaced remainder. */
  lemma ReplacedAtFirst(t: string, i: nat)
    requires IndexFrom(t, Close, 0) == Some(i)
    ensures var rb := ReplaceAll(t[i + |Close|..], Close, SplitClose);
            ReplaceAll(t, Close, SplitClose) + Close == (t[..i] + "]]") + Close + Open + (">" + rb + Close)
  {
    var a, b := t[..i], t[i + |Close|..];
    SplitAtOccurrence(t, Close, i);
    assert t == a + (Close + b);
    ReplaceAllSkip(a, Close + b, Close, SplitClose);
    ReplaceAtStart(b);
    var rb := ReplaceAll(b, Close, SplitClose);
    SplitCloseParts();
    var front := a + "]]" + Close + Open;
    Assoc(a, SplitClose, rb);
    Assoc(a, "]]" + Close + Open, ">");
    Assoc(a, "]]" + Close, Open);
    Assoc(a, "]]", Close);
    Assoc(front, ">" + rb, Close);
    Assoc(front, ">", rb);
  }

  /** A text that starts with `]]>` starts its replacement with the split marker. */
  lemma ReplaceAtStart(b: string)
    ensures ReplaceAll(Close + b, Close, SplitClose) == SplitClose + ReplaceAll(b, Close, SplitClose)
  {
    assert (Close + b)[|Close|..] == b;
    assert OccursAt(Close + b, Close, 0);
  }

  /** The text up to and including the brackets of its first `]]>` holds no
      `]]>`. */
  lemma PrefixCloseFree(t: string, i: nat)
    requires IndexFrom(t, Close, 0) == Some(i)
    ensures CloseFree(t[..i] + "]]")
  {
    var p := t[..i] + "]]";
    assert t[i..i + 3] == Close;
    assert p == t[..i + 2] by {
      assert t[i] == Close[0] && t[i + 1] == Close[1];
    }
    forall j | 0 <= j && j + |Close| <= |p| ensures !OccursAt(p, Close, j) {
      assert j < i;
      assert !OccursAt(t, Close, j);
      assert p[j..j + 3] == t[j..j + 3];
    }
  }

  /** After a stretch with no `]]>` in it, the first `]]>` is the next one, even
      though the stretch may end in brackets. */
  lemma FirstCloseAt(p: string, x: string)
    requires CloseFree(p)
    ensures IndexFrom(p + Close + x, Close, 0) == Some(|p|)
  {
    var s := p + Close + x;
    assert s[|p|..|p| + 3] == Close;
    forall j | 0 <= j < |p| ensures !OccursAt(s, Close, j) {
      assert |Close| == 3;
      if j + 3 <= |p| {
        assert !OccursAt(p, Close, j);
        assert s[j..j + 3] == p[j..j + 3];
      } else {
        assert Close[0] == ']' && Close[1] == ']' && Close[2] == '>';
        assert s[j + 2] == Close[j + 2 - |p|];
        assert s[j..j + 3][2] == s[j + 2];
      }
    }
    IndexFromAt(s, Close, |p|);
  }

  /** A last section reads back as its content. */
  lemma SectionsLast(p: string)
    requires CloseFree(p)
    ensures SectionsFrom(p + Close) == Some(p)
  {
    FirstCloseAt(p, "");
    assert p + Close + "" == p + Close;
    assert (p + Close)[..|p|] == p;
    assert (p + Close)[|p| + |Close|..] == "";
  }

  /** A section followed by another reads back as its content and what follows. */
  lemma SectionsNext(p: string, y: string)
    requires CloseFree(p)
    ensures SectionsFrom(p + Close + Open + y) ==
            (match SectionsFrom(y) case None => None case Some(m) => Some(p + m))
  {
    var s := p + Close + Open + y;
    assert s == p + Close + (Open + y);
    FirstCloseAt(p, Open + y);
    assert s[..|p|] == p;
    var rest := s[|p| + |Close|..];
    assert rest == Open + y;
    assert rest[..|Open|] == Open && rest[|Open|..] == y;
  }

  /** An occurrence with none before it is the one `find` reports. */
  lemma IndexFromAt(s: string, p: string, i: nat)
    requires OccursAt(s, p, i)
    requires forall j :: 0 <= j < i ==> !OccursAt(s, p, j)
    ensures IndexFrom(s, p, 0) == Some(i)
  {
  }
}
